=== FILE: README.md ===
# Mental-health platform core, modelled in Dafny

This project models the logic at the heart of a small mental-health
platform and of the product-filter demo page that sits next to it.

**Chat backend**
- Registration and login: normalising input, the ordered validation chain, the default display name, the stored user record and the token claims (`Auth`).
- The in-memory counselor matcher: who is online, pairing a user with a counselor, the session table and peer lookup (`ChatMatch`).
- The chat WebSocket handler (`ChatSocket`):
  - connection with a `token=` query parameter and the role it derives;
  - the per-user socket registry;
  - `start_session`, `message`, `typing`, `delivered` / `seen`;
  - the legacy `{cipher}` frame;
  - close handling.
- The exercise-completion counter kept per user and per key, with Java `int` wrap-around (`ExerciseCounter`).

**Wellness-platform services**
- The mood journal: one entry per user per day, analytics over a date window and the trend classifier (`Mood`).
- Counselor chat sessions: create or reuse, append a message, end (`ChatService`).
- Exercise sessions: start, complete with duration, progress listing and statistics (`ExerciseService`).

**Web clients**
- The placeholder message "encryption": Base64 (RFC 4648, section 4) of the UTF-8 bytes (RFC 3629) of the text, and the forgiving decode of a received text (`Base64`, `Utf8`, `MessageCodec`).
- The role-filtered navigation drawer (`Menu`).
- The product filter page: category, price-bucket, rating and search filters, the sort options, the star row, the active-filter tags and `addProduct` (`ProductFilter`).

**How it is modelled**
- Repositories are sequences of documents. A `findBy…` is the first match, and a save either replaces the document with the same id or appends.
- Each operation returns the new store next to its answer. Errors are `Result` values carrying the exception message.
- Things drawn from outside are parameters:
  - fresh ids (UUIDs, Mongo ids, saved-message ids);
  - the clock;
  - the password encoder and matcher;
  - the token service;
  - the counselor that `findAny` happens to pick.
- The WebSocket handler is a pure state machine. Its state holds the open sockets, the socket attributes, the registry, the matcher, the stored messages and an append-only log of outgoing frames and closes. A broadcast is one event carrying the set of its recipient sockets.

Shared helpers:
- `Strings`: Java `trim`, ASCII lower-casing, substring search, `split` with trailing empty fields dropped.
- `Sorting`: stable insertion sort by an integer key.
- `Find`: first index satisfying a predicate.
- `Int32`: Java `int` wrap-around and truncating division.
- `Wrappers`: `Option` and `Result`.

## Model

| member | source | states |
|---|---|---|
| Auth.Clean | backend/src/main/java/com/example/mentalhealth/service/AuthService.java:26-28 | a missing field reads as the empty string; a present one becomes the slice of it that is left once every leading and trailing character at or below U+0020 is removed, so neither end of the result is such a character |
| Auth.CleanEmail | backend/src/main/java/com/example/mentalhealth/service/AuthService.java:27 | the normalised email has the trimmed length, and each of its characters is the lower-cased character of the trimmed email at the same position |
| Auth.Utf16Length | backend/src/main/java/com/example/mentalhealth/service/AuthService.java:32 | the length the password check measures: one unit per character plus one more for each character outside the Basic Multilingual Plane |
| Auth.CleanEmailIdempotent | backend/src/main/java/com/example/mentalhealth/service/AuthService.java:27 | normalising an already normalised email changes nothing |
| Auth.DefaultName | backend/src/main/java/com/example/mentalhealth/service/AuthService.java:38 | a blank name defaults to the text before the first '@'; an email made only of '@' has no such field and fails with the index error |
| Auth.RegisterError | backend/src/main/java/com/example/mentalhealth/service/AuthService.java:30-35 | each of the four refusals happens exactly when its check is the first to fail, and none happens exactly when all checks pass |
| Auth.Register | backend/src/main/java/com/example/mentalhealth/service/AuthService.java:25-57 | a refused registration stores nothing; an accepted one appends one USER record with the encoded password and answers with the token for claims {subject = id, roles = [USER]} and the id/name/email map |
| Auth.Login | backend/src/main/java/com/example/mentalhealth/service/AuthService.java:59-76 | empty email or password is refused first; otherwise a login succeeds exactly for a known email whose hash matches, and answers the same shape as registration |
| Auth.RegisterKeepsEmailsUnique | backend/src/main/java/com/example/mentalhealth/service/AuthService.java:34-44 | registration keeps every stored email unique |
| Auth.RegisterThenLogin | backend/src/main/java/com/example/mentalhealth/service/AuthService.java:25-76 | a user who has just registered can log in with the same email (in any case and spacing) and password, and gets the same user map |
| Auth.RegisterTwiceRefused | backend/src/main/java/com/example/mentalhealth/service/AuthService.java:34-35 | a second registration with the same normalised email is refused with "Email already registered" and stores nothing |
| Auth.UnknownEmailAndWrongPasswordLookAlike | backend/src/main/java/com/example/mentalhealth/service/AuthService.java:63-64 | an unknown email and a wrong password give the same "Invalid credentials" answer |
| Auth.FindByEmail | backend/src/main/java/com/example/mentalhealth/service/AuthService.java:34 | the lookup finds a stored user with that email, or reports that no stored user has it |
| Auth.UserMap | backend/src/main/java/com/example/mentalhealth/service/AuthService.java:49-56 | the response map has exactly the keys id, name and email, holding the user's values |
| ChatMatch.SetOnline | backend/src/main/java/com/example/mentalhealth/service/ChatMatchService.java:19-21 | the user's role is recorded, replacing an earlier one; every other user and every session is unchanged |
| ChatMatch.SetOfflineAsWritten | backend/src/main/java/com/example/mentalhealth/service/ChatMatchService.java:23-27 | the user leaves the online map, and every session whose pair string contains the user id as a substring is dropped |
| ChatMatch.SetOfflineAsWrittenDropsBystanderSession | backend/src/main/java/com/example/mentalhealth/service/ChatMatchService.java:26 | user "u1" going offline drops the session of "u10" and "c1" |
| ChatMatch.SetOffline | backend/src/main/java/com/example/mentalhealth/service/ChatMatchService.java:23-27 | the user leaves the online map, and exactly the sessions naming the user as a participant are dropped |
| ChatMatch.SetOfflineDropsOnlyOwnSessions | backend/src/main/java/com/example/mentalhealth/service/ChatMatchService.java:26 | both versions drop every session the user is in; the corrected one drops exactly those |
| ChatMatch.FindAvailableCounselor | backend/src/main/java/com/example/mentalhealth/service/ChatMatchService.java:29-34 | the answer is some user online as COUNSELOR, and is empty only when no counselor is online |
| ChatMatch.CreateSession | backend/src/main/java/com/example/mentalhealth/service/ChatMatchService.java:36-40 | the fresh id now maps to "user:counselor"; other sessions and the online map are unchanged |
| ChatMatch.CreateSessionAddsOne | backend/src/main/java/com/example/mentalhealth/service/ChatMatchService.java:36-40 | a fresh id adds exactly one id to the active session ids that `getActiveSessionIds` (line 50) reports, and the other sessions keep their pairs |
| ChatMatch.GetPeer | backend/src/main/java/com/example/mentalhealth/service/ChatMatchService.java:42-48 | an unknown session or a pair that does not split into two has no peer; otherwise the peer is the second participant when the requester is the first, and the first participant for anyone else |
| ChatMatch.PeerAfterCreate | backend/src/main/java/com/example/mentalhealth/service/ChatMatchService.java:36-48 | after pairing two plain ids, each side's peer is the other side |
| ChatMatch.OfflineKeepsOthersSessions | backend/src/main/java/com/example/mentalhealth/service/ChatMatchService.java:23-40 | with the corrected `setOffline`, a third user going offline keeps a pair's session |
| ChatSocket.TokenFrom | backend/src/main/java/com/example/mentalhealth/ws/ChatSocketHandler.java:202-209 | no query, or no `&`-separated part starting with `token=`, gives no token; otherwise the token is the rest of the first such part |
| ChatSocket.FirstWithPrefixPadded | backend/src/main/java/com/example/mentalhealth/ws/ChatSocketHandler.java:204 | the trailing empty parts that Java's `split` drops never change which part carries the token |
| ChatSocket.DeriveRole | backend/src/main/java/com/example/mentalhealth/ws/ChatSocketHandler.java:51-57 | a `roles` collection gives COUNSELOR exactly when it lists COUNSELOR, else USER; otherwise the `role` claim, defaulting to USER |
| ChatSocket.IssuedTokensConnectAsUser | backend/src/main/java/com/example/mentalhealth/ws/ChatSocketHandler.java:51-57 | tokens minted at registration or login (roles = [USER]) always connect as USER |
| ChatSocket.SendTo | backend/src/main/java/com/example/mentalhealth/ws/ChatSocketHandler.java:198-200 | a frame is written only to an open socket, and nothing else changes |
| ChatSocket.BroadcastTo | backend/src/main/java/com/example/mentalhealth/ws/ChatSocketHandler.java:189-196 | a null user reaches no one; otherwise exactly the user's registered open sockets receive the frame, once |
| ChatSocket.CloseSocket | backend/src/main/java/com/example/mentalhealth/ws/ChatSocketHandler.java:46-47 | the socket is closed with NOT_ACCEPTABLE and leaves the open set; nothing else changes |
| ChatSocket.Connect | backend/src/main/java/com/example/mentalhealth/ws/ChatSocketHandler.java:45-68 | the socket stays open exactly when a token is present and parses to claims with a subject; then it is registered under its user, marked online with the derived role and acknowledged, with the saved messages unchanged, and otherwise it is closed |
| ChatSocket.OnClose | backend/src/main/java/com/example/mentalhealth/ws/ChatSocketHandler.java:94-101 | the socket leaves its user's set; an emptied set is removed and the user goes offline through the matcher's `setOffline` as written, substring test included |
| ChatSocket.OnCloseIntended | backend/src/main/java/com/example/mentalhealth/ws/ChatSocketHandler.java:94-101 | the same registry change as OnClose, with the corrected `setOffline` that removes only sessions the user takes part in |
| ChatSocket.CloseDropsBystanderSession | backend/src/main/java/com/example/mentalhealth/ws/ChatSocketHandler.java:99 | closing the socket of user `u1` ends the session of `u10` and `c1` through the as-written matcher, and the corrected one keeps it |
| ChatSocket.ConnectKeepsRegistry | backend/src/main/java/com/example/mentalhealth/ws/ChatSocketHandler.java:58-64 | connecting a fresh socket keeps the registry well formed: no empty set, and every registered socket carries its user's id |
| ChatSocket.OnCloseKeepsRegistry | backend/src/main/java/com/example/mentalhealth/ws/ChatSocketHandler.java:94-101 | closing keeps the registry well formed |
| ChatSocket.StartSession | backend/src/main/java/com/example/mentalhealth/ws/ChatSocketHandler.java:103-132 | a USER with no counselor online is told to wait; a USER with one is paired with the picked counselor; anyone else needs a `sessionId` or gets an error; a started session is remembered on the socket and announced to both sides |
| ChatSocket.StartAsUser | backend/src/main/java/com/example/mentalhealth/ws/ChatSocketHandler.java:107-115 | wait when no counselor is online; otherwise a new session with the picked counselor, announced to both |
| ChatSocket.JoinNamedSession | backend/src/main/java/com/example/mentalhealth/ws/ChatSocketHandler.java:116-125 | an empty `sessionId` is answered with "sessionId required for counselor"; otherwise that session is joined with the matcher's peer |
| ChatSocket.Started | backend/src/main/java/com/example/mentalhealth/ws/ChatSocketHandler.java:126-131 | the socket's session attribute is set; the caller and then the peer are sent `session_started` |
| ChatSocket.ChatMessage | backend/src/main/java/com/example/mentalhealth/ws/ChatSocketHandler.java:134-147 | with no session the sender gets "No active session"; with an empty text or recipient it is refused; otherwise the message is saved encrypted under the fresh id and sent to the recipient and echoed to the sender |
| ChatSocket.Typing | backend/src/main/java/com/example/mentalhealth/ws/ChatSocketHandler.java:149-154 | a typing notice reaches exactly the named user's open sockets and is never stored |
| ChatSocket.MarkReceipt | backend/src/main/java/com/example/mentalhealth/ws/ChatSocketHandler.java:179-187 | only the named saved message is stamped delivered or seen; an unknown or empty id changes nothing and nothing is sent |
| ChatSocket.LegacyCipher | backend/src/main/java/com/example/mentalhealth/ws/ChatSocketHandler.java:157-177 | a `{cipher}` frame needs an active session and a peer, and an empty cipher is dropped; otherwise the handler ends exactly as RelayCipher leaves it for that session's peer |
| ChatSocket.RelayCipher | backend/src/main/java/com/example/mentalhealth/ws/ChatSocketHandler.java:170-176 | the cipher text is stored encrypted under the fresh id; the new frames are the sender's acknowledgement followed by one relay frame to the peer's open sockets when it has any |
| ChatSocket.RouteOf | backend/src/main/java/com/example/mentalhealth/ws/ChatSocketHandler.java:75-90 | each `type` selects its handler; a frame with `cipher` and no `type` is legacy; anything else is unknown |
| ChatSocket.Dispatch | backend/src/main/java/com/example/mentalhealth/ws/ChatSocketHandler.java:71-91 | a socket without a user id is closed; otherwise the frame has exactly the effect of its route's handler, and an unknown type is answered with an error |
| ChatSocket.FirstWithPrefix | backend/src/main/java/com/example/mentalhealth/ws/ChatSocketHandler.java:202-209 | none exactly when no query part starts with `token=`; otherwise the rest of the first part that does |
| ChatSocket.Recipients | backend/src/main/java/com/example/mentalhealth/ws/ChatSocketHandler.java:189-196 | a broadcast reaches exactly the open sockets registered to the user, and nothing for a missing or unknown user |
| ChatSocket.AsBoolean | backend/src/main/java/com/example/mentalhealth/ws/ChatSocketHandler.java:151 | the typing flag as `asBoolean(false)` reads a text node |
| ChatSocket.DispatchKeepsRegistry | backend/src/main/java/com/example/mentalhealth/ws/ChatSocketHandler.java:71-91 | no frame changes the registry or any socket's user id, so the registry stays well formed |
| ChatSocket.WaitRecordsNothing | backend/src/main/java/com/example/mentalhealth/ws/ChatSocketHandler.java:109-113 | a USER told to wait gets no session attribute and no session in the matcher |
| ExerciseCounter.Progress | backend/src/main/java/com/example/mentalhealth/controller/ExerciseController.java:18-27 | a known user sees their counts unchanged; an unknown user gets an empty document saved and sees no counts |
| ExerciseCounter.Complete | backend/src/main/java/com/example/mentalhealth/controller/ExerciseController.java:29-41 | only the caller's document changes, and in it only the count under the body's `key` field ("" when the field is absent), which becomes the old count (0 when absent) plus one with `int` wrap-around |
| ExerciseCounter.CompleteCountsOne | backend/src/main/java/com/example/mentalhealth/controller/ExerciseController.java:38 | below the top of the `int` range the key's count grows by exactly one |
| ExerciseCounter.CompleteWrapsAtMax | backend/src/main/java/com/example/mentalhealth/controller/ExerciseController.java:38 | a count at 2147483647 wraps to -2147483648 |
| ExerciseCounter.FirstCompletion | backend/src/main/java/com/example/mentalhealth/controller/ExerciseController.java:33-39 | a user's first completion creates the document with that one key counted once, and `progress` then shows it |
| ExerciseService.GetExerciseById | mental-health-platform/backend/src/main/java/com/mentalhealth/service/ExerciseService.java:29-32 | the exercise with that id, or "Exercise not found" exactly when none has it |
| ExerciseService.StartExercise | mental-health-platform/backend/src/main/java/com/mentalhealth/service/ExerciseService.java:34-44 | an unknown exercise is refused; otherwise one record for the caller and exercise, started now and not completed, is appended |
| ExerciseService.MinutesBetween | mental-health-platform/backend/src/main/java/com/mentalhealth/service/ExerciseService.java:59-62 | on a nanosecond clock, a non-negative elapsed time gives its whole minutes, and the result is narrowed to `int`; the duration's seconds are rounded down before `toMinutes` truncates toward zero |
| ExerciseService.SubSecondStartsCount | mental-health-platform/backend/src/main/java/com/mentalhealth/service/ExerciseService.java:59-62 | fractions of a second count: from 0.9 s to 60.1 s is 0 minutes, from 0 s to 60 s is 1 |
| ExerciseService.NegativeDurationRoundsSecondsDown | mental-health-platform/backend/src/main/java/com/mentalhealth/service/ExerciseService.java:59-62 | a negative duration of -59.5 s gives -1 minute, and one of -59 s gives 0 |
| ExerciseService.CompleteExercise | mental-health-platform/backend/src/main/java/com/mentalhealth/service/ExerciseService.java:46-65 | an unknown record or another user's record is refused; otherwise that record alone is marked completed now with the rating and feedback, and a duration when it has a start |
| ExerciseService.DurationCountsWholeMinutes | mental-health-platform/backend/src/main/java/com/mentalhealth/service/ExerciseService.java:59-62 | for a reasonable elapsed time the recorded duration is exactly its whole minutes |
| ExerciseService.UserProgress | mental-health-platform/backend/src/main/java/com/mentalhealth/service/ExerciseService.java:67-69 | exactly the caller's records, as a permutation, latest start first, records without a start last |
| ExerciseService.GetUserExerciseStats | mental-health-platform/backend/src/main/java/com/mentalhealth/service/ExerciseService.java:71-81 | started counts the caller's records and completed those completed, never more; recent progress is the first ten of the progress list |
| ExerciseService.StartThenCompleteCounts | mental-health-platform/backend/src/main/java/com/mentalhealth/service/ExerciseService.java:34-81 | a record started and then completed by its owner adds one to both statistics |
| Menu.EffectiveRole | mental-health-platform/frontend/src/components/Layout.jsx:65 | no user, no role or an empty role counts as USER; any other role is used as given |
| Menu.FilteredMenuItems | mental-health-platform/frontend/src/components/Layout.jsx:64-66 | an item is shown exactly when it lists the effective role |
| Menu.ForRoleMembers | mental-health-platform/frontend/src/components/Layout.jsx:64-66 | the filter keeps exactly the items listing the role |
| Menu.ForRoleIsSubsequence | mental-health-platform/frontend/src/components/Layout.jsx:64-66 | the drawer keeps the table's order |
| Menu.SignedOutSeesUserMenu | mental-health-platform/frontend/src/components/Layout.jsx:65 | a visitor without a role sees the USER drawer |
| Menu.UserMenu | mental-health-platform/frontend/src/components/Layout.jsx:52-66 | USER sees every page except Counselor Chat, in table order |
| Menu.CounselorMenu | mental-health-platform/frontend/src/components/Layout.jsx:52-66 | COUNSELOR sees Dashboard, Counselor Chat, Profile and Settings |
| Menu.AdminMenu | mental-health-platform/frontend/src/components/Layout.jsx:52-66 | ADMIN sees the whole table |
| Menu.UnknownRoleMenu | mental-health-platform/frontend/src/components/Layout.jsx:52-66 | any other role sees an empty drawer |
| Base64.Encode | mental-health/src/utils/crypto.js:4 | `btoa`: only alphabet digits followed by padding |
| Base64.EncodeLength | mental-health/src/utils/crypto.js:4 | the encoding of n bytes has 4·⌈n/3⌉ characters |
| Base64.Decode | mental-health/src/utils/crypto.js:10 | `atob`: whitespace is ignored; a length of 1 mod 4 or a character outside the alphabet fails |
| Base64.DecodeEncode | mental-health/src/utils/crypto.js:4-10 | decoding an encoding gives back the bytes |
| Base64.WhitespaceIgnored | mental-health/src/utils/crypto.js:10 | inserting ASCII whitespace anywhere does not change the decoding |
| Base64.PaddingOptional | mental-health/src/utils/crypto.js:10 | an encoding with its padding removed still decodes to the same bytes |
| Base64.ForeignCharRejected | mental-health/src/utils/crypto.js:10-12 | a character outside the alphabet, whitespace and '=' makes decoding fail |
| Base64.DigitRoundTrip | mental-health/src/utils/crypto.js:4-10 | each 6-bit value and its alphabet character map to each other |
| Utf8.EncodeChar | mental-health/src/utils/crypto.js:4 | a character becomes 1 to 4 bytes by its code point range, with lead and continuation bytes as RFC 3629 lays out |
| Utf8.Decode | mental-health/src/utils/crypto.js:10 | strict decoding: an error for any ill-formed sequence |
| Utf8.DecodeEncode | mental-health/src/utils/crypto.js:4-10 | decoding the UTF-8 of a text gives the text back |
| Utf8.EncodeDecode | mental-health/src/utils/crypto.js:10 | bytes that decode are exactly the encoding of what they decode to |
| Utf8.StrayContinuationRejected | mental-health/src/utils/crypto.js:10-12 | a lone continuation byte is rejected |
| Utf8.OverlongRejected | mental-health/src/utils/crypto.js:10-12 | an overlong two-byte form of '/' is rejected |
| MessageCodec.EncryptMessage | mental-health/src/utils/crypto.js:2-5 | the cipher text is padded Base64 of 4·⌈n/3⌉ characters for the n UTF-8 bytes of the message, and decodes back to those bytes |
| MessageCodec.DecryptMessage | mental-health/src/utils/crypto.js:7-14 | a text that is not Base64 of well-formed UTF-8 is returned as it is; otherwise the decoded text, whose UTF-8 is the decoded bytes |
| MessageCodec.DecryptEncrypt | mental-health/src/utils/crypto.js:2-14 | every message decrypts back to itself |
| MessageCodec.ForeignTextShownAsIs | mental-health/src/utils/crypto.js:11-13 | a received text with a character foreign to Base64 is shown unchanged |
| Mood.Save | mental-health-platform/backend/src/main/java/com/mentalhealth/service/MoodService.java:36 | an entry with a stored id replaces that document; any other entry is appended, a new one with a fresh id and creation time |
| Mood.CreateMoodEntry | mental-health-platform/backend/src/main/java/com/mentalhealth/service/MoodService.java:18-37 | the entry is the caller's with the given values and updated now; an existing entry for that day is overwritten in place with its id and creation time kept, otherwise the entry is saved: without an id it is appended under a fresh id, and with a client-sent id it replaces the stored document carrying that id, whoever owns it, or is appended when none does |
| Mood.CreateKeepsOnePerDay | mental-health-platform/backend/src/main/java/com/mentalhealth/service/MoodService.java:18-37 | the store keeps distinct ids and at most one entry per user per day; a repeated day does not grow it, and a new day sent without an id grows it by one |
| Mood.CreateOverwritesForeignEntry | mental-health-platform/backend/src/main/java/com/mentalhealth/service/MoodService.java:36 | as written, user "a" posting an entry for a new day with the id "x" of user "v"'s entry replaces that entry, which is no longer stored |
| Mood.CreateMoodEntryOwned | mental-health-platform/backend/src/main/java/com/mentalhealth/service/MoodService.java:18-37 | with the client's id ignored, a new day appends under a fresh id, no other user's entry changes, and distinct ids and one entry per user per day are kept |
| Mood.DeleteMoodEntry | mental-health-platform/backend/src/main/java/com/mentalhealth/service/MoodService.java:105-114 | "Mood entry not found" exactly for an unknown id, "Unauthorized" exactly for another user's entry; otherwise the entry is removed |
| Mood.RemoveId | mental-health-platform/backend/src/main/java/com/mentalhealth/service/MoodService.java:113 | deleting never grows the store and leaves no document with that id |
| Mood.RemoveIdMembers | mental-health-platform/backend/src/main/java/com/mentalhealth/service/MoodService.java:113 | exactly the documents without that id remain |
| Mood.RemoveIdIsExact | mental-health-platform/backend/src/main/java/com/mentalhealth/service/MoodService.java:113 | with distinct ids, deleting removes that one document and keeps the others in order |
| Mood.DeleteRemovesOne | mental-health-platform/backend/src/main/java/com/mentalhealth/service/MoodService.java:105-114 | a successful delete shrinks the store by one, leaves no document with that id and keeps the store well formed |
| Mood.InWindow | mental-health-platform/backend/src/main/java/com/mentalhealth/service/MoodService.java:43-45 | exactly the caller's entries strictly between the bounds, in store order |
| Mood.EntriesBetween | mental-health-platform/backend/src/main/java/com/mentalhealth/service/MoodService.java:43-45 | the same entries, newest first |
| Mood.Average | mental-health-platform/backend/src/main/java/com/mentalhealth/service/MoodService.java:63-66 | the mean times the count is the score sum |
| Mood.Distribution | mental-health-platform/backend/src/main/java/com/mentalhealth/service/MoodService.java:68-69 | each label occurs as often as entries carry it, and the counts total the entries |
| Mood.LabelCountPositive | mental-health-platform/backend/src/main/java/com/mentalhealth/service/MoodService.java:68-69 | a label is counted exactly when some entry carries it |
| Mood.CalculateTrend | mental-health-platform/backend/src/main/java/com/mentalhealth/service/MoodService.java:82-103 | fewer than two entries are neutral; otherwise improving or declining exactly when, in exact arithmetic, the newer half's mean is more than one half above or below the older half's, else stable |
| Mood.ThresholdInIntegers | mental-health-platform/backend/src/main/java/com/mentalhealth/service/MoodService.java:100-102 | the integer comparison used is equivalent to comparing the two means with a margin of 0.5 |
| Mood.GetMoodAnalytics | mental-health-platform/backend/src/main/java/com/mentalhealth/service/MoodService.java:47-80 | an empty window gives zero, neutral and no distribution; otherwise the count, mean, trend and distribution of the window's entries |
| ChatService.FindAvailableCounselor | mental-health-platform/backend/src/main/java/com/mentalhealth/service/ChatService.java:89-101 | the first user holding ROLE_COUNSELOR, or "default-counselor" exactly when there is none |
| ChatService.CreateSession | mental-health-platform/backend/src/main/java/com/mentalhealth/service/ChatService.java:22-41 | an active session of the caller is returned and nothing is stored; otherwise a new active session with the chosen counselor is appended |
| ChatService.CreateKeepsOneActive | mental-health-platform/backend/src/main/java/com/mentalhealth/service/ChatService.java:22-41 | creating keeps ids distinct and at most one active session per user |
| ChatService.CreateSessionTwice | mental-health-platform/backend/src/main/java/com/mentalhealth/service/ChatService.java:24-29 | asking twice returns the same session and stores nothing more |
| ChatService.SendMessage | mental-health-platform/backend/src/main/java/com/mentalhealth/service/ChatService.java:43-62 | "Session not found" exactly for an unknown session; otherwise the message is appended to that session alone |
| ChatService.SendKeepsWellFormed | mental-health-platform/backend/src/main/java/com/mentalhealth/service/ChatService.java:43-62 | sending keeps the session invariant |
| ChatService.GetSession | mental-health-platform/backend/src/main/java/com/mentalhealth/service/ChatService.java:64-67 | the stored session with that id, or "Session not found" exactly when there is none |
| ChatService.EndSession | mental-health-platform/backend/src/main/java/com/mentalhealth/service/ChatService.java:73-87 | an unknown session or one of another user is refused; otherwise it alone becomes ENDED at now with the rating and feedback |
| ChatService.EndKeepsWellFormed | mental-health-platform/backend/src/main/java/com/mentalhealth/service/ChatService.java:73-87 | ending keeps the session invariant, and ending again succeeds too |
| ProductFilter.ClearAllFilters | Exp3/script.js:388-395 | every filter back to "all", sort by name, empty search |
| ProductFilter.SetSearch | Exp3/script.js:108 | the search is stored lower-cased and no other setting changes |
| ProductFilter.InPriceBucket | Exp3/script.js:155-171 | the four closed price ranges in cents; any other bucket value lets every price through |
| ProductFilter.ParseTenths | Exp3/script.js:175 | `parseFloat` of a rating option in tenths; a whole number of stars reads as ten times its digits |
| ProductFilter.MeetsRating | Exp3/script.js:174-177 | a product passes when the threshold is "all", unparseable, or at most its rating |
| ProductFilter.SearchableText | Exp3/script.js:182 | the lower-cased name, description and category, joined by spaces |
| ProductFilter.MatchesFilters | Exp3/script.js:147-187 | a product is shown exactly when it passes the category, price, rating and search tests |
| ProductFilter.PriceBucketsOverlapAtBoundaries | Exp3/script.js:155-171 | 50, 100 and 500 dollars each sit in two buckets |
| ProductFilter.PriceBucketsCover | Exp3/script.js:155-171 | every price is in some bucket; an unknown bucket excludes nothing |
| ProductFilter.PriceFilterExact | Exp3/script.js:155-171 | the price filter keeps exactly the products in the chosen bucket |
| ProductFilter.RatingFilterExact | Exp3/script.js:174-177 | the rating filter keeps exactly the products rated at least the threshold |
| ProductFilter.SearchFilterExact | Exp3/script.js:180-184 | search keeps exactly the products whose lower-cased name, description and category contain the lower-cased typed text |
| ProductFilter.FilterProducts | Exp3/script.js:136-138 | exactly the matching products |
| ProductFilter.FilterIsSubsequence | Exp3/script.js:136-138 | in their original order |
| ProductFilter.FilterKeepsMultiplicity | Exp3/script.js:136-138 | each matching product as many times as it occurs in the input, and no other product |
| ProductFilter.DefaultFiltersKeepAll | Exp3/script.js:147-187 | with every filter at its default the list is unchanged |
| ProductFilter.SortKey | Exp3/script.js:189-205 | each sort option's comparator as an ascending key; an unknown option compares everything equal |
| ProductFilter.SortProducts | Exp3/script.js:189-205 | a permutation ordered by the chosen option; an unknown option keeps the order |
| ProductFilter.ApplyFilters | Exp3/script.js:136-140 | the shown list is a permutation of exactly the matching products, in the order of the selected sort |
| ProductFilter.DefaultViewIsIdentity | Exp3/script.js:136-140 | default filters and an unknown sort show the list as it is |
| ProductFilter.GenerateStars | Exp3/script.js:273-296 | ⌊rating⌋ full stars, then a half star when the fraction is at least one half, then empty stars up to five |
| ProductFilter.StarsForValidRating | Exp3/script.js:273-296 | a rating from 0 to 5 gives exactly five glyphs, the first ⌊rating⌋ full |
| ProductFilter.ActiveFilterTags | Exp3/script.js:359-386 | tags in the order category, price, rating, search; none exactly when every filter is at its default |
| ProductFilter.TagText | Exp3/script.js:362-376 | each tag's label, from which its kind can be read back: `Category: `, `Price: `, `Rating: ` or `Search: "` starts the text exactly for that kind, and the tag's value follows it, before the closing `+ stars` or quote |
| ProductFilter.ActiveFilterTagsExact | Exp3/script.js:362-376 | a filter has a tag exactly when it is not at its default, and no other tag appears |
| ProductFilter.ClearedStateShowsEverything | Exp3/script.js:388-395 | after clearing no tag is shown and every product is listed |
| ProductFilter.NewProductId | Exp3/script.js:495 | the new id is one more than the largest id, hence above all of them; an empty list has none |
| ProductFilter.AddProduct | Exp3/script.js:492-510 | the product is appended after the existing ones with an id one more than the largest of theirs |

## Left out

- Network, database, clock and randomness are parameters or left out. This covers WebSocket transport, Mongo repositories, Spring wiring, `UUID.randomUUID`, `now()`, `setTimeout` delays and DOM rendering.
- Concurrency is left out: the `ConcurrentHashMap` races and the async wrappers of the client functions.
- The token service (JJWT) and the password encoder (bcrypt) are opaque parameters; their internals are not modelled.
- Message encryption is the `encrypt` parameter of `ChatSocket.Env`, and what it returns (the Base64 IV and cipher text) is what a saved message holds. The AES-GCM cipher itself, its random IV and decryption are not modelled.
- Floating point: prices are in cents and ratings in tenths of a star; the two-decimal rounding of the mood average is not modelled.
- `getUserMoodEntries`, `getUserSessions`, `getAllActiveExercises`, `getExercisesByType` and `createExercise` are plain repository reads or writes with nothing to prove, so they are not modelled.
- JSON `null` field values and null mood scores or labels are not modelled. An absent field reads as the empty string, as Jackson's `asText("")` returns.
- Auth.CleanEmail: lower-casing covers ASCII letters only; Java's locale-sensitive `toLowerCase` is not modelled.
- Auth.DefaultName: requires an '@' in the email, which the registration chain checks before the name is defaulted.
- ChatSocket.Typing: takes the flag as the `asBoolean(false)` reading of the frame, which `Dispatch` computes.
- ChatSocket.Connect: of the exceptions the `try` block catches, only a rejected token and a token without a subject are modelled; a failing acknowledgement send is not.
- Mood.RemoveId: its contract states that the store does not grow and that no remaining document carries the id; that every other document is kept is stated by `Mood.RemoveIdMembers` and `Mood.RemoveIdIsExact`.
- Mood.Average: the exact mean, without the two-decimal rounding.
- Menu.ForRole: its contract states only the length bound; membership and order are in `Menu.ForRoleMembers` and `Menu.ForRoleIsSubsequence`.
- Base64.EncodeDigits: its contract states only the alphabet; the length is in `Base64.DigitsLength`.
- Base64.Decode: non-zero trailing bits in a final partial group are ignored, as the forgiving decode does; no message is built from them.
- ProductFilter.SortProducts: `localeCompare` on names is the `nameRank` parameter; the ordering of the sort is stated for a stable insertion sort.
- ProductFilter.ParseTenths: reads whole stars ("4") and one decimal digit ("4.5"), which is what the rating options hold. Other texts `parseFloat` would accept, such as " 4" or "4.50", read as `NaN` and exclude nothing. Its contract states only the whole-star case.
- ProductFilter.NewProductId: `Math.max` of no ids is `-Infinity`, so with an empty list the page pushes a product whose id is `-Infinity` (Exp3/script.js:494, 504-505). The model answers none instead.
- ProductFilter.AddProduct: on an empty list it adds nothing, where the page adds that product with id `-Infinity`.
- ProductFilter.SetSearch: lower-casing covers ASCII letters only; JavaScript's Unicode `toLowerCase` is not modelled.
- ProductFilter.SearchFilterExact: the lower-casing of both the product text and the typed text is ASCII-only, as in `SetSearch`.
- Mood.CalculateTrend: the half means are compared in exact rational arithmetic. Java compares `double` means, which can round a difference of exactly one half upwards: two halves of six entries summing to 11 and 14 compare as improving in Java and stable in the model.
- Mood.GetMoodAnalytics: its trend is `Mood.CalculateTrend`'s, with the same exact-arithmetic reading of ties.
- ChatSocket.Dispatch: a frame is a map of text fields. A payload that is not JSON, where `readTree` throws and the framework closes the socket (ChatSocketHandler.java:74), is not modelled.
- ChatSocket.AsBoolean: reads only text values. A numeric JSON flag such as `"typing": 1`, which Jackson's `asBoolean` reads as true for a non-zero number, is not modelled.
- Utf8.Decode: lone surrogates are not characters of the model's strings, so the error `encodeURIComponent` throws on a lone surrogate is not modelled (`unescape` itself never fails).
- The `ExerciseProgress` document of the chat backend is a map from key to count; the `ExerciseProgress.java` model class of the chat backend is not part of this model.

## Findings

| source | as written | input that shows it | evidently intended | confidence | as-written member | corrected member |
|---|---|---|---|---|---|---|
| backend/src/main/java/com/example/mentalhealth/service/ChatMatchService.java:26 | `setOffline` drops every session whose "user:counselor" pair string contains the user id as a substring | user "u1" goes offline while session "s1" pairs "u10" with "c1": "s1" is dropped although "u1" is not in it | drop only the sessions in which the user is one of the two participants | high for the substring match, not executed | ChatMatch.SetOfflineAsWritten, ChatMatch.SetOfflineAsWrittenDropsBystanderSession, ChatSocket.OnClose, ChatSocket.CloseDropsBystanderSession | ChatMatch.SetOffline, ChatSocket.OnCloseIntended |
| mental-health-platform/backend/src/main/java/com/mentalhealth/service/MoodService.java:36 | for a day the caller has no entry on, `createMoodEntry` saves the request body as sent, and the upsert honours a client-sent id | user "a" posts an entry for day 2 carrying id "x" of user "v"'s entry: that entry is replaced by "a"'s | a new day inserts a new document, as `deleteMoodEntry` (line 109) refuses to touch another user's entry | medium, not executed | Mood.CreateMoodEntry, Mood.CreateOverwritesForeignEntry | Mood.CreateMoodEntryOwned |

The socket handler's `ChatSocket.OnClose` calls the matcher as written, since that is what the handler does. `ChatSocket.OnCloseIntended` is the same close with the corrected matcher, and `ChatSocket.CloseDropsBystanderSession` shows a close on which the two differ. Likewise `Mood.CreateMoodEntry` keeps the service's behaviour, and `Mood.CreateMoodEntryOwned` is the version that ignores a client-sent id.

=== FILE: auth.dfy ===
/**
  Registration and login of the chat backend: input normalisation, the ordered
  validation chain, the default display name, the stored record and the token
  claims. The password encoder and the token service are opaque functions
  passed in by the caller; the user repository is a sequence searched by email.
*/
module Auth {
  import opened Wrappers
  import opened Strings

  const RoleUser: string := "USER"

  datatype User = User(id: string, name: string, email: string, passwordHash: string, roles: set<string>)

  /** The claims handed to the token service: the subject and the `roles` list. */
  datatype IssuedClaims = IssuedClaims(subject: string, roles: seq<string>)

  /** The response body: a token and a user map. */
  datatype AuthResponse = AuthResponse(token: string, user: map<string, string>)

  /**
    `x == null ? "" : x.trim()`, lower-cased for the email: a missing field is
    empty, and a present one is the part of it left between its runs of
    leading and trailing control characters and spaces.
  */
  function Clean(x: Option<string>): (r: string)
    ensures x.None? ==> r == ""
    ensures x.Some? ==> exists k :: 0 <= k <= |x.value| && r <= x.value[k..] && IsStrippedAround(x.value, k, |r|)
    ensures r != [] ==> !IsTrimmed(r[0]) && !IsTrimmed(r[|r| - 1])
  {
    match x
    case None => ""
    case Some(v) => Trim(v)
  }

  function CleanEmail(x: Option<string>): (r: string)
    ensures |r| == |Clean(x)|
    ensures forall i :: 0 <= i < |r| ==> r[i] == LowerChar(Clean(x)[i])
    ensures forall i :: 0 <= i < |r| ==> !IsUpperAscii(r[i])
  {
    LowerHasNoUpper(Clean(x));
    Lower(Clean(x))
  }

  /** Normalising an already normalised email changes nothing. */
  lemma CleanEmailIdempotent(x: Option<string>)
    ensures CleanEmail(Some(CleanEmail(x))) == CleanEmail(x)
  {
    var t := Clean(x);
    LowerOfTrimmedIsFixed(t);
    assert CleanEmail(Some(CleanEmail(x))) == Lower(Trim(Lower(t)));
  }

  /** Lower-casing a string with no trimmable end leaves nothing to trim, and lower-casing again changes nothing. */
  lemma LowerOfTrimmedIsFixed(t: string)
    requires t != [] ==> !IsTrimmed(t[0]) && !IsTrimmed(t[|t| - 1])
    ensures Lower(Trim(Lower(t))) == Lower(t)
  {
    var e := Lower(t);
    if e != [] {
      assert e[0] == LowerChar(t[0]) && e[|e| - 1] == LowerChar(t[|t| - 1]);
    }
    TrimOfTrimmed(e);
    LowerIdempotent(t);
  }

  /** A string with no trimmable character at either end is its own trim. */
  lemma TrimOfTrimmed(s: string)
    requires s != [] ==> !IsTrimmed(s[0]) && !IsTrimmed(s[|s| - 1])
    ensures Trim(s) == s
  {
    assert TrimStart(s) == s;
    assert TrimEnd(s) == s;
  }

  /** The positions of the characters outside the Basic Multilingual Plane. */
  ghost function Supplementary(s: string): set<nat> {
    set i: nat | i < |s| && s[i] as int > 0xFFFF
  }

  /** `String.length()`: supplementary characters count as two UTF-16 code units. */
  function Utf16Length(s: string): (n: nat)
    ensures n == |s| + |Supplementary(s)|
  {
    if |s| == 0 then 0
    else
      SupplementaryCons(s);
      (if s[0] as int > 0xFFFF then 2 else 1) + Utf16Length(s[1..])
  }

  /** The supplementary positions of `s` are those of its tail, shifted by one, and 0 when `s[0]` is one. */
  lemma SupplementaryCons(s: string)
    requires |s| > 0
    ensures |Supplementary(s)| == (if s[0] as int > 0xFFFF then 1 else 0) + |Supplementary(s[1..])|
  {
    var tail := Supplementary(s[1..]);
    SupplementarySplit(s);
    ShiftCard(tail);
    assert 0 !in Shift(tail);
  }

  /** Position j > 0 of `s` is supplementary exactly when position j - 1 of its tail is. */
  lemma SupplementarySplit(s: string)
    requires |s| > 0
    ensures Supplementary(s) == Shift(Supplementary(s[1..])) + (if s[0] as int > 0xFFFF then {0} else {})
  {
    var tail := Supplementary(s[1..]);
    forall j | j in Shift(tail) ensures j in Supplementary(s) {
      var i :| i in tail && i + 1 == j;
      assert s[1..][i] == s[j];
    }
    forall j | j in Supplementary(s) && j > 0 ensures j in Shift(tail) {
      assert s[1..][j - 1] == s[j];
      assert j - 1 in tail;
    }
  }

  /** Every element plus one. */
  ghost function Shift(a: set<nat>): set<nat> {
    set i | i in a :: i + 1
  }

  /** Adding one to every element keeps the number of elements. */
  lemma {:induction false} ShiftCard(a: set<nat>)
    ensures |Shift(a)| == |a|
    decreases |a|
  {
    if a != {} {
      var x :| x in a;
      ShiftCard(a - {x});
      assert x + 1 !in Shift(a - {x});
      forall y: nat ensures y in Shift(a) <==> y in Shift(a - {x}) + {x + 1} {
        if y in Shift(a) && y != x + 1 {
          assert y - 1 in a - {x};
        }
      }
      assert Shift(a) == Shift(a - {x}) + {x + 1};
    }
  }

  /** `userRepo.findByEmail`: the email index is unique, so the first match is the match. */
  function FindByEmail(users: seq<User>, email: string): (r: Option<User>)
    ensures r.Some? ==> r.value in users && r.value.email == email
    ensures r.None? ==> forall i :: 0 <= i < |users| ==> users[i].email != email
  {
    if |users| == 0 then None
    else if users[0].email == email then Some(users[0])
    else FindByEmail(users[1..], email)
  }

  /**
    `cleanEmail.split("@")[0]`. The split drops trailing empty fields, so an
    email made only of '@' characters gives an empty array and the index throws.
  */
  function DefaultName(email: string): (r: Result<string>)
    requires '@' in email
    ensures r.Ok? ==> r.value == email[..IndexOf(email, '@')]
    ensures r.Err? <==> forall i :: 0 <= i < |email| ==> email[i] == '@'
  {
    var parts := JavaSplit(email, '@');
    if |parts| == 0 then
      NoFieldsMeansOnlyAts(email);
      Err("Index 0 out of bounds for length 0")
    else
      SomeFieldMeansNotOnlyAts(email);
      Ok(parts[0])
  }

  /** Splitting on '@' leaves no field only when every character is '@'. */
  lemma NoFieldsMeansOnlyAts(email: string)
    requires JavaSplit(email, '@') == []
    ensures forall i :: 0 <= i < |email| ==> email[i] == '@'
  {
    var all := SplitAll(email, '@');
    JoinOfEmptyFields(all, '@');
    assert forall i :: 0 <= i < |email| ==> email[i] in Join(all, '@');
  }

  /** A field left after splitting on '@' holds a character other than '@'. */
  lemma SomeFieldMeansNotOnlyAts(email: string)
    requires '@' in email && JavaSplit(email, '@') != []
    ensures !(forall i :: 0 <= i < |email| ==> email[i] == '@')
  {
    var parts := JavaSplit(email, '@');
    var all := SplitAll(email, '@');
    var c := parts[|parts| - 1][0];
    assert parts[|parts| - 1] == all[|parts| - 1];
    JoinKeepsFieldChars(all, '@', |parts| - 1, c);
  }

  function UserMap(u: User): (m: map<string, string>)
    ensures m.Keys == {"id", "name", "email"}
    ensures m["id"] == u.id && m["name"] == u.name && m["email"] == u.email
  {
    map["id" := u.id, "name" := u.name, "email" := u.email]
  }

  /** The check that rejects a registration, in the order the service applies them. */
  function RegisterError(users: seq<User>, email: string, password: string): (r: Option<string>)
    ensures r == Some("Email is required") <==> email == ""
    ensures r == Some("Email is invalid") <==> email != "" && '@' !in email
    ensures r == Some("Password must be at least 6 characters") <==>
              email != "" && '@' in email && Utf16Length(password) < 6
    ensures r == Some("Email already registered") <==>
              email != "" && '@' in email && Utf16Length(password) >= 6 && FindByEmail(users, email).Some?
    ensures r.None? <==> email != "" && '@' in email && Utf16Length(password) >= 6 && FindByEmail(users, email).None?
  {
    if email == "" then Some("Email is required")
    else if '@' !in email then Some("Email is invalid")
    else if Utf16Length(password) < 6 then Some("Password must be at least 6 characters")
    else if FindByEmail(users, email).Some? then Some("Email already registered")
    else None
  }

  /**
    `register`: on success the new user is appended with the normalised email,
    the encoded password and the single role USER, and a token with
    `roles = ["USER"]` is issued for the new id.
  */
  function Register(users: seq<User>, name: Option<string>, email: Option<string>, password: Option<string>,
                    newId: string, encode: string -> string, generateToken: IssuedClaims -> string)
    : (r: Result<(AuthResponse, seq<User>)>)
    ensures RegisterError(users, CleanEmail(email), Clean(password)).Some? ==>
              r == Err(RegisterError(users, CleanEmail(email), Clean(password)).value)
    ensures r.Ok? ==> RegisterError(users, CleanEmail(email), Clean(password)).None?
    ensures RegisterError(users, CleanEmail(email), Clean(password)).None? ==>
              (r.Err? <==> Clean(name) == "" && forall i :: 0 <= i < |CleanEmail(email)| ==> CleanEmail(email)[i] == '@')
    ensures r.Ok? ==>
              var (resp, users') := r.value;
              && |users'| == |users| + 1 && users'[..|users|] == users
              && users'[|users|].id == newId
              && users'[|users|].email == CleanEmail(email)
              && users'[|users|].passwordHash == encode(Clean(password))
              && users'[|users|].roles == {RoleUser}
              && (Clean(name) != "" ==> users'[|users|].name == Clean(name))
              && (Clean(name) == "" ==> users'[|users|].name == CleanEmail(email)[..IndexOf(CleanEmail(email), '@')])
              && resp.token == generateToken(IssuedClaims(newId, [RoleUser]))
              && resp.user == UserMap(users'[|users|])
  {
    var cleanEmail := CleanEmail(email);
    var cleanName := Clean(name);
    var cleanPassword := Clean(password);
    match RegisterError(users, cleanEmail, cleanPassword)
    case Some(e) => Err(e)
    case None =>
      var displayName :- if cleanName == "" then DefaultName(cleanEmail) else Ok(cleanName);
      var u := User(newId, displayName, cleanEmail, encode(cleanPassword), {RoleUser});
      var token := generateToken(IssuedClaims(u.id, [RoleUser]));
      Ok((AuthResponse(token, UserMap(u)), users + [u]))
  }

  /**
    `login`: an unknown email and a wrong password are reported with the same
    message; the token again carries `roles = ["USER"]` whatever roles are stored.
  */
  function Login(users: seq<User>, email: Option<string>, password: Option<string>,
                 matches: (string, string) -> bool, generateToken: IssuedClaims -> string)
    : (r: Result<AuthResponse>)
    ensures (CleanEmail(email) == "" || Clean(password) == "") <==> r == Err("Email and password are required")
    ensures r.Ok? <==> CleanEmail(email) != "" && Clean(password) != ""
                       && FindByEmail(users, CleanEmail(email)).Some?
                       && matches(Clean(password), FindByEmail(users, CleanEmail(email)).value.passwordHash)
    ensures r.Err? ==> r.error in {"Email and password are required", "Invalid credentials"}
    ensures r.Ok? ==>
              var u := FindByEmail(users, CleanEmail(email)).value;
              r.value == AuthResponse(generateToken(IssuedClaims(u.id, [RoleUser])), UserMap(u))
  {
    var cleanEmail := CleanEmail(email);
    var cleanPassword := Clean(password);
    if cleanEmail == "" || cleanPassword == "" then Err("Email and password are required")
    else
      match FindByEmail(users, cleanEmail)
      case None => Err("Invalid credentials")
      case Some(u) =>
        if !matches(cleanPassword, u.passwordHash) then Err("Invalid credentials")
        else Ok(AuthResponse(generateToken(IssuedClaims(u.id, [RoleUser])), UserMap(u)))
  }

  /** Every stored email is unique: the repository's unique index. */
  ghost predicate EmailsUnique(users: seq<User>) {
    forall i, j :: 0 <= i < j < |users| ==> users[i].email != users[j].email
  }

  /** Registration keeps emails unique. */
  lemma RegisterKeepsEmailsUnique(users: seq<User>, name: Option<string>, email: Option<string>,
                                  password: Option<string>, newId: string,
                                  encode: string -> string, generateToken: IssuedClaims -> string)
    requires EmailsUnique(users)
    requires Register(users, name, email, password, newId, encode, generateToken).Ok?
    ensures EmailsUnique(Register(users, name, email, password, newId, encode, generateToken).value.1)
  {
    var users' := Register(users, name, email, password, newId, encode, generateToken).value.1;
    var u := users'[|users|];
    assert users' == users + [u];
    assert FindByEmail(users, u.email).None?;
    AppendKeepsEmailsUnique(users, u);
  }

  lemma AppendKeepsEmailsUnique(users: seq<User>, u: User)
    requires EmailsUnique(users)
    requires forall i :: 0 <= i < |users| ==> users[i].email != u.email
    ensures EmailsUnique(users + [u])
  {
  }

  /**
    Registering and then logging in with the same password succeeds and names
    the new user, provided the encoder and matcher agree on that password.
    The login email may differ from the registration email in padding and case.
  */
  lemma RegisterThenLogin(users: seq<User>, name: Option<string>, email: Option<string>, loginEmail: Option<string>,
                          password: Option<string>, newId: string, encode: string -> string,
                          matches: (string, string) -> bool, generateToken: IssuedClaims -> string)
    requires EmailsUnique(users)
    requires CleanEmail(loginEmail) == CleanEmail(email)
    requires matches(Clean(password), encode(Clean(password)))
    requires Register(users, name, email, password, newId, encode, generateToken).Ok?
    ensures var (resp, users') := Register(users, name, email, password, newId, encode, generateToken).value;
            Login(users', loginEmail, password, matches, generateToken) == Ok(resp)
  {
    var (resp, users') := Register(users, name, email, password, newId, encode, generateToken).value;
    var e, p := CleanEmail(email), Clean(password);
    var u := users'[|users|];
    assert RegisterError(users, e, p).None?;
    assert e != "" && p != "" by {
      assert Utf16Length(p) >= 6;
    }
    assert users' == users + [u];
    FindAfterAppend(users, u, e);
    assert u.passwordHash == encode(p) && u.id == newId;
    assert resp == AuthResponse(generateToken(IssuedClaims(newId, [RoleUser])), UserMap(u));
  }

  /** A lookup that misses the old users finds the appended one. */
  lemma {:induction false} FindAfterAppend(users: seq<User>, u: User, email: string)
    requires FindByEmail(users, email).None? && u.email == email
    ensures FindByEmail(users + [u], email) == Some(u)
  {
    if |users| > 0 {
      assert (users + [u])[1..] == users[1..] + [u];
      FindAfterAppend(users[1..], u, email);
    }
  }

  /** A second registration with the same normalised email is refused and stores nothing. */
  lemma RegisterTwiceRefused(users: seq<User>, name: Option<string>, email: Option<string>, email2: Option<string>,
                             password: Option<string>, password2: Option<string>, newId: string, newId2: string,
                             encode: string -> string, generateToken: IssuedClaims -> string)
    requires CleanEmail(email2) == CleanEmail(email)
    requires Utf16Length(Clean(password2)) >= 6
    requires Register(users, name, email, password, newId, encode, generateToken).Ok?
    ensures var users' := Register(users, name, email, password, newId, encode, generateToken).value.1;
            Register(users', name, email2, password2, newId2, encode, generateToken) == Err("Email already registered")
  {
    var users' := Register(users, name, email, password, newId, encode, generateToken).value.1;
    var e := CleanEmail(email);
    assert users'[|users|].email == e;
  }

  /** An unknown email and a wrong password for a known email cannot be told apart. */
  lemma UnknownEmailAndWrongPasswordLookAlike(users: seq<User>, email: Option<string>, password: Option<string>,
                                              matches: (string, string) -> bool, generateToken: IssuedClaims -> string)
    requires CleanEmail(email) != "" && Clean(password) != ""
    requires FindByEmail(users, CleanEmail(email)).None?
             || !matches(Clean(password), FindByEmail(users, CleanEmail(email)).value.passwordHash)
    ensures Login(users, email, password, matches, generateToken) == Err("Invalid credentials")
  {
  }
}

=== FILE: base64.dfy ===
/**
  Base64 as the browser's `btoa` writes it and `atob` reads it: the padded
  encoding of section 4 of RFC 4648, and the "forgiving-base64 decode" of
  the WHATWG Infra standard, which ignores ASCII whitespace, accepts the
  padding as optional and drops the bits left over in a short final group.
*/
module Base64 {
  import opened Wrappers
  import Utf8

  type byte = Utf8.byte

  // ---------------------------------------------------------------- alphabet

  /** The 64 characters of Table 1 of RFC 4648: A-Z, a-z, 0-9, '+', '/'. */
  predicate IsDigitChar(c: char) {
    'A' <= c <= 'Z' || 'a' <= c <= 'z' || '0' <= c <= '9' || c == '+' || c == '/'
  }

  function DigitChar(v: int): (c: char)
    requires 0 <= v < 64
    ensures IsDigitChar(c)
  {
    if v < 26 then ('A' as int + v) as char
    else if v < 52 then ('a' as int + (v - 26)) as char
    else if v < 62 then ('0' as int + (v - 52)) as char
    else if v == 62 then '+'
    else '/'
  }

  function DigitValue(c: char): (v: int)
    requires IsDigitChar(c)
    ensures 0 <= v < 64 && DigitChar(v) == c
  {
    if 'A' <= c <= 'Z' then c as int - 'A' as int
    else if 'a' <= c <= 'z' then c as int - 'a' as int + 26
    else if '0' <= c <= '9' then c as int - '0' as int + 52
    else if c == '+' then 62
    else 63
  }

  /** The alphabet is a bijection between 0..63 and its characters. */
  lemma DigitRoundTrip(v: int)
    requires 0 <= v < 64
    ensures DigitValue(DigitChar(v)) == v
  {
  }

  predicate AllDigits(s: string) {
    forall i :: 0 <= i < |s| ==> IsDigitChar(s[i])
  }

  // ---------------------------------------------------------------- encoding

  /** One full group: 24 bits as four digits, most significant first. */
  function EncodeGroup(b0: byte, b1: byte, b2: byte): (r: string)
    ensures |r| == 4 && AllDigits(r)
  {
    var n := b0 as int * 65536 + b1 as int * 256 + b2 as int;
    Utf8.Digits4(n);
    [DigitChar(n / 262144), DigitChar((n / 4096) % 64), DigitChar((n / 64) % 64), DigitChar(n % 64)]
  }

  /** A short tail of one or two bytes, its bits padded with zeros up to whole digits. */
  function EncodeTail(bs: seq<byte>): (r: string)
    requires 1 <= |bs| <= 2
    ensures |r| == |bs| + 1 && AllDigits(r)
  {
    if |bs| == 1 then
      var n := bs[0] as int;
      [DigitChar(n / 4), DigitChar((n % 4) * 16)]
    else
      var n := bs[0] as int * 256 + bs[1] as int;
      [DigitChar(n / 1024), DigitChar((n / 16) % 64), DigitChar((n % 16) * 4)]
  }

  /** The digits of the encoding, without padding: four per full group of three bytes, two or three for a short tail. */
  function EncodeDigits(bs: seq<byte>): (r: string)
    ensures AllDigits(r)
  {
    if |bs| == 0 then ""
    else if |bs| < 3 then EncodeTail(bs)
    else EncodeGroup(bs[0], bs[1], bs[2]) + EncodeDigits(bs[3..])
  }

  /** The '=' characters that round an encoding up to a multiple of four. */
  function Padding(n: nat): (r: string)
    ensures |r| == (3 - n % 3) % 3
    ensures forall i :: 0 <= i < |r| ==> r[i] == '='
  {
    if n % 3 == 1 then "==" else if n % 3 == 2 then "=" else ""
  }

  /** `btoa`: the padded encoding, four characters for every started group of three bytes. */
  function Encode(bs: seq<byte>): (r: string)
    ensures forall i :: 0 <= i < |r| ==> IsDigitChar(r[i]) || r[i] == '='
    ensures forall i :: 0 <= i < |r| && r[i] == '=' ==> i >= |r| - 2
  {
    EncodeDigits(bs) + Padding(|bs|)
  }

  /** Four digits per full group, two or three for a short tail. */
  lemma {:induction false} DigitsLength(bs: seq<byte>)
    ensures |EncodeDigits(bs)| == 4 * (|bs| / 3) + (if |bs| % 3 == 0 then 0 else |bs| % 3 + 1)
    decreases |bs|
  {
    if |bs| >= 3 {
      DigitsLength(bs[3..]);
      assert |EncodeDigits(bs)| == 4 + |EncodeDigits(bs[3..])|;
      assert |bs[3..]| / 3 == |bs| / 3 - 1 && |bs[3..]| % 3 == |bs| % 3;
    }
  }

  /** Four characters for every started group of three bytes. */
  lemma EncodeLength(bs: seq<byte>)
    ensures |Encode(bs)| == 4 * ((|bs| + 2) / 3)
  {
    DigitsLength(bs);
    var n := |bs|;
    var q := n / 3;
    assert n == 3 * q + n % 3;
    if n % 3 == 0 {
      assert (n + 2) / 3 == q;
    } else {
      assert (n + 2) / 3 == q + 1;
    }
  }

  /** The remainder of `4k + r` by four. */
  lemma ModFour(k: int, r: int)
    requires 0 <= r < 4
    ensures (4 * k + r) % 4 == r
  {
  }

  /** The unpadded digits never leave a single character in the last group. */
  lemma DigitsRemainder(bs: seq<byte>)
    ensures |EncodeDigits(bs)| % 4 != 1
  {
    var t := if |bs| % 3 == 0 then 0 else |bs| % 3 + 1;
    DigitsLength(bs);
    ModFour(|bs| / 3, t);
  }

  // ---------------------------------------------------------------- decoding

  /** TAB, LF, FF, CR and SPACE. */
  predicate IsAsciiWhitespace(c: char) {
    c == ' ' || c == '\t' || c == '\n' || c == '\r' || c as int == 0x0C
  }

  function StripWhitespace(s: string): (r: string)
    ensures |r| <= |s|
    ensures forall i :: 0 <= i < |r| ==> !IsAsciiWhitespace(r[i])
    ensures (forall i :: 0 <= i < |s| ==> !IsAsciiWhitespace(s[i])) ==> r == s
  {
    if |s| == 0 then ""
    else if IsAsciiWhitespace(s[0]) then StripWhitespace(s[1..])
    else [s[0]] + StripWhitespace(s[1..])
  }

  /** When the length is a multiple of four, one or two trailing '=' are removed. */
  function DropPadding(s: string): (r: string)
    ensures |r| <= |s| && r == s[..|r|]
    ensures |s| % 4 != 0 ==> r == s
    ensures |s| - 2 <= |r| <= |s|
  {
    if |s| % 4 == 0 && |s| >= 2 && s[|s| - 2] == '=' && s[|s| - 1] == '=' then s[..|s| - 2]
    else if |s| % 4 == 0 && |s| >= 1 && s[|s| - 1] == '=' then s[..|s| - 1]
    else s
  }

  /** Four digits back to the three bytes of their 24 bits. */
  function DecodeGroup(d: string): (r: seq<byte>)
    requires |d| == 4 && AllDigits(d)
    ensures |r| == 3
  {
    var n := DigitValue(d[0]) * 262144 + DigitValue(d[1]) * 4096 + DigitValue(d[2]) * 64 + DigitValue(d[3]);
    [n / 65536, (n / 256) % 256, n % 256]
  }

  /** Two or three final digits carry one or two bytes; the bits that do not fill a byte are dropped. */
  function DecodeTail(d: string): (r: seq<byte>)
    requires 2 <= |d| <= 3 && AllDigits(d)
    ensures |r| == |d| - 1
  {
    if |d| == 2 then
      var n := DigitValue(d[0]) * 64 + DigitValue(d[1]);
      [n / 16]
    else
      var n := DigitValue(d[0]) * 4096 + DigitValue(d[1]) * 64 + DigitValue(d[2]);
      [n / 1024, (n / 4) % 256]
  }

  /**
    The bytes carried by padding-free digits: every 8 bits make a byte, and
    bits that do not fill one are dropped (so a lone final digit gives nothing).
  */
  function DecodeDigits(d: string): (r: seq<byte>)
    requires AllDigits(d)
    ensures |r| <= |d|
  {
    if |d| < 2 then []
    else if |d| < 4 then DecodeTail(d)
    else DecodeGroup(d[..4]) + DecodeDigits(d[4..])
  }

  /**
    `atob`: whitespace removed, optional padding removed, then failure when
    one character would be left over in the last group or when any
    character lies outside the alphabet.
  */
  function Decode(s: string): (r: Option<seq<byte>>)
    ensures r.None? <==>
              var d := DropPadding(StripWhitespace(s));
              |d| % 4 == 1 || exists i :: 0 <= i < |d| && !IsDigitChar(d[i])
  {
    var d := DropPadding(StripWhitespace(s));
    if |d| % 4 == 1 || !AllDigits(d) then None
    else Some(DecodeDigits(d))
  }

  // ---------------------------------------------------------------- round trip

  /** Three bytes packed into 24 bits come apart again. */
  lemma Octets3(b0: byte, b1: byte, b2: byte)
    ensures var n := b0 as int * 65536 + b1 as int * 256 + b2 as int;
            0 <= n < 0x100_0000 && n / 65536 == b0 && (n / 256) % 256 == b1 && n % 256 == b2
  {
    var n := b0 as int * 65536 + b1 as int * 256 + b2 as int;
    var y := b0 as int * 256 + b1 as int;
    assert n == y * 256 + b2 as int;
    assert n / 256 == y && n % 256 == b2 as int;
    assert y / 256 == b0 as int && y % 256 == b1 as int;
    assert n / 65536 == (n / 256) / 256;
  }

  /** A full group: four digits give back its three bytes. */
  lemma GroupRoundTrip(b0: byte, b1: byte, b2: byte)
    ensures DecodeGroup(EncodeGroup(b0, b1, b2)) == [b0, b1, b2]
  {
    var n := b0 as int * 65536 + b1 as int * 256 + b2 as int;
    Octets3(b0, b1, b2);
    Utf8.Digits4(n);
    DigitRoundTrip(n / 262144);
    DigitRoundTrip((n / 4096) % 64);
    DigitRoundTrip((n / 64) % 64);
    DigitRoundTrip(n % 64);
    var m := (n / 262144) * 262144 + ((n / 4096) % 64) * 4096 + ((n / 64) % 64) * 64 + n % 64;
    assert m == n;
  }

  /** A one-byte tail: two digits, the low four bits of the second zero. */
  lemma Tail1Arith(b: byte)
    ensures ((b as int / 4) * 64 + (b as int % 4) * 16) / 16 == b
  {
  }

  /** A two-byte tail: three digits, the low two bits of the third zero. */
  lemma Tail2Arith(b0: byte, b1: byte)
    ensures var n := b0 as int * 256 + b1 as int;
            var m := (n / 1024) * 4096 + ((n / 16) % 64) * 64 + (n % 16) * 4;
            m / 1024 == b0 && (m / 4) % 256 == b1
  {
    var n := b0 as int * 256 + b1 as int;
    var hi, mid, lo := n / 1024, (n / 16) % 64, n % 16;
    assert n / 256 == b0 as int && n % 256 == b1 as int;
    assert n / 1024 == (n / 16) / 64;
    assert n / 16 == hi * 64 + mid;
    assert n == (n / 16) * 16 + lo;
    var m := hi * 4096 + mid * 64 + lo * 4;
    assert m == 4 * n;
    assert m / 4 == n;
    assert m / 1024 == n / 256;
  }

  lemma Tail1RoundTrip(b: byte)
    ensures DecodeTail(EncodeTail([b])) == [b]
  {
    var n := b as int;
    var d := EncodeTail([b]);
    assert DigitValue(d[0]) == n / 4 by {
      DigitRoundTrip(n / 4);
    }
    assert DigitValue(d[1]) == (n % 4) * 16 by {
      DigitRoundTrip((n % 4) * 16);
    }
    Tail1Arith(b);
  }

  lemma Tail2RoundTrip(b0: byte, b1: byte)
    ensures DecodeTail(EncodeTail([b0, b1])) == [b0, b1]
  {
    var n := b0 as int * 256 + b1 as int;
    var d := EncodeTail([b0, b1]);
    assert DigitValue(d[0]) == n / 1024 by {
      DigitRoundTrip(n / 1024);
    }
    assert DigitValue(d[1]) == (n / 16) % 64 by {
      DigitRoundTrip((n / 16) % 64);
    }
    assert DigitValue(d[2]) == (n % 16) * 4 by {
      DigitRoundTrip((n % 16) * 4);
    }
    Tail2Arith(b0, b1);
  }

  lemma {:induction false} DecodeEncodeDigits(bs: seq<byte>)
    ensures DecodeDigits(EncodeDigits(bs)) == bs
    decreases |bs|
  {
    if |bs| == 1 {
      Tail1RoundTrip(bs[0]);
      assert bs == [bs[0]];
    } else if |bs| == 2 {
      Tail2RoundTrip(bs[0], bs[1]);
      assert bs == [bs[0], bs[1]];
    } else if |bs| >= 3 {
      var g := EncodeGroup(bs[0], bs[1], bs[2]);
      var rest := EncodeDigits(bs[3..]);
      assert DecodeDigits(g + rest) == DecodeGroup(g) + DecodeDigits(rest) by {
        assert (g + rest)[..4] == g && (g + rest)[4..] == rest;
      }
      assert DecodeGroup(g) == bs[..3] by {
        GroupRoundTrip(bs[0], bs[1], bs[2]);
      }
      assert DecodeDigits(rest) == bs[3..] by {
        DecodeEncodeDigits(bs[3..]);
      }
      assert bs == bs[..3] + bs[3..];
    }
  }

  /** Up to two '=' after digits, filling a multiple of four, are exactly what the decoder drops. */
  lemma DropPaddingOf(d: string, p: string)
    requires AllDigits(d) && |p| <= 2 && (|d| + |p|) % 4 == 0
    requires forall i :: 0 <= i < |p| ==> p[i] == '='
    ensures DropPadding(d + p) == d
  {
    var e := d + p;
    if |p| == 2 {
      assert e[|e| - 2] == '=' && e[|e| - 1] == '=';
      assert e[..|e| - 2] == d;
    } else if |p| == 1 {
      assert e[|e| - 2] == d[|d| - 1];
      assert e[..|e| - 1] == d;
    } else {
      assert e == d;
      if |d| > 0 {
        assert IsDigitChar(e[|e| - 1]);
      }
    }
  }

  /** The padding `Encode` appends is exactly what the decoder drops. */
  lemma DropPaddingOfEncode(bs: seq<byte>)
    ensures DropPadding(Encode(bs)) == EncodeDigits(bs)
  {
    var d, p := EncodeDigits(bs), Padding(|bs|);
    EncodeLength(bs);
    ModFour((|bs| + 2) / 3, 0);
    assert |d + p| % 4 == 0;
    DropPaddingOf(d, p);
  }

  /** Decoding undoes the padded encoding: `atob(btoa(b)) == b` for every byte string. */
  lemma DecodeEncode(bs: seq<byte>)
    ensures Decode(Encode(bs)) == Some(bs)
  {
    var e := Encode(bs);
    assert forall i :: 0 <= i < |e| ==> !IsAsciiWhitespace(e[i]);
    assert StripWhitespace(e) == e;
    DropPaddingOfEncode(bs);
    DigitsRemainder(bs);
    DecodeEncodeDigits(bs);
  }

  /** Whitespace anywhere in the text is ignored. */
  lemma WhitespaceIgnored(s: string, t: string)
    ensures Decode(s + " \n" + t) == Decode(s + t)
  {
    var w := " \n";
    assert StripWhitespace(w) == "" by {
      assert w[1..][1..] == "";
    }
    StripAppend(s, w);
    StripAppend(s + w, t);
    StripAppend(s, t);
    assert StripWhitespace(s + w) == StripWhitespace(s);
    assert StripWhitespace(s + w + t) == StripWhitespace(s + t);
  }

  lemma {:induction false} StripAppend(s: string, t: string)
    ensures StripWhitespace(s + t) == StripWhitespace(s) + StripWhitespace(t)
    decreases |s|
  {
    if |s| > 0 {
      assert (s + t)[1..] == s[1..] + t;
      StripAppend(s[1..], t);
    } else {
      assert s + t == t;
    }
  }

  /** The padding is optional: the unpadded digits decode to the same bytes. */
  lemma PaddingOptional(bs: seq<byte>)
    ensures Decode(EncodeDigits(bs)) == Some(bs)
  {
    var d := EncodeDigits(bs);
    assert StripWhitespace(d) == d;
    if |d| % 4 == 0 && |d| >= 1 {
      assert IsDigitChar(d[|d| - 1]);
    }
    assert DropPadding(d) == d;
    DigitsRemainder(bs);
    DecodeEncodeDigits(bs);
  }

  /** A character that is not whitespace survives whitespace removal. */
  lemma {:induction false} StripKeeps(s: string, i: int)
    requires 0 <= i < |s| && !IsAsciiWhitespace(s[i])
    ensures s[i] in StripWhitespace(s)
    decreases |s|
  {
    if i > 0 {
      StripKeeps(s[1..], i - 1);
    }
  }

  /** A character outside the alphabet that is neither whitespace nor '=' makes the whole text undecodable. */
  lemma ForeignCharRejected(s: string, i: int)
    requires 0 <= i < |s|
    requires !IsDigitChar(s[i]) && !IsAsciiWhitespace(s[i]) && s[i] != '='
    ensures Decode(s).None?
  {
    var w := StripWhitespace(s);
    StripKeeps(s, i);
    var j :| 0 <= j < |w| && w[j] == s[i];
    var d := DropPadding(w);
    if j >= |d| {
      assert false;
    }
    assert d[j] == w[j];
  }

  /** Texts the decoder refuses: a single leftover character, and a character outside the alphabet. */
  lemma Rejections()
    ensures Decode("Q").None?
    ensures Decode("Q*").None?
  {
    assert StripWhitespace("Q") == "Q";
    assert StripWhitespace("Q*") == "Q*";
    assert !IsDigitChar("Q*"[1]);
  }
}

=== FILE: chat_match.dfy ===
/**
  The in-memory matchmaking state of the chat backend: which users are online
  with which role, and which chat sessions pair a user with a counselor. A
  session's pair is stored as the single string `userId + ":" + counselorId`.
*/
module ChatMatch {
  import opened Wrappers
  import opened Strings

  const Counselor: string := "COUNSELOR"

  datatype MatchState = MatchState(onlineRoles: map<string, string>, sessions: map<string, string>)

  function Empty(): MatchState {
    MatchState(map[], map[])
  }

  /** `setOnline` records the role, replacing any earlier one. */
  function SetOnline(m: MatchState, userId: string, role: string): (m': MatchState)
    ensures userId in m'.onlineRoles && m'.onlineRoles[userId] == role
    ensures forall u :: u != userId ==> (u in m'.onlineRoles <==> u in m.onlineRoles)
    ensures forall u :: u != userId && u in m.onlineRoles ==> m'.onlineRoles[u] == m.onlineRoles[u]
    ensures m'.sessions == m.sessions
  {
    m.(onlineRoles := m.onlineRoles[userId := role])
  }

  // ---------------------------------------------------------------- setOffline

  /** The participants named by a session's pair string, as `getPeer` splits it. */
  function Participants(pair: string): seq<string> {
    JavaSplit(pair, ':')
  }

  /**
    `setOffline` as written: the user leaves the online map and every session
    whose pair string merely CONTAINS the user id is dropped.
  */
  function SetOfflineAsWritten(m: MatchState, userId: string): (m': MatchState)
    ensures m'.onlineRoles.Keys == m.onlineRoles.Keys - {userId}
    ensures forall u :: u in m'.onlineRoles ==> m'.onlineRoles[u] == m.onlineRoles[u]
    ensures forall s :: s in m'.sessions <==> s in m.sessions && !OccursIn(userId, m.sessions[s])
    ensures forall s :: s in m'.sessions ==> m'.sessions[s] == m.sessions[s]
  {
    MatchState(m.onlineRoles - {userId},
               map s | s in m.sessions && !Contains(m.sessions[s], userId) :: m.sessions[s])
  }

  /**
    The substring test drops sessions the user takes no part in: "u1" going
    offline ends the session between "u10" and "c1".
  */
  lemma SetOfflineAsWrittenDropsBystanderSession()
    ensures var m := MatchState(map[], map["s1" := "u10:c1"]);
            && "u1" !in Participants(m.sessions["s1"])
            && "s1" !in SetOfflineAsWritten(m, "u1").sessions
  {
    var pair := "u10:c1";
    JavaSplitPair("u10", "c1", ':');
    assert pair == "u10" + [':'] + "c1";
    assert "u1" <= pair[0..];
  }

  /**
    `setOffline` as intended ("clean up sessions where this user
    participates"): a session is dropped exactly when the user is one of the
    participants in its pair.
  */
  function SetOffline(m: MatchState, userId: string): (m': MatchState)
    ensures m'.onlineRoles.Keys == m.onlineRoles.Keys - {userId}
    ensures forall u :: u in m'.onlineRoles ==> m'.onlineRoles[u] == m.onlineRoles[u]
    ensures forall s :: s in m'.sessions <==> s in m.sessions && userId !in Participants(m.sessions[s])
    ensures forall s :: s in m'.sessions ==> m'.sessions[s] == m.sessions[s]
  {
    MatchState(m.onlineRoles - {userId},
               map s | s in m.sessions && userId !in Participants(m.sessions[s]) :: m.sessions[s])
  }

  /** Both versions drop every session the user takes part in; the intended one drops no other. */
  lemma SetOfflineDropsOnlyOwnSessions(m: MatchState, userId: string, s: string)
    requires s in m.sessions
    ensures userId in Participants(m.sessions[s]) ==> s !in SetOfflineAsWritten(m, userId).sessions
    ensures userId in Participants(m.sessions[s]) <==> s !in SetOffline(m, userId).sessions
  {
    var pair := m.sessions[s];
    if userId in Participants(pair) {
      var all := SplitAll(pair, ':');
      var k :| 0 <= k < |Participants(pair)| && Participants(pair)[k] == userId;
      PartOccursIn(all, ':', k);
    }
  }

  /** Each field of a split occurs, as a substring, in the string that was split. */
  lemma {:induction false} PartOccursIn(parts: seq<string>, d: char, k: nat)
    requires |parts| >= 1 && k < |parts|
    ensures OccursIn(parts[k], Join(parts, d))
  {
    var s := Join(parts, d);
    if |parts| == 1 {
      assert parts[k] <= s[0..];
    } else if k == 0 {
      assert parts[0] <= s[0..];
    } else {
      PartOccursIn(parts[1..], d, k - 1);
      var t := Join(parts[1..], d);
      var j :| 0 <= j <= |t| && parts[k] <= t[j..];
      var off := |parts[0]| + 1;
      assert s == parts[0] + [d] + t;
      assert s[off + j..] == t[j..];
    }
  }

  // ---------------------------------------------------------------- findAvailableCounselor

  predicate HasOnlineCounselor(m: MatchState) {
    exists u :: u in m.onlineRoles && m.onlineRoles[u] == Counselor
  }

  /** What `findAny` over the online counselors may answer: some online counselor, or nothing when there is none. */
  predicate IsFindAnyResult(m: MatchState, r: Option<string>) {
    && (r.Some? ==> r.value in m.onlineRoles && m.onlineRoles[r.value] == Counselor)
    && (r.None? <==> !HasOnlineCounselor(m))
  }

  /** `findAvailableCounselor`: the map's iteration order is unspecified, so any online counselor may be chosen. */
  method FindAvailableCounselor(m: MatchState) returns (r: Option<string>)
    ensures IsFindAnyResult(m, r)
  {
    var pending := m.onlineRoles.Keys;
    while pending != {}
      invariant pending <= m.onlineRoles.Keys
      invariant forall u :: u in m.onlineRoles && u !in pending ==> m.onlineRoles[u] != Counselor
      decreases pending
    {
      var u :| u in pending;
      if m.onlineRoles[u] == Counselor {
        return Some(u);
      }
      pending := pending - {u};
    }
    return None;
  }

  // ---------------------------------------------------------------- sessions

  /** The pair string stored for a session. */
  function Pair(userId: string, counselorId: string): string {
    userId + [':'] + counselorId
  }

  /** `createSession`: `freshId` stands for the random UUID. */
  function CreateSession(m: MatchState, userId: string, counselorId: string, freshId: string)
    : (r: (string, MatchState))
    ensures r.0 == freshId
    ensures r.0 in r.1.sessions && r.1.sessions[r.0] == Pair(userId, counselorId)
    ensures forall s :: s != freshId ==> (s in r.1.sessions <==> s in m.sessions)
    ensures forall s :: s != freshId && s in m.sessions ==> r.1.sessions[s] == m.sessions[s]
    ensures r.1.onlineRoles == m.onlineRoles
  {
    (freshId, m.(sessions := m.sessions[freshId := Pair(userId, counselorId)]))
  }

  /** `getActiveSessionIds`. */
  function ActiveSessionIds(m: MatchState): (ids: set<string>)
    ensures forall s :: s in ids <==> s in m.sessions
  {
    m.sessions.Keys
  }

  /** A fresh id adds exactly one active session and leaves the others as they were. */
  lemma CreateSessionAddsOne(m: MatchState, userId: string, counselorId: string, freshId: string)
    requires freshId !in m.sessions
    ensures var m' := CreateSession(m, userId, counselorId, freshId).1;
            && ActiveSessionIds(m') == ActiveSessionIds(m) + {freshId}
            && |ActiveSessionIds(m')| == |ActiveSessionIds(m)| + 1
            && forall s :: s in m.sessions ==> m'.sessions[s] == m.sessions[s]
  {
    var m' := CreateSession(m, userId, counselorId, freshId).1;
    assert ActiveSessionIds(m') == ActiveSessionIds(m) + {freshId};
  }

  /**
    `getPeer`: the other half of the pair. A pair that does not split into
    exactly two parts has no peer; a requester other than the first part is
    answered with the first part.
  */
  function GetPeer(m: MatchState, sessionId: string, requesterId: string): (r: Option<string>)
    ensures sessionId !in m.sessions ==> r.None?
    ensures sessionId in m.sessions ==>
              (r.Some? <==> |Participants(m.sessions[sessionId])| == 2)
    ensures r.Some? ==> r.value in Participants(m.sessions[sessionId])
    ensures r.Some? && requesterId != Participants(m.sessions[sessionId])[0] ==>
              r.value == Participants(m.sessions[sessionId])[0]
    ensures r.Some? && requesterId == Participants(m.sessions[sessionId])[0] ==>
              r.value == Participants(m.sessions[sessionId])[1]
  {
    if sessionId !in m.sessions then None
    else
      var parts := Participants(m.sessions[sessionId]);
      if |parts| != 2 then None
      else Some(if parts[0] == requesterId then parts[1] else parts[0])
  }

  predicate IsPlainId(id: string) {
    id != "" && ':' !in id
  }

  /** After `createSession(u, c)` each side's peer is the other side. */
  lemma PeerAfterCreate(m: MatchState, u: string, c: string, freshId: string, other: string)
    requires IsPlainId(u) && IsPlainId(c)
    ensures var (s, m') := CreateSession(m, u, c, freshId);
            && GetPeer(m', s, u) == Some(c)
            && (u != c ==> GetPeer(m', s, c) == Some(u))
            && (other != u ==> GetPeer(m', s, other) == Some(u))
  {
    JavaSplitPair(u, c, ':');
  }

  /** A user going offline keeps the sessions of other plain ids; the as-written version does not always. */
  lemma OfflineKeepsOthersSessions(m: MatchState, u: string, c: string, freshId: string, x: string)
    requires IsPlainId(u) && IsPlainId(c) && x != u && x != c
    ensures var (s, m') := CreateSession(m, u, c, freshId);
            s in SetOffline(m', x).sessions
  {
    JavaSplitPair(u, c, ':');
  }
}

=== FILE: chat_service.dfy ===
/**
  The chat session lifecycle of the wellness platform: a user opens a session
  with a counselor (or is handed back the one already active), messages are
  appended to it, and the user ends it with a rating. The session collection
  is a sequence of documents.
*/
module ChatService {
  import opened Wrappers
  import opened Find

  datatype Status = Active | Ended | Pending

  datatype MessageType = Text | System | Notification

  datatype ChatMessage = ChatMessage(
    senderId: string, senderRole: string, content: string,
    encryptedContent: Option<string>, timestamp: int, isRead: bool, kind: MessageType)

  datatype ChatSession = ChatSession(
    id: string, userId: string, counselorId: string, messages: seq<ChatMessage>,
    status: Status, createdAt: Option<int>, endedAt: Option<int>,
    rating: Option<int>, feedback: Option<string>)

  datatype Role = RoleUser | RoleCounselor | RoleAdmin

  datatype PlatformUser = PlatformUser(id: string, roles: set<Role>)

  const DefaultCounselor: string := "default-counselor"

  type Sessions = seq<ChatSession>

  // ---------------------------------------------------------------- invariants

  ghost predicate IdsDistinct(sessions: Sessions) {
    forall i, j :: 0 <= i < j < |sessions| ==> sessions[i].id != sessions[j].id
  }

  /** No user has two ACTIVE sessions. */
  ghost predicate AtMostOneActive(sessions: Sessions) {
    forall i, j :: 0 <= i < j < |sessions| && sessions[i].status == Active && sessions[j].status == Active
                   ==> sessions[i].userId != sessions[j].userId
  }

  ghost predicate WellFormed(sessions: Sessions) {
    IdsDistinct(sessions) && AtMostOneActive(sessions)
  }

  ghost predicate IdUnused(sessions: Sessions, id: string) {
    forall i :: 0 <= i < |sessions| ==> sessions[i].id != id
  }

  function IsCounselor(u: PlatformUser): bool {
    RoleCounselor in u.roles
  }

  function HasId(id: string): ChatSession -> bool {
    (s: ChatSession) => s.id == id
  }

  function ActiveOf(userId: string): ChatSession -> bool {
    (s: ChatSession) => s.userId == userId && s.status == Active
  }

  // ---------------------------------------------------------------- operations

  /** `findAvailableCounselor`: the first user holding ROLE_COUNSELOR, or the placeholder id when there is none. */
  function FindAvailableCounselor(users: seq<PlatformUser>): (id: string)
    ensures FirstIndex(users, IsCounselor).None? <==> id == DefaultCounselor && forall i :: 0 <= i < |users| ==> !IsCounselor(users[i])
    ensures FirstIndex(users, IsCounselor).Some? ==>
              exists i :: 0 <= i < |users| && IsCounselor(users[i]) && users[i].id == id
                          && forall j :: 0 <= j < i ==> !IsCounselor(users[j])
  {
    match FirstIndex(users, IsCounselor)
    case None => DefaultCounselor
    case Some(i) => users[i].id
  }

  /**
    `createSession`: a user with an ACTIVE session gets it back and nothing is
    stored. Otherwise a new ACTIVE session with no messages pairs the user
    with the counselor found, under the id `freshId`.
  */
  function CreateSession(sessions: Sessions, users: seq<PlatformUser>, userId: string, freshId: string, now: int)
    : (r: (ChatSession, Sessions))
    ensures FirstIndex(sessions, ActiveOf(userId)).Some? ==>
              r.1 == sessions && r.0 == sessions[FirstIndex(sessions, ActiveOf(userId)).value]
    ensures FirstIndex(sessions, ActiveOf(userId)).None? ==>
              && r.0 == ChatSession(freshId, userId, FindAvailableCounselor(users), [], Active, Some(now), None, None, None)
              && r.1 == sessions + [r.0]
    ensures r.0.userId == userId && r.0.status == Active && r.0 in r.1
  {
    match FirstIndex(sessions, ActiveOf(userId))
    case Some(i) => (sessions[i], sessions)
    case None =>
      var s := ChatSession(freshId, userId, FindAvailableCounselor(users), [], Active, Some(now), None, None, None);
      (s, sessions + [s])
  }

  /**
    `sendMessage`, store side: an unknown session fails with "Session not
    found"; otherwise exactly one unread TEXT message is appended to that
    session and every other session stays as it was.
  */
  function SendMessage(sessions: Sessions, sessionId: string, senderId: string, content: string, senderRole: string, now: int)
    : (r: Result<(ChatMessage, Sessions)>)
    ensures r.Err? <==> FirstIndex(sessions, HasId(sessionId)).None?
    ensures r.Err? ==> r.error == "Session not found"
    ensures r.Ok? ==>
              var i := FirstIndex(sessions, HasId(sessionId)).value;
              var m := r.value.0;
              && m == ChatMessage(senderId, senderRole, content, None, now, false, Text)
              && |r.value.1| == |sessions|
              && r.value.1[i].messages == sessions[i].messages + [m]
              && r.value.1[i] == sessions[i].(messages := r.value.1[i].messages)
              && (forall j :: 0 <= j < |sessions| && j != i ==> r.value.1[j] == sessions[j])
  {
    match FirstIndex(sessions, HasId(sessionId))
    case None => Err("Session not found")
    case Some(i) =>
      var m := ChatMessage(senderId, senderRole, content, None, now, false, Text);
      var s := sessions[i].(messages := sessions[i].messages + [m]);
      Ok((m, sessions[i := s]))
  }

  /** `getSession`. */
  function GetSession(sessions: Sessions, sessionId: string): (r: Result<ChatSession>)
    ensures r == Err("Session not found") <==> forall i :: 0 <= i < |sessions| ==> sessions[i].id != sessionId
    ensures r.Ok? ==> r.value in sessions && r.value.id == sessionId
  {
    match FirstIndex(sessions, HasId(sessionId))
    case None => Err("Session not found")
    case Some(i) => Ok(sessions[i])
  }

  /**
    `endSession`: an unknown session fails with "Session not found", a
    session of another user with "Unauthorized"; otherwise the session is
    ENDED with the rating and feedback given, whatever its status was.
  */
  function EndSession(sessions: Sessions, sessionId: string, userId: string, rating: Option<int>, feedback: Option<string>, now: int)
    : (r: Result<(ChatSession, Sessions)>)
    ensures FirstIndex(sessions, HasId(sessionId)).None? <==> r == Err("Session not found")
    ensures r == Err("Unauthorized") <==>
              FirstIndex(sessions, HasId(sessionId)).Some?
              && sessions[FirstIndex(sessions, HasId(sessionId)).value].userId != userId
    ensures r.Ok? ==>
              var i := FirstIndex(sessions, HasId(sessionId)).value;
              && sessions[i].userId == userId
              && r.value.0 == sessions[i].(status := Ended, endedAt := Some(now), rating := rating, feedback := feedback)
              && r.value.1 == sessions[i := r.value.0]
  {
    match FirstIndex(sessions, HasId(sessionId))
    case None => Err("Session not found")
    case Some(i) =>
      if sessions[i].userId != userId then Err("Unauthorized")
      else
        var s := sessions[i].(status := Ended, endedAt := Some(now), rating := rating, feedback := feedback);
        Ok((s, sessions[i := s]))
  }

  // ---------------------------------------------------------------- properties

  /** Creating a session keeps ids distinct and at most one ACTIVE session per user. */
  lemma CreateKeepsOneActive(sessions: Sessions, users: seq<PlatformUser>, userId: string, freshId: string, now: int)
    requires WellFormed(sessions) && IdUnused(sessions, freshId)
    ensures WellFormed(CreateSession(sessions, users, userId, freshId, now).1)
  {
    var r := CreateSession(sessions, users, userId, freshId, now);
    if FirstIndex(sessions, ActiveOf(userId)).None? {
      var s' := r.1;
      forall i, j | 0 <= i < j < |s'|
        ensures s'[i].id != s'[j].id
        ensures s'[i].status == Active && s'[j].status == Active ==> s'[i].userId != s'[j].userId
      {
        if j == |sessions| {
          assert s'[i] == sessions[i];
          assert !ActiveOf(userId)(sessions[i]);
        } else {
          assert s'[i] == sessions[i] && s'[j] == sessions[j];
        }
      }
    }
  }

  /** Asking again returns the same session and stores nothing more. */
  lemma CreateSessionTwice(sessions: Sessions, users: seq<PlatformUser>, userId: string, id1: string, id2: string, t1: int, t2: int)
    requires WellFormed(sessions) && IdUnused(sessions, id1)
    ensures var (first, s1) := CreateSession(sessions, users, userId, id1, t1);
            var (second, s2) := CreateSession(s1, users, userId, id2, t2);
            second == first && s2 == s1
  {
    var (first, s1) := CreateSession(sessions, users, userId, id1, t1);
    CreateKeepsOneActive(sessions, users, userId, id1, t1);
    var k :| 0 <= k < |s1| && s1[k] == first;
    assert ActiveOf(userId)(s1[k]);
    forall a, b | 0 <= a < b < |s1| && ActiveOf(userId)(s1[a]) ensures !ActiveOf(userId)(s1[b]) {
    }
    FirstIndexIsOnly(s1, ActiveOf(userId), k);
  }

  /** Appending a message changes no status and no id, so the invariant holds. */
  lemma SendKeepsWellFormed(sessions: Sessions, sessionId: string, senderId: string, content: string, senderRole: string, now: int)
    requires WellFormed(sessions)
    ensures var r := SendMessage(sessions, sessionId, senderId, content, senderRole, now);
            r.Ok? ==> WellFormed(r.value.1) && |r.value.1[FirstIndex(sessions, HasId(sessionId)).value].messages|
                                                == |sessions[FirstIndex(sessions, HasId(sessionId)).value].messages| + 1
  {
    var r := SendMessage(sessions, sessionId, senderId, content, senderRole, now);
    if r.Ok? {
      var s' := r.value.1;
      forall a, b | 0 <= a < b < |s'|
        ensures s'[a].id != s'[b].id
        ensures s'[a].status == Active && s'[b].status == Active ==> s'[a].userId != s'[b].userId
      {
        assert s'[a].id == sessions[a].id && s'[a].status == sessions[a].status && s'[a].userId == sessions[a].userId;
        assert s'[b].id == sessions[b].id && s'[b].status == sessions[b].status && s'[b].userId == sessions[b].userId;
      }
    }
  }

  /** Ending only ever turns a session ENDED, so the invariant holds; ending it again succeeds too. */
  lemma EndKeepsWellFormed(sessions: Sessions, sessionId: string, userId: string, rating: Option<int>, feedback: Option<string>, now: int, later: int)
    requires WellFormed(sessions)
    ensures var r := EndSession(sessions, sessionId, userId, rating, feedback, now);
            r.Ok? ==> && WellFormed(r.value.1)
                      && EndSession(r.value.1, sessionId, userId, rating, feedback, later).Ok?
  {
    var r := EndSession(sessions, sessionId, userId, rating, feedback, now);
    if r.Ok? {
      var i := FirstIndex(sessions, HasId(sessionId)).value;
      var s' := r.value.1;
      forall a, b | 0 <= a < b < |s'|
        ensures s'[a].id != s'[b].id
        ensures s'[a].status == Active && s'[b].status == Active ==> s'[a].userId != s'[b].userId
      {
        assert s'[a].id == sessions[a].id && s'[b].id == sessions[b].id;
        if a != i && b != i {
          assert s'[a] == sessions[a] && s'[b] == sessions[b];
        }
      }
      assert HasId(sessionId)(s'[i]);
      FirstIndexIsOnly(s', HasId(sessionId), i);
    }
  }
}

=== FILE: chat_socket.dfy ===
/**
  The chat websocket handler of the backend, run one event at a time. Sockets
  are numbered; everything the handler sends or closes is appended to `out`.
  A send to a set of sockets (a broadcast to one user's connections) is one
  event carrying the whole recipient set, because the order in which a Java
  set is iterated is unspecified.
*/
module ChatSocket {
  import opened Wrappers
  import opened Strings
  import ChatMatch
  import Auth

  type SocketId = nat

  /** The value found under the `roles` claim. */
  datatype RolesClaim = NoRoles | RoleCollection(items: seq<string>) | RoleScalar(text: string)

  /** What `jwtService.parse` returns for a valid token. */
  datatype Claims = Claims(subject: Option<string>, roles: RolesClaim, role: Option<string>)

  datatype CloseStatus = NotAcceptable

  /** The JSON objects the handler sends, one constructor per `type`. */
  datatype Payload =
    | Connected(userId: string)
    | ErrorMsg(message: string)
    | SessionWait
    | SessionStarted(sessionId: string, peerId: Option<string>)
    | MessageAck(messageId: string, ts: int)
    | Deliver(from: string, sessionId: string, messageId: string, text: string)
    | TypingNotice(from: string, typing: bool)
    | CipherRelay(from: string, cipher: string)

  datatype Event = Send(recipients: set<SocketId>, payload: Payload) | Close(socket: SocketId, status: CloseStatus)

  /** The per-socket attributes `userId`, `role` and `chatSessionId`. */
  datatype Attrs = Attrs(userId: Option<string>, role: Option<string>, chatSessionId: Option<string>)

  /** What the message cipher returns: the Base64 of the IV and of the cipher text. */
  datatype Sealed = Sealed(ivB64: string, cipherTextB64: string)

  /**
    A saved chat message: the text is stored only as its encryption.
    Delivery and read receipts are timestamps.
  */
  datatype StoredMessage = StoredMessage(
    id: string, sessionId: string, senderId: string, receiverId: string, body: Sealed,
    deliveredAt: Option<int>, seenAt: Option<int>)

  datatype Handler = Handler(
    attrs: map<SocketId, Attrs>,
    open: set<SocketId>,
    userSessions: map<string, set<SocketId>>,
    matching: ChatMatch.MatchState,
    messages: map<string, StoredMessage>,
    out: seq<Event>)

  /** An inbound JSON object: the text of each field present. */
  type Node = map<string, string>

  /**
    The values the handler draws from outside: the counselor `findAny` picked,
    the new UUID, the saved message id, the clock and the message cipher.
  */
  datatype Env = Env(counselorPick: Option<string>, freshSessionId: string, freshMessageId: string, now: int,
                     encrypt: string -> Sealed)

  const NoAttrs: Attrs := Attrs(None, None, None)

  function AttrsOf(h: Handler, s: SocketId): Attrs {
    if s in h.attrs then h.attrs[s] else NoAttrs
  }

  /** `node.path(k).asText("")`. */
  function Field(node: Node, k: string): string {
    if k in node then node[k] else ""
  }

  /** The events appended since `h`. */
  function NewEvents(h: Handler, h': Handler): seq<Event>
    requires |h.out| <= |h'.out|
  {
    h'.out[|h.out|..]
  }

  /** Every send among `evs` goes only to sockets in `open`. */
  ghost predicate SendsOnlyTo(evs: seq<Event>, open: set<SocketId>) {
    forall i :: 0 <= i < |evs| && evs[i].Send? ==> evs[i].recipients <= open
  }

  // ---------------------------------------------------------------- token and role

  const TokenKey: string := "token="

  /** No part of `parts` starts with `p`. */
  ghost predicate NoneHasPrefix(parts: seq<string>, p: string) {
    forall i :: 0 <= i < |parts| ==> !(p <= parts[i])
  }

  /** Some part is `p + v`, and no earlier part starts with `p`. */
  ghost predicate FirstHasPrefix(parts: seq<string>, p: string, v: string) {
    exists i :: 0 <= i < |parts| && parts[i] == p + v && NoneHasPrefix(parts[..i], p)
  }

  function FirstWithPrefix(parts: seq<string>, p: string): (r: Option<string>)
    ensures r.None? <==> NoneHasPrefix(parts, p)
    ensures r.Some? ==> FirstHasPrefix(parts, p, r.value)
  {
    if |parts| == 0 then None
    else if p <= parts[0] then
      assert parts[0] == p + parts[0][|p|..];
      assert NoneHasPrefix(parts[..0], p);
      Some(parts[0][|p|..])
    else
      var r := FirstWithPrefix(parts[1..], p);
      assert forall i :: 1 <= i < |parts| ==> parts[i] == parts[1..][i - 1];
      if r.Some? then
        assert FirstHasPrefix(parts, p, r.value) by {
          var i :| 0 <= i < |parts[1..]| && parts[1..][i] == p + r.value && NoneHasPrefix(parts[1..][..i], p);
          assert parts[..i + 1] == [parts[0]] + parts[1..][..i];
        }
        r
      else r
  }

  /** Trailing empty parts never start with a non-empty prefix, so dropping them changes nothing. */
  lemma {:induction false} FirstWithPrefixPadded(parts: seq<string>, all: seq<string>, p: string)
    requires p != "" && parts <= all
    requires forall i :: |parts| <= i < |all| ==> all[i] == ""
    ensures FirstWithPrefix(parts, p) == FirstWithPrefix(all, p)
  {
    if |parts| == 0 {
      assert FirstWithPrefix(all, p).None? by {
        forall i | 0 <= i < |all| ensures !(p <= all[i]) {
          assert all[i] == "";
        }
      }
    } else {
      assert all[0] == parts[0];
      if !(p <= parts[0]) {
        FirstWithPrefixPadded(parts[1..], all[1..], p);
      }
    }
  }

  /**
    `tokenFrom`: the text after `token=` in the first `&`-separated part of the
    query that starts with it. `query` is the already percent-decoded query
    string that `URI.getQuery` gives.
  */
  function TokenFrom(query: Option<string>): (r: Option<string>)
    ensures query.None? ==> r.None?
    ensures query.Some? ==> (r.None? <==> NoneHasPrefix(SplitAll(query.value, '&'), TokenKey))
    ensures r.Some? ==> FirstHasPrefix(SplitAll(query.value, '&'), TokenKey, r.value)
  {
    match query
    case None => None
    case Some(q) =>
      FirstWithPrefixPadded(JavaSplit(q, '&'), SplitAll(q, '&'), TokenKey);
      FirstWithPrefix(JavaSplit(q, '&'), TokenKey)
  }

  /** The role of a connection: a `roles` collection decides COUNSELOR or USER; otherwise the `role` claim, defaulting to USER. */
  function DeriveRole(c: Claims): (role: string)
    ensures c.roles.RoleCollection? ==> (role == "COUNSELOR" <==> "COUNSELOR" in c.roles.items)
    ensures c.roles.RoleCollection? ==> role in {"COUNSELOR", "USER"}
    ensures !c.roles.RoleCollection? && c.role.None? ==> role == "USER"
    ensures !c.roles.RoleCollection? && c.role.Some? ==> role == c.role.value
  {
    match c.roles
    case RoleCollection(items) => if "COUNSELOR" in items then "COUNSELOR" else "USER"
    case _ => c.role.GetOr("USER")
  }

  /** Tokens minted at registration or login carry `roles = ["USER"]`, so their holders always connect as USER. */
  lemma IssuedTokensConnectAsUser(issued: Auth.IssuedClaims, roleClaim: Option<string>)
    requires issued.roles == [Auth.RoleUser]
    ensures DeriveRole(Claims(Some(issued.subject), RoleCollection(issued.roles), roleClaim)) == "USER"
  {
  }

  // ---------------------------------------------------------------- sending

  /** `send`: only an open socket is written to. */
  function SendTo(h: Handler, s: SocketId, p: Payload): (h': Handler)
    ensures h' == h.(out := h'.out)
    ensures s in h.open ==> h'.out == h.out + [Send({s}, p)]
    ensures s !in h.open ==> h'.out == h.out
  {
    if s in h.open then h.(out := h.out + [Send({s}, p)]) else h
  }

  /** The sockets a broadcast to `userId` reaches: the user's registered sockets that are open. */
  function Recipients(h: Handler, userId: Option<string>): (r: set<SocketId>)
    ensures r <= h.open
    ensures forall s :: s in r ==> userId.Some? && userId.value in h.userSessions && s in h.userSessions[userId.value]
    ensures userId.Some? && userId.value in h.userSessions ==>
              forall s :: s in h.open && s in h.userSessions[userId.value] ==> s in r
  {
    if userId.Some? && userId.value in h.userSessions then h.userSessions[userId.value] * h.open else {}
  }

  /** `broadcastTo`: nothing for a null or unknown user; otherwise every open socket of that user. */
  function BroadcastTo(h: Handler, userId: Option<string>, p: Payload): (h': Handler)
    ensures h' == h.(out := h'.out)
    ensures |h.out| <= |h'.out| && h'.out[..|h.out|] == h.out
    ensures SendsOnlyTo(NewEvents(h, h'), h.open)
    ensures userId.None? ==> h' == h
    ensures h'.out == h.out + (if Recipients(h, userId) == {} then [] else [Send(Recipients(h, userId), p)])
    ensures forall i :: |h.out| <= i < |h'.out| ==>
              h'.out[i] == Send(Recipients(h, userId), p) && userId.Some?
              && Recipients(h, userId) != {} && Recipients(h, userId) <= h.userSessions[userId.value]
  {
    var to := Recipients(h, userId);
    if to == {} then h else h.(out := h.out + [Send(to, p)])
  }

  function CloseSocket(h: Handler, s: SocketId): (h': Handler)
    ensures h'.out == h.out + [Close(s, NotAcceptable)] && h'.open == h.open - {s}
    ensures h'.attrs == h.attrs && h'.userSessions == h.userSessions && h'.matching == h.matching
    ensures h'.messages == h.messages
  {
    h.(open := h.open - {s}, out := h.out + [Close(s, NotAcceptable)])
  }

  // ---------------------------------------------------------------- connection lifecycle

  /**
    `afterConnectionEstablished`. A missing token, a token the parser rejects
    and a token without a subject all close the socket NOT_ACCEPTABLE without
    registering it.
  */
  function Connect(h: Handler, s: SocketId, query: Option<string>, parse: string -> Option<Claims>): (h': Handler)
    ensures s !in h'.open ==>
              h' == h.(open := h.open - {s}, out := h.out + [Close(s, NotAcceptable)])
    ensures TokenFrom(query).None? ==> s !in h'.open
    ensures TokenFrom(query).Some? && parse(TokenFrom(query).value).None? ==> s !in h'.open
    ensures s in h'.open <==> (TokenFrom(query).Some? && parse(TokenFrom(query).value).Some?
                               && parse(TokenFrom(query).value).value.subject.Some?)
    ensures s in h'.open ==>
              var c := parse(TokenFrom(query).value).value;
              var u := c.subject.value;
              && u in h'.userSessions && h'.userSessions[u] == (if u in h.userSessions then h.userSessions[u] else {}) + {s}
              && (forall v :: v != u ==> (v in h'.userSessions <==> v in h.userSessions))
              && (forall v :: v != u && v in h.userSessions ==> h'.userSessions[v] == h.userSessions[v])
              && h'.attrs == h.attrs[s := AttrsOf(h, s).(userId := Some(u), role := Some(DeriveRole(c)))]
              && h'.matching == ChatMatch.SetOnline(h.matching, u, DeriveRole(c))
              && h'.out == h.out + [Send({s}, Connected(u))]
              && h'.open == h.open + {s}
              && h'.messages == h.messages
  {
    var h0 := h.(open := h.open + {s});
    match TokenFrom(query)
    case None => CloseSocket(h0, s)
    case Some(token) =>
      match parse(token)
      case None => CloseSocket(h0, s)
      case Some(claims) =>
        match claims.subject
        case None => CloseSocket(h0, s)
        case Some(userId) =>
          var role := DeriveRole(claims);
          var set0 := if userId in h0.userSessions then h0.userSessions[userId] else {};
          var h1 := h0.(attrs := h0.attrs[s := AttrsOf(h0, s).(userId := Some(userId), role := Some(role))],
                        userSessions := h0.userSessions[userId := set0 + {s}],
                        matching := ChatMatch.SetOnline(h0.matching, userId, role));
          SendTo(h1, s, Connected(userId))
  }

  /**
    `afterConnectionClosed`: the socket leaves its user's set, an emptied set
    is removed from the registry, and the user goes offline through the
    matcher's `setOffline` as written, which also drops any session whose
    pair string merely contains the user id.
  */
  function OnClose(h: Handler, s: SocketId): (h': Handler)
    ensures h'.out == h.out && h'.attrs == h.attrs && h'.messages == h.messages
    ensures h'.open == h.open - {s}
    ensures AttrsOf(h, s).userId.None? ==> h'.userSessions == h.userSessions && h'.matching == h.matching
    ensures AttrsOf(h, s).userId.Some? ==>
              var u := AttrsOf(h, s).userId.value;
              && h'.matching == ChatMatch.SetOfflineAsWritten(h.matching, u)
              && (u in h'.userSessions <==> u in h.userSessions && h.userSessions[u] - {s} != {})
              && (u in h'.userSessions ==> h'.userSessions[u] == h.userSessions[u] - {s})
              && (forall v :: v != u ==> (v in h'.userSessions <==> v in h.userSessions))
              && (forall v :: v != u && v in h.userSessions ==> h'.userSessions[v] == h.userSessions[v])
  {
    var h0 := Unregister(h, s);
    match AttrsOf(h, s).userId
    case None => h0
    case Some(u) => h0.(matching := ChatMatch.SetOfflineAsWritten(h0.matching, u))
  }

  /** `afterConnectionClosed` with the matcher's corrected `setOffline`: only the matcher differs. */
  function OnCloseIntended(h: Handler, s: SocketId): (h': Handler)
    ensures h'.out == h.out && h'.attrs == h.attrs && h'.messages == h.messages
    ensures h'.open == OnClose(h, s).open && h'.userSessions == OnClose(h, s).userSessions
    ensures AttrsOf(h, s).userId.None? ==> h'.matching == h.matching
    ensures AttrsOf(h, s).userId.Some? ==> h'.matching == ChatMatch.SetOffline(h.matching, AttrsOf(h, s).userId.value)
  {
    var h0 := Unregister(h, s);
    match AttrsOf(h, s).userId
    case None => h0
    case Some(u) => h0.(matching := ChatMatch.SetOffline(h0.matching, u))
  }

  /** The registry side of a close: the socket leaves the open set and its user's set. */
  function Unregister(h: Handler, s: SocketId): (h': Handler)
    ensures h'.out == h.out && h'.attrs == h.attrs && h'.messages == h.messages && h'.matching == h.matching
    ensures h'.open == h.open - {s}
  {
    var h0 := h.(open := h.open - {s});
    match AttrsOf(h, s).userId
    case None => h0
    case Some(u) =>
      var reg :=
        if u !in h0.userSessions then h0.userSessions
        else if h0.userSessions[u] - {s} == {} then h0.userSessions - {u}
        else h0.userSessions[u := h0.userSessions[u] - {s}];
      h0.(userSessions := reg)
  }

  /**
    The close of user "u1"'s only socket ends the session of "u10" and "c1"
    as written, while the corrected close keeps it.
  */
  lemma CloseDropsBystanderSession()
    ensures var h := Handler(map[0 := Attrs(Some("u1"), Some("USER"), None)], {0}, map["u1" := {0}],
                             ChatMatch.MatchState(map[], map["s1" := "u10:c1"]), map[], []);
            && "s1" !in OnClose(h, 0).matching.sessions
            && "s1" in OnCloseIntended(h, 0).matching.sessions
  {
    var h := Handler(map[0 := Attrs(Some("u1"), Some("USER"), None)], {0}, map["u1" := {0}],
                     ChatMatch.MatchState(map[], map["s1" := "u10:c1"]), map[], []);
    ChatMatch.SetOfflineAsWrittenDropsBystanderSession();
  }

  // ---------------------------------------------------------------- registry invariant

  /** No user keeps an empty socket set, and every registered socket carries its user's id. */
  ghost predicate RegistryWellFormed(h: Handler) {
    && (forall u :: u in h.userSessions ==> h.userSessions[u] != {})
    && (forall u, s :: u in h.userSessions && s in h.userSessions[u] ==> AttrsOf(h, s).userId == Some(u))
  }

  /** A socket no earlier event has touched. */
  ghost predicate IsFreshSocket(h: Handler, s: SocketId) {
    s !in h.attrs && forall u :: u in h.userSessions ==> s !in h.userSessions[u]
  }

  lemma ConnectKeepsRegistry(h: Handler, s: SocketId, query: Option<string>, parse: string -> Option<Claims>)
    requires RegistryWellFormed(h) && IsFreshSocket(h, s)
    ensures RegistryWellFormed(Connect(h, s, query, parse))
  {
    var h' := Connect(h, s, query, parse);
    if s in h'.open {
      var u := parse(TokenFrom(query).value).value.subject.value;
      forall v, t | v in h'.userSessions && t in h'.userSessions[v]
        ensures AttrsOf(h', t).userId == Some(v)
      {
        if v != u {
          assert t in h.userSessions[v];
          assert t != s;
          assert AttrsOf(h', t) == AttrsOf(h, t);
        } else if t != s {
          assert t in h.userSessions[u];
          assert AttrsOf(h', t) == AttrsOf(h, t);
        } else {
          assert AttrsOf(h', s).userId == Some(u);
        }
      }
    } else {
      assert h'.attrs == h.attrs && h'.userSessions == h.userSessions;
      assert forall t :: AttrsOf(h', t) == AttrsOf(h, t);
    }
  }

  lemma OnCloseKeepsRegistry(h: Handler, s: SocketId)
    requires RegistryWellFormed(h)
    ensures RegistryWellFormed(OnClose(h, s))
  {
    var h' := OnClose(h, s);
    assert forall t :: AttrsOf(h', t) == AttrsOf(h, t);
    forall v, t | v in h'.userSessions && t in h'.userSessions[v]
      ensures AttrsOf(h', t).userId == Some(v)
    {
      assert v in h.userSessions && h'.userSessions[v] <= h.userSessions[v];
      assert t in h.userSessions[v];
    }
  }

  // ---------------------------------------------------------------- handlers

  /**
    `start_session`. A USER is paired with the counselor `findAny` picked, or
    told to wait when there is none. Anyone else must name the session to join.
    On success the socket's `chatSessionId` is set and both sides are told.
  */
  function StartSession(h: Handler, s: SocketId, userId: string, node: Node, env: Env): (h': Handler)
    requires ChatMatch.IsFindAnyResult(h.matching, env.counselorPick)
    ensures h'.userSessions == h.userSessions && h'.open == h.open && h'.messages == h.messages
    ensures |h.out| <= |h'.out| && h'.out[..|h.out|] == h.out
    ensures SendsOnlyTo(NewEvents(h, h'), h.open)
    ensures AttrsOf(h, s).role == Some("USER") && !ChatMatch.HasOnlineCounselor(h.matching) ==>
              h' == SendTo(h, s, SessionWait)
    ensures AttrsOf(h, s).role != Some("USER") && Field(node, "sessionId") == "" ==>
              h' == SendTo(h, s, ErrorMsg("sessionId required for counselor"))
    ensures AttrsOf(h, s).role == Some("USER") && ChatMatch.HasOnlineCounselor(h.matching) ==>
              var c := env.counselorPick.value;
              && h'.matching == ChatMatch.CreateSession(h.matching, userId, c, env.freshSessionId).1
              && h'.attrs == h.attrs[s := AttrsOf(h, s).(chatSessionId := Some(env.freshSessionId))]
              && h'.out == BroadcastTo(SendTo(h, s, SessionStarted(env.freshSessionId, Some(c))),
                                       Some(c), SessionStarted(env.freshSessionId, Some(userId))).out
    ensures AttrsOf(h, s).role != Some("USER") && Field(node, "sessionId") != "" ==>
              var sid := Field(node, "sessionId");
              var peer := ChatMatch.GetPeer(h.matching, sid, userId);
              && h'.matching == h.matching
              && h'.attrs == h.attrs[s := AttrsOf(h, s).(chatSessionId := Some(sid))]
              && h'.out == BroadcastTo(SendTo(h, s, SessionStarted(sid, peer)), peer, SessionStarted(sid, Some(userId))).out
  {
    if AttrsOf(h, s).role == Some("USER") then StartAsUser(h, s, userId, env)
    else JoinNamedSession(h, s, userId, node)
  }

  /** `start_session` for a USER: pair with the picked counselor, or wait. */
  function StartAsUser(h: Handler, s: SocketId, userId: string, env: Env): (h': Handler)
    requires ChatMatch.IsFindAnyResult(h.matching, env.counselorPick)
    ensures h'.userSessions == h.userSessions && h'.open == h.open && h'.messages == h.messages
    ensures |h.out| <= |h'.out| && h'.out[..|h.out|] == h.out
    ensures SendsOnlyTo(NewEvents(h, h'), h.open)
    ensures !ChatMatch.HasOnlineCounselor(h.matching) ==> h' == SendTo(h, s, SessionWait)
    ensures ChatMatch.HasOnlineCounselor(h.matching) ==>
              var c := env.counselorPick.value;
              && h'.matching == ChatMatch.CreateSession(h.matching, userId, c, env.freshSessionId).1
              && h'.attrs == h.attrs[s := AttrsOf(h, s).(chatSessionId := Some(env.freshSessionId))]
              && h'.out == BroadcastTo(SendTo(h, s, SessionStarted(env.freshSessionId, Some(c))),
                                       Some(c), SessionStarted(env.freshSessionId, Some(userId))).out
  {
    match env.counselorPick
    case None => SendTo(h, s, SessionWait)
    case Some(c) =>
      var (sid, m') := ChatMatch.CreateSession(h.matching, userId, c, env.freshSessionId);
      var h' := Started(h.(matching := m'), s, userId, sid, Some(c));
      assert NewEvents(h, h') == NewEvents(h.(matching := m'), h');
      h'
  }

  /** `start_session` for anyone else: join the session the message names. */
  function JoinNamedSession(h: Handler, s: SocketId, userId: string, node: Node): (h': Handler)
    ensures h'.userSessions == h.userSessions && h'.open == h.open && h'.messages == h.messages
    ensures |h.out| <= |h'.out| && h'.out[..|h.out|] == h.out
    ensures SendsOnlyTo(NewEvents(h, h'), h.open)
    ensures Field(node, "sessionId") == "" ==> h' == SendTo(h, s, ErrorMsg("sessionId required for counselor"))
    ensures Field(node, "sessionId") != "" ==>
              var sid := Field(node, "sessionId");
              var peer := ChatMatch.GetPeer(h.matching, sid, userId);
              && h'.matching == h.matching
              && h'.attrs == h.attrs[s := AttrsOf(h, s).(chatSessionId := Some(sid))]
              && h'.out == BroadcastTo(SendTo(h, s, SessionStarted(sid, peer)), peer, SessionStarted(sid, Some(userId))).out
  {
    var sid := Field(node, "sessionId");
    if sid == "" then SendTo(h, s, ErrorMsg("sessionId required for counselor"))
    else Started(h, s, userId, sid, ChatMatch.GetPeer(h.matching, sid, userId))
  }

  /** The common tail of `start_session`: remember the session and notify both sides. */
  function Started(h: Handler, s: SocketId, userId: string, sid: string, peer: Option<string>): (h': Handler)
    ensures h'.attrs == h.attrs[s := AttrsOf(h, s).(chatSessionId := Some(sid))]
    ensures h'.matching == h.matching && h'.userSessions == h.userSessions && h'.open == h.open
    ensures h'.messages == h.messages
    ensures h'.out == BroadcastTo(SendTo(h, s, SessionStarted(sid, peer)), peer, SessionStarted(sid, Some(userId))).out
    ensures |h.out| <= |h'.out| && h'.out[..|h.out|] == h.out
    ensures SendsOnlyTo(NewEvents(h, h'), h.open)
  {
    var h1 := h.(attrs := h.attrs[s := AttrsOf(h, s).(chatSessionId := Some(sid))]);
    var h2 := SendTo(h1, s, SessionStarted(sid, peer));
    var h3 := BroadcastTo(h2, peer, SessionStarted(sid, Some(userId)));
    assert h3.out == BroadcastTo(SendTo(h, s, SessionStarted(sid, peer)), peer, SessionStarted(sid, Some(userId))).out;
    assert NewEvents(h, h3) == NewEvents(h, h2) + NewEvents(h2, h3);
    h3
  }

  /**
    `message`: with an active session and non-empty `text` and `to`, the
    message is saved once, the sender alone gets the acknowledgement and only
    the recipient's sockets get the message.
  */
  function ChatMessage(h: Handler, s: SocketId, userId: string, node: Node, env: Env): (h': Handler)
    ensures h'.attrs == h.attrs && h'.userSessions == h.userSessions && h'.open == h.open && h'.matching == h.matching
    ensures |h.out| <= |h'.out| && h'.out[..|h.out|] == h.out
    ensures SendsOnlyTo(NewEvents(h, h'), h.open)
    ensures AttrsOf(h, s).chatSessionId.None? ==> h' == SendTo(h, s, ErrorMsg("No active session"))
    ensures AttrsOf(h, s).chatSessionId.Some? && (Field(node, "text") == "" || Field(node, "to") == "") ==>
              h' == SendTo(h, s, ErrorMsg("Invalid payload"))
    ensures AttrsOf(h, s).chatSessionId.Some? && Field(node, "text") != "" && Field(node, "to") != "" ==>
              var sid := AttrsOf(h, s).chatSessionId.value;
              var to := Field(node, "to");
              var text := Field(node, "text");
              var id := env.freshMessageId;
              && h'.messages == h.messages[id := StoredMessage(id, sid, userId, to, env.encrypt(text), None, None)]
              && NewEvents(h, h') == NewEvents(h, SendTo(h, s, MessageAck(id, env.now)))
                                      + (if Recipients(h, Some(to)) == {} then []
                                         else [Send(Recipients(h, Some(to)), Deliver(userId, sid, id, text))])
  {
    match AttrsOf(h, s).chatSessionId
    case None => SendTo(h, s, ErrorMsg("No active session"))
    case Some(sid) =>
      var text := Field(node, "text");
      var to := Field(node, "to");
      if text == "" || to == "" then SendTo(h, s, ErrorMsg("Invalid payload"))
      else
        var id := env.freshMessageId;
        var h1 := h.(messages := h.messages[id := StoredMessage(id, sid, userId, to, env.encrypt(text), None, None)]);
        var h2 := SendTo(h1, s, MessageAck(id, env.now));
        var h3 := BroadcastTo(h2, Some(to), Deliver(userId, sid, id, text));
        assert NewEvents(h, h3) == NewEvents(h, h2) + NewEvents(h2, h3);
        h3
  }

  /** `typing`: relayed to the named user's sockets, never stored. `typing` is the frame's flag as `asBoolean(false)` reads it. */
  function Typing(h: Handler, userId: string, to: string, typing: bool): (h': Handler)
    ensures h'.attrs == h.attrs && h'.userSessions == h.userSessions && h'.open == h.open
    ensures h'.matching == h.matching && h'.messages == h.messages
    ensures var r := Recipients(h, Some(to));
            h'.out == h.out + (if r == {} then [] else [Send(r, TypingNotice(userId, typing))])
  {
    BroadcastTo(h, Some(to), TypingNotice(userId, typing))
  }

  /** `asBoolean(false)` on a text node: true only for the text `true`, ignoring surrounding blanks. */
  function AsBoolean(text: string): bool {
    Trim(text) == "true"
  }

  /** `markDelivered` / `markSeen`: stamp the receipt on a saved message; an unknown or empty id changes nothing. */
  function MarkReceipt(h: Handler, node: Node, now: int, seen: bool): (h': Handler)
    ensures h'.out == h.out && h'.attrs == h.attrs && h'.userSessions == h.userSessions
    ensures h'.open == h.open && h'.matching == h.matching
    ensures h'.messages.Keys == h.messages.Keys
    ensures forall k :: k in h.messages && k != Field(node, "messageId") ==> h'.messages[k] == h.messages[k]
    ensures Field(node, "messageId") == "" ==> h' == h
    ensures Field(node, "messageId") != "" && Field(node, "messageId") in h.messages ==>
              var m := h.messages[Field(node, "messageId")];
              h'.messages[Field(node, "messageId")] == (if seen then m.(seenAt := Some(now)) else m.(deliveredAt := Some(now)))
  {
    var id := Field(node, "messageId");
    if id == "" || id !in h.messages then h
    else
      var m := h.messages[id];
      h.(messages := h.messages[id := if seen then m.(seenAt := Some(now)) else m.(deliveredAt := Some(now))])
  }

  /**
    The legacy `{cipher}` frame: relayed to the session peer after the same
    session check as `message`; an empty cipher is dropped silently.
  */
  function LegacyCipher(h: Handler, s: SocketId, userId: string, node: Node, env: Env): (h': Handler)
    ensures h'.attrs == h.attrs && h'.userSessions == h.userSessions && h'.open == h.open && h'.matching == h.matching
    ensures |h.out| <= |h'.out| && h'.out[..|h.out|] == h.out
    ensures SendsOnlyTo(NewEvents(h, h'), h.open)
    ensures AttrsOf(h, s).chatSessionId.None? ==> h' == SendTo(h, s, ErrorMsg("No active session"))
    ensures AttrsOf(h, s).chatSessionId.Some?
            && ChatMatch.GetPeer(h.matching, AttrsOf(h, s).chatSessionId.value, userId).None? ==>
              h' == SendTo(h, s, ErrorMsg("No peer available"))
    ensures (&& AttrsOf(h, s).chatSessionId.Some?
             && ChatMatch.GetPeer(h.matching, AttrsOf(h, s).chatSessionId.value, userId).Some?
             && Field(node, "cipher") == "") ==> h' == h
    ensures (&& AttrsOf(h, s).chatSessionId.Some?
             && ChatMatch.GetPeer(h.matching, AttrsOf(h, s).chatSessionId.value, userId).Some?
             && Field(node, "cipher") != "") ==>
              var sid := AttrsOf(h, s).chatSessionId.value;
              h' == RelayCipher(h, s, userId, sid, ChatMatch.GetPeer(h.matching, sid, userId).value, Field(node, "cipher"), env)
  {
    match AttrsOf(h, s).chatSessionId
    case None => SendTo(h, s, ErrorMsg("No active session"))
    case Some(sid) =>
      match ChatMatch.GetPeer(h.matching, sid, userId)
      case None => SendTo(h, s, ErrorMsg("No peer available"))
      case Some(to) =>
        var cipher := Field(node, "cipher");
        if cipher == "" then h
        else RelayCipher(h, s, userId, sid, to, cipher, env)
  }

  /** The legacy relay proper: store the cipher, acknowledge the sender, forward to the peer. */
  function RelayCipher(h: Handler, s: SocketId, userId: string, sid: string, to: string, cipher: string, env: Env): (h': Handler)
    ensures h'.attrs == h.attrs && h'.userSessions == h.userSessions && h'.open == h.open && h'.matching == h.matching
    ensures h'.messages == h.messages[env.freshMessageId := StoredMessage(env.freshMessageId, sid, userId, to, env.encrypt(cipher), None, None)]
    ensures |h.out| <= |h'.out| && h'.out[..|h.out|] == h.out
    ensures SendsOnlyTo(NewEvents(h, h'), h.open)
    ensures NewEvents(h, h') == NewEvents(h, SendTo(h, s, MessageAck(env.freshMessageId, env.now)))
                                + (if Recipients(h, Some(to)) == {} then []
                                   else [Send(Recipients(h, Some(to)), CipherRelay(userId, cipher))])
  {
    var id := env.freshMessageId;
    var h1 := h.(messages := h.messages[id := StoredMessage(id, sid, userId, to, env.encrypt(cipher), None, None)]);
    var h2 := SendTo(h1, s, MessageAck(id, env.now));
    var h3 := BroadcastTo(h2, Some(to), CipherRelay(userId, cipher));
    assert NewEvents(h, h3) == NewEvents(h, h2) + NewEvents(h2, h3);
    h3
  }

  // ---------------------------------------------------------------- dispatch

  datatype Route = StartSessionRoute | MessageRoute | TypingRoute | DeliveredRoute | SeenRoute | LegacyRoute | UnknownRoute

  /** The `switch` on `type`, with the `{cipher}`-only fallback. */
  function RouteOf(node: Node): (r: Route)
    ensures r == StartSessionRoute <==> Field(node, "type") == "start_session"
    ensures r == MessageRoute <==> Field(node, "type") == "message"
    ensures r == TypingRoute <==> Field(node, "type") == "typing"
    ensures r == DeliveredRoute <==> Field(node, "type") == "delivered"
    ensures r == SeenRoute <==> Field(node, "type") == "seen"
    ensures r == LegacyRoute <==> "cipher" in node && "type" !in node
    ensures r == UnknownRoute <==>
              Field(node, "type") !in {"start_session", "message", "typing", "delivered", "seen"}
              && !("cipher" in node && "type" !in node)
  {
    var t := Field(node, "type");
    if t == "start_session" then StartSessionRoute
    else if t == "message" then MessageRoute
    else if t == "typing" then TypingRoute
    else if t == "delivered" then DeliveredRoute
    else if t == "seen" then SeenRoute
    else if "cipher" in node && "type" !in node then LegacyRoute
    else UnknownRoute
  }

  /** `handleTextMessage`: a socket without a user id is closed; otherwise the frame goes to its handler. */
  function Dispatch(h: Handler, s: SocketId, node: Node, env: Env): (h': Handler)
    requires ChatMatch.IsFindAnyResult(h.matching, env.counselorPick)
    ensures AttrsOf(h, s).userId.None? ==> h' == CloseSocket(h, s)
    ensures AttrsOf(h, s).userId.Some? ==>
              var u := AttrsOf(h, s).userId.value;
              && h'.userSessions == h.userSessions && h'.open == h.open
              && |h.out| <= |h'.out| && h'.out[..|h.out|] == h.out
              && SendsOnlyTo(NewEvents(h, h'), h.open)
              && (RouteOf(node) == UnknownRoute ==> h' == SendTo(h, s, ErrorMsg("Unknown type")))
              && (RouteOf(node) == StartSessionRoute ==> h' == StartSession(h, s, u, node, env))
              && (RouteOf(node) == MessageRoute ==> h' == ChatMessage(h, s, u, node, env))
              && (RouteOf(node) == TypingRoute ==> h' == Typing(h, u, Field(node, "to"), AsBoolean(Field(node, "typing"))))
              && (RouteOf(node) == DeliveredRoute ==> h' == MarkReceipt(h, node, env.now, false))
              && (RouteOf(node) == SeenRoute ==> h' == MarkReceipt(h, node, env.now, true))
              && (RouteOf(node) == LegacyRoute ==> h' == LegacyCipher(h, s, u, node, env))
  {
    match AttrsOf(h, s).userId
    case None => CloseSocket(h, s)
    case Some(u) =>
      match RouteOf(node)
      case StartSessionRoute => StartSession(h, s, u, node, env)
      case MessageRoute => ChatMessage(h, s, u, node, env)
      case TypingRoute => Typing(h, u, Field(node, "to"), AsBoolean(Field(node, "typing")))
      case DeliveredRoute => MarkReceipt(h, node, env.now, false)
      case SeenRoute => MarkReceipt(h, node, env.now, true)
      case LegacyRoute => LegacyCipher(h, s, u, node, env)
      case UnknownRoute => SendTo(h, s, ErrorMsg("Unknown type"))
  }

  /** Frames never change the registry or a socket's user id, so the registry stays well formed. */
  lemma DispatchKeepsRegistry(h: Handler, s: SocketId, node: Node, env: Env)
    requires ChatMatch.IsFindAnyResult(h.matching, env.counselorPick)
    requires RegistryWellFormed(h)
    ensures RegistryWellFormed(Dispatch(h, s, node, env))
  {
    var h' := Dispatch(h, s, node, env);
    if AttrsOf(h, s).userId.Some? {
      var u := AttrsOf(h, s).userId.value;
      if RouteOf(node) == StartSessionRoute {
        StartSessionSameUsers(h, s, u, node, env);
      } else {
        assert h'.attrs == h.attrs;
      }
    }
    assert SameUsers(h, h');
    SameUsersKeepRegistry(h, h');
  }

  /** `start_session` only sets the socket's session: the registry and every socket's user id stay. */
  lemma StartSessionSameUsers(h: Handler, s: SocketId, u: string, node: Node, env: Env)
    requires ChatMatch.IsFindAnyResult(h.matching, env.counselorPick)
    ensures SameUsers(h, StartSession(h, s, u, node, env))
  {
    var h' := StartSession(h, s, u, node, env);
    if h'.attrs != h.attrs {
      var sid :| h'.attrs == h.attrs[s := AttrsOf(h, s).(chatSessionId := sid)];
      assert forall t :: AttrsOf(h', t).userId == AttrsOf(h, t).userId;
    }
  }

  /** The registry and every socket's user id are the same in `h` and `h'`. */
  ghost predicate SameUsers(h: Handler, h': Handler) {
    h'.userSessions == h.userSessions && forall t :: AttrsOf(h', t).userId == AttrsOf(h, t).userId
  }

  /** Changing anything but the registry and the sockets' user ids keeps the registry well formed. */
  lemma SameUsersKeepRegistry(h: Handler, h': Handler)
    requires RegistryWellFormed(h)
    requires SameUsers(h, h')
    ensures RegistryWellFormed(h')
  {
  }

  /**
    A USER's `start_session` with no counselor online records no session: the
    only effect is the wait notice.
  */
  lemma WaitRecordsNothing(h: Handler, s: SocketId, node: Node, env: Env)
    requires ChatMatch.IsFindAnyResult(h.matching, env.counselorPick)
    requires AttrsOf(h, s).userId.Some? && AttrsOf(h, s).role == Some("USER")
    requires Field(node, "type") == "start_session" && !ChatMatch.HasOnlineCounselor(h.matching)
    ensures var h' := Dispatch(h, s, node, env);
            && h'.attrs == h.attrs && h'.matching == h.matching
            && (s in h.open ==> h'.out == h.out + [Send({s}, SessionWait)])
  {
  }
}

=== FILE: exercise_counter.dfy ===
/**
  The per-user exercise completion counters of the chat backend: each user
  has one progress document, keyed by the user id, holding a count per
  exercise key. Counts are Java `int`s.
*/
module ExerciseCounter {
  import Int32

  type Counters = map<string, int>

  /** The progress documents, keyed by user id. */
  type ProgressStore = map<string, Counters>

  /** A request body; a field sent as JSON null is not modelled. */
  type Body = map<string, string>

  ghost predicate CountsInRange(store: ProgressStore) {
    forall u, k :: u in store && k in store[u] ==> Int32.InRange(store[u][k])
  }

  /** `progress`: a user without a document gets an empty one saved and sees no counts. */
  function Progress(store: ProgressStore, userId: string): (r: (Counters, ProgressStore))
    ensures userId in r.1 && r.0 == r.1[userId]
    ensures userId in store ==> r == (store[userId], store)
    ensures userId !in store ==> r.0 == map[] && r.1 == store[userId := map[]]
  {
    if userId in store then (store[userId], store)
    else (map[], store[userId := map[]])
  }

  /** `body.getOrDefault("key", "")`. */
  function KeyOf(body: Body): (key: string)
    ensures "key" in body ==> key == body["key"]
    ensures "key" !in body ==> key == ""
  {
    if "key" in body then body["key"] else ""
  }

  /**
    `complete`: the count under the body's key goes up by one (from zero when
    absent, wrapping at the top of the `int` range); the user's document is
    created when missing, and nothing else changes.
  */
  function Complete(store: ProgressStore, userId: string, body: Body): (store': ProgressStore)
    ensures store'.Keys == store.Keys + {userId}
    ensures forall u :: u in store && u != userId ==> store'[u] == store[u]
    ensures var before := if userId in store then store[userId] else map[];
            var key := KeyOf(body);
            && store'[userId].Keys == before.Keys + {key}
            && store'[userId][key] == Int32.Wrap((if key in before then before[key] else 0) + 1)
            && (forall k :: k in before && k != key ==> store'[userId][k] == before[k])
    ensures CountsInRange(store) ==> CountsInRange(store')
  {
    var p := if userId in store then store[userId] else map[];
    var key := KeyOf(body);
    var current := if key in p then p[key] else 0;
    store[userId := p[key := Int32.Wrap(current + 1)]]
  }

  /** Below the top of the range, completing adds exactly one to the key and the total grows by one. */
  lemma CompleteCountsOne(store: ProgressStore, userId: string, body: Body)
    requires CountsInRange(store)
    requires userId in store && KeyOf(body) in store[userId] ==> store[userId][KeyOf(body)] < Int32.Max
    ensures var store' := Complete(store, userId, body);
            var key := KeyOf(body);
            && (userId in store && key in store[userId] ==> store'[userId][key] == store[userId][key] + 1)
            && (!(userId in store && key in store[userId]) ==> store'[userId][key] == 1)
  {
  }

  /** A count at the top of the `int` range wraps to the bottom. */
  lemma CompleteWrapsAtMax(store: ProgressStore, userId: string, body: Body)
    requires userId in store && KeyOf(body) in store[userId] && store[userId][KeyOf(body)] == Int32.Max
    ensures Complete(store, userId, body)[userId][KeyOf(body)] == Int32.Min
  {
  }

  /** A first completion on a fresh user creates the document with that one count. */
  lemma FirstCompletion(store: ProgressStore, userId: string, body: Body)
    requires userId !in store
    ensures Complete(store, userId, body)[userId] == map[KeyOf(body) := 1]
    ensures Progress(Complete(store, userId, body), userId).0 == map[KeyOf(body) := 1]
  {
  }
}

=== FILE: exercise_service.dfy ===
/**
  Exercise progress on the wellness platform: starting an exercise records an
  open progress document, completing it closes the document with a rating
  and the minutes spent, and the statistics summarise a user's documents.
  Timestamps count nanoseconds, the resolution of `LocalDateTime`.
*/
module ExerciseService {
  import opened Wrappers
  import opened Find
  import Int32
  import Sorting

  datatype Exercise = Exercise(id: string, title: string, active: bool)

  datatype ExerciseProgress = ExerciseProgress(
    id: string, userId: string, exerciseId: string, completed: Option<bool>,
    startedAt: Option<int>, completedAt: Option<int>, rating: Option<int>,
    feedback: Option<string>, durationMinutes: Option<int>)

  type Progresses = seq<ExerciseProgress>

  const NanosPerSecond: int := 1_000_000_000
  const SecondsPerMinute: int := 60
  const NanosPerMinute: int := NanosPerSecond * SecondsPerMinute
  const RecentLimit: nat := 10

  function ExerciseWithId(id: string): Exercise -> bool {
    (e: Exercise) => e.id == id
  }

  function ProgressWithId(id: string): ExerciseProgress -> bool {
    (p: ExerciseProgress) => p.id == id
  }

  ghost predicate IdUnused(ps: Progresses, id: string) {
    forall i :: 0 <= i < |ps| ==> ps[i].id != id
  }

  /** `getExerciseById`. */
  function GetExerciseById(exercises: seq<Exercise>, id: string): (r: Result<Exercise>)
    ensures r.Err? <==> forall i :: 0 <= i < |exercises| ==> exercises[i].id != id
    ensures r.Err? ==> r.error == "Exercise not found"
    ensures r.Ok? ==> r.value in exercises && r.value.id == id
  {
    match FirstIndex(exercises, ExerciseWithId(id))
    case None => Err("Exercise not found")
    case Some(i) => Ok(exercises[i])
  }

  /**
    `startExercise`: an unknown exercise fails and nothing is saved; otherwise
    one open record for the caller is added, stamped with its creation time.
  */
  function StartExercise(exercises: seq<Exercise>, ps: Progresses, userId: string, exerciseId: string, freshId: string, now: int)
    : (r: Result<(ExerciseProgress, Progresses)>)
    ensures r.Err? <==> GetExerciseById(exercises, exerciseId).Err?
    ensures r.Err? ==> r.error == "Exercise not found"
    ensures r.Ok? ==>
              && r.value.0 == ExerciseProgress(freshId, userId, exerciseId, Some(false), Some(now), None, None, None, None)
              && r.value.1 == ps + [r.value.0]
  {
    var _ :- GetExerciseById(exercises, exerciseId);
    var p := ExerciseProgress(freshId, userId, exerciseId, Some(false), Some(now), None, None, None, None);
    Ok((p, ps + [p]))
  }

  /**
    `(int) Duration.between(start, end).toMinutes()`: the duration keeps its
    whole seconds rounded down, `toMinutes` divides them by sixty rounding
    toward zero, and the cast narrows to `int`.
  */
  function MinutesBetween(start: int, end: int): (m: int)
    ensures Int32.InRange(m)
    ensures 0 <= end - start < Int32.Max * NanosPerMinute ==>
              m * NanosPerMinute <= end - start < (m + 1) * NanosPerMinute
  {
    var d := end - start;
    var q := Int32.TruncDiv(d / NanosPerSecond, SecondsPerMinute);
    assert 0 <= d < Int32.Max * NanosPerMinute ==> q * NanosPerMinute <= d < (q + 1) * NanosPerMinute && q < Int32.Max by {
      if 0 <= d < Int32.Max * NanosPerMinute {
        WholeMinutes(d, d / NanosPerSecond, q);
      }
    }
    Int32.Wrap(q)
  }

  /** Rounding nanoseconds down to seconds and then seconds down to minutes rounds nanoseconds down to minutes. */
  lemma WholeMinutes(d: int, sec: int, q: int)
    requires 0 <= d && sec == d / NanosPerSecond && 0 <= sec - q * SecondsPerMinute < SecondsPerMinute
    ensures q * NanosPerMinute <= d < (q + 1) * NanosPerMinute
    ensures d < Int32.Max * NanosPerMinute ==> q < Int32.Max
  {
  }

  /** `LocalDateTime` keeps fractions of a second: from 0.9 s to 60.1 s is 59.2 s, no whole minute. */
  lemma SubSecondStartsCount()
    ensures MinutesBetween(900_000_000, 60_100_000_000) == 0
    ensures MinutesBetween(0, 60_000_000_000) == 1
  {
  }

  /** A negative duration rounds its seconds down before `toMinutes` rounds toward zero: -59.5 s gives -1. */
  lemma NegativeDurationRoundsSecondsDown()
    ensures MinutesBetween(59_500_000_000, 0) == -1
    ensures MinutesBetween(59_000_000_000, 0) == 0
  {
  }

  /**
    `completeExercise`: an unknown record fails with "Progress not found", a
    record of another user with "Unauthorized". Otherwise the record is
    completed at `now` with the rating and feedback given, and its duration
    is set only when its start time is known.
  */
  function CompleteExercise(ps: Progresses, progressId: string, userId: string, rating: Option<int>, feedback: Option<string>, now: int)
    : (r: Result<(ExerciseProgress, Progresses)>)
    ensures FirstIndex(ps, ProgressWithId(progressId)).None? <==> r == Err("Progress not found")
    ensures r == Err("Unauthorized") <==>
              FirstIndex(ps, ProgressWithId(progressId)).Some?
              && ps[FirstIndex(ps, ProgressWithId(progressId)).value].userId != userId
    ensures r.Ok? ==>
              var i := FirstIndex(ps, ProgressWithId(progressId)).value;
              var p := r.value.0;
              && ps[i].userId == userId
              && p.completed == Some(true) && p.completedAt == Some(now)
              && p.rating == rating && p.feedback == feedback
              && (ps[i].startedAt.None? ==> p.durationMinutes == ps[i].durationMinutes)
              && (ps[i].startedAt.Some? ==> p.durationMinutes == Some(MinutesBetween(ps[i].startedAt.value, now)))
              && p == ps[i].(completed := p.completed, completedAt := p.completedAt, rating := rating,
                             feedback := feedback, durationMinutes := p.durationMinutes)
              && r.value.1 == ps[i := p]
  {
    match FirstIndex(ps, ProgressWithId(progressId))
    case None => Err("Progress not found")
    case Some(i) =>
      if ps[i].userId != userId then Err("Unauthorized")
      else
        var closed := ps[i].(completed := Some(true), completedAt := Some(now), rating := rating, feedback := feedback);
        var p := if closed.startedAt.Some? then closed.(durationMinutes := Some(MinutesBetween(closed.startedAt.value, now)))
                 else closed;
        Ok((p, ps[i := p]))
  }

  // ---------------------------------------------------------------- statistics

  function Owned(ps: Progresses, userId: string): (r: Progresses)
    ensures forall x :: x in r <==> x in ps && x.userId == userId
    ensures |r| <= |ps|
  {
    if |ps| == 0 then []
    else
      var rest := Owned(ps[1..], userId);
      if ps[0].userId == userId then [ps[0]] + rest else rest
  }

  function NewestStartFirst(p: ExerciseProgress): int {
    if p.startedAt.Some? then -p.startedAt.value else 0
  }

  function Started(ps: Progresses): (r: Progresses)
    ensures forall x :: x in r <==> x in ps && x.startedAt.Some?
    ensures multiset(r) + multiset(NotStarted(ps)) == multiset(ps)
  {
    if |ps| == 0 then []
    else
      assert ps == [ps[0]] + ps[1..];
      if ps[0].startedAt.Some? then [ps[0]] + Started(ps[1..]) else Started(ps[1..])
  }

  function NotStarted(ps: Progresses): (r: Progresses)
    ensures forall x :: x in r <==> x in ps && x.startedAt.None?
  {
    if |ps| == 0 then []
    else if ps[0].startedAt.None? then [ps[0]] + NotStarted(ps[1..]) else NotStarted(ps[1..])
  }

  /**
    `findByUserIdOrderByStartedAtDesc`: the caller's records, latest start
    first; records without a start time sort after all others, as a missing
    field does in a descending database sort.
  */
  function UserProgress(ps: Progresses, userId: string): (r: Progresses)
    ensures multiset(r) == multiset(Owned(ps, userId))
    ensures |r| == |Owned(ps, userId)|
    ensures forall i, j :: 0 <= i < j < |r| && r[j].startedAt.Some? ==>
              r[i].startedAt.Some? && r[i].startedAt.value >= r[j].startedAt.value
  {
    var own := Owned(ps, userId);
    var with := Sorting.SortBy(Started(own), NewestStartFirst);
    var without := NotStarted(own);
    assert forall x :: x in with ==> x.startedAt.Some? by {
      forall x | x in with ensures x.startedAt.Some? {
        assert x in multiset(with);
      }
    }
    StartedBeforeNotStarted(with, without);
    assert multiset(with + without) == multiset(own);
    assert |with + without| == |multiset(with + without)|;
    with + without
  }

  /** Records with a start, latest first, followed by records without one: every start is no later than those before it. */
  lemma StartedBeforeNotStarted(with: Progresses, without: Progresses)
    requires forall x :: x in with ==> x.startedAt.Some?
    requires Sorting.SortedBy(with, NewestStartFirst)
    requires forall x :: x in without ==> x.startedAt.None?
    ensures var r := with + without;
            forall i, j :: 0 <= i < j < |r| && r[j].startedAt.Some? ==>
              r[i].startedAt.Some? && r[i].startedAt.value >= r[j].startedAt.value
  {
    var r := with + without;
    forall i, j | 0 <= i < j < |r| && r[j].startedAt.Some?
      ensures r[i].startedAt.Some? && r[i].startedAt.value >= r[j].startedAt.value
    {
      assert j < |with|;
      assert r[i] == with[i] && r[j] == with[j];
      assert r[i] in with;
      assert NewestStartFirst(with[i]) <= NewestStartFirst(with[j]);
    }
  }

  function CountCompleted(ps: Progresses): nat {
    if |ps| == 0 then 0 else (if ps[0].completed == Some(true) then 1 else 0) + CountCompleted(ps[1..])
  }

  lemma {:induction false} CountCompletedAtMostLength(ps: Progresses)
    ensures CountCompleted(ps) <= |ps|
  {
    if |ps| > 0 {
      CountCompletedAtMostLength(ps[1..]);
    }
  }

  datatype ExerciseStats = ExerciseStats(totalStarted: nat, totalCompleted: nat, recentProgress: Progresses)

  function Min(a: nat, b: nat): nat {
    if a <= b then a else b
  }

  /**
    `getUserExerciseStats`: how many records the caller has, how many of them
    are completed, and the first ten of them latest start first.
  */
  function GetUserExerciseStats(ps: Progresses, userId: string): (r: ExerciseStats)
    ensures r.totalStarted == |Owned(ps, userId)|
    ensures r.totalCompleted == CountCompleted(Owned(ps, userId))
    ensures r.totalCompleted <= r.totalStarted
    ensures |r.recentProgress| == Min(RecentLimit, r.totalStarted)
    ensures r.recentProgress <= UserProgress(ps, userId)
    ensures forall x :: x in r.recentProgress ==> x in ps && x.userId == userId
  {
    var all := UserProgress(ps, userId);
    CountCompletedAtMostLength(Owned(ps, userId));
    var recent := all[..Min(RecentLimit, |all|)];
    assert forall x :: x in recent ==> x in all;
    assert forall x :: x in all ==> x in multiset(Owned(ps, userId));
    ExerciseStats(|all|, CountCompleted(Owned(ps, userId)), recent)
  }

  // ---------------------------------------------------------------- properties

  /** Completing a record started `d` nanoseconds earlier, for a reasonable `d`, records the whole minutes of `d`. */
  lemma DurationCountsWholeMinutes(ps: Progresses, progressId: string, userId: string, rating: Option<int>, feedback: Option<string>, now: int)
    requires var r := CompleteExercise(ps, progressId, userId, rating, feedback, now);
             r.Ok? && ps[FirstIndex(ps, ProgressWithId(progressId)).value].startedAt.Some?
    requires var t := ps[FirstIndex(ps, ProgressWithId(progressId)).value].startedAt.value;
             0 <= now - t < Int32.Max * NanosPerMinute
    ensures var r := CompleteExercise(ps, progressId, userId, rating, feedback, now);
            var t := ps[FirstIndex(ps, ProgressWithId(progressId)).value].startedAt.value;
            var m := r.value.0.durationMinutes.value;
            m >= 0 && m * NanosPerMinute <= now - t < (m + 1) * NanosPerMinute
  {
  }

  /** A record started and then completed by its owner adds one to both the started and the completed counts. */
  lemma StartThenCompleteCounts(exercises: seq<Exercise>, ps: Progresses, userId: string, exerciseId: string, freshId: string, t0: int, t1: int)
    requires GetExerciseById(exercises, exerciseId).Ok? && IdUnused(ps, freshId)
    ensures var (p, ps1) := StartExercise(exercises, ps, userId, exerciseId, freshId, t0).value;
            var r := CompleteExercise(ps1, freshId, userId, None, None, t1);
            && r.Ok?
            && GetUserExerciseStats(r.value.1, userId).totalStarted == GetUserExerciseStats(ps, userId).totalStarted + 1
            && GetUserExerciseStats(r.value.1, userId).totalCompleted == GetUserExerciseStats(ps, userId).totalCompleted + 1
  {
    var (p, ps1) := StartExercise(exercises, ps, userId, exerciseId, freshId, t0).value;
    assert ProgressWithId(freshId)(ps1[|ps|]);
    assert FirstIndex(ps1, ProgressWithId(freshId)) == Some(|ps|);
    var r := CompleteExercise(ps1, freshId, userId, None, None, t1);
    var q := r.value.0;
    assert r.value.1 == ps + [q];
    OwnedAppend(ps, p, userId);
    OwnedAppend(ps, q, userId);
    CountCompletedAppend(Owned(ps, userId), q);
  }

  lemma {:induction false} OwnedAppend(ps: Progresses, x: ExerciseProgress, userId: string)
    requires x.userId == userId
    ensures Owned(ps + [x], userId) == Owned(ps, userId) + [x]
  {
    if |ps| > 0 {
      assert (ps + [x])[1..] == ps[1..] + [x];
      OwnedAppend(ps[1..], x, userId);
    }
  }

  lemma {:induction false} CountCompletedAppend(ps: Progresses, x: ExerciseProgress)
    ensures CountCompleted(ps + [x]) == CountCompleted(ps) + (if x.completed == Some(true) then 1 else 0)
  {
    if |ps| > 0 {
      assert (ps + [x])[1..] == ps[1..] + [x];
      CountCompletedAppend(ps[1..], x);
    }
  }
}

=== FILE: find.dfy ===
/**
  Repository lookups over a sequence of documents: a derived query such as
  `findById` or `findByUserIdAndStatus` answers the first document that
  satisfies its condition.
*/
module Find {
  import opened Wrappers

  /** The index of the first element satisfying `p`. */
  function FirstIndex<T>(s: seq<T>, p: T -> bool): (r: Option<nat>)
    ensures r.None? <==> forall j :: 0 <= j < |s| ==> !p(s[j])
    ensures r.Some? ==> r.value < |s| && p(s[r.value])
                        && forall j :: 0 <= j < r.value ==> !p(s[j])
  {
    if |s| == 0 then None
    else if p(s[0]) then Some(0)
    else
      match FirstIndex(s[1..], p)
      case None => None
      case Some(k) => Some(k + 1)
  }

  /** When at most one element can satisfy `p`, the first one found is the only one. */
  lemma FirstIndexIsOnly<T>(s: seq<T>, p: T -> bool, i: nat)
    requires i < |s| && p(s[i])
    requires forall a, b :: 0 <= a < b < |s| && p(s[a]) ==> !p(s[b])
    ensures FirstIndex(s, p) == Some(i)
  {
  }

  /** Two conditions that agree on every element find the same first index. */
  lemma SameFirstIndex<T>(s: seq<T>, p: T -> bool, q: T -> bool)
    requires forall j :: 0 <= j < |s| ==> p(s[j]) == q(s[j])
    ensures FirstIndex(s, p) == FirstIndex(s, q)
  {
    var a, b := FirstIndex(s, p), FirstIndex(s, q);
    if a.Some? && b.Some? {
      assert !(a.value < b.value) && !(b.value < a.value);
    }
  }
}

=== FILE: int32.dfy ===
/**
  Java `int` arithmetic: values wrap around modulo 2^32 into the signed
  range, and integer division truncates toward zero.
*/
module Int32 {
  const Modulus: int := 0x1_0000_0000
  const Min: int := -0x8000_0000
  const Max: int := 0x7fff_ffff

  predicate InRange(x: int) {
    Min <= x <= Max
  }

  /** A narrowing to `int`: the representative of `x` modulo 2^32 in the signed range. */
  function Wrap(x: int): (r: int)
    ensures InRange(r)
    ensures (r - x) % Modulus == 0
    ensures InRange(x) ==> r == x
  {
    var m := x % Modulus;
    if m > Max then m - Modulus else m
  }

  /** Division by a positive divisor, rounding toward zero as Java's `/` and `Duration.toMinutes` do. */
  function TruncDiv(a: int, b: int): (q: int)
    requires b > 0
    ensures a >= 0 ==> 0 <= a - q * b < b
    ensures a < 0 ==> -b < a - q * b <= 0
    ensures a < 0 ==> q <= 0
  {
    if a >= 0 then a / b else -((-a) / b)
  }
}

=== FILE: menu.dfy ===
/**
  The navigation drawer of the wellness platform's web client: a fixed table
  of pages, each listing the roles allowed to see it, filtered by the role
  of the signed-in user. A visitor without a role is treated as USER.
*/
module Menu {
  import opened Wrappers
  import Sorting

  datatype MenuItem = MenuItem(text: string, path: string, roles: seq<string>)

  /** The part of the signed-in user the drawer looks at. */
  datatype SessionUser = SessionUser(role: Option<string>)

  const Dashboard := MenuItem("Dashboard", "/dashboard", ["USER", "COUNSELOR", "ADMIN"])
  const Wellness := MenuItem("Wellness Progress", "/wellness", ["USER", "ADMIN"])
  const MoodTracker := MenuItem("Mood Tracker", "/mood", ["USER", "ADMIN"])
  const Exercises := MenuItem("Exercises", "/exercises", ["USER", "ADMIN"])
  const Chat := MenuItem("Chat", "/chat", ["USER", "ADMIN"])
  const CounselorChat := MenuItem("Counselor Chat", "/counselor-chat", ["COUNSELOR", "ADMIN"])
  const Profile := MenuItem("Profile", "/profile", ["USER", "COUNSELOR", "ADMIN"])
  const Settings := MenuItem("Settings", "/settings", ["USER", "COUNSELOR", "ADMIN"])

  const MenuItems: seq<MenuItem> := [Dashboard, Wellness, MoodTracker, Exercises, Chat, CounselorChat, Profile, Settings]

  /** `user?.role || 'USER'`: no user, no role and the empty role all count as USER. */
  function EffectiveRole(user: Option<SessionUser>): (role: string)
    ensures role != ""
    ensures role == "USER" <==> user.None? || user.value.role.None? || user.value.role.value in {"", "USER"}
    ensures role != "USER" ==> user.Some? && user.value.role == Some(role)
  {
    match user
    case None => "USER"
    case Some(u) =>
      match u.role
      case None => "USER"
      case Some(r) => if r == "" then "USER" else r
  }

  /** The items whose role list includes `role`, in table order. */
  function ForRole(items: seq<MenuItem>, role: string): (r: seq<MenuItem>)
    ensures |r| <= |items|
  {
    if |items| == 0 then []
    else
      var rest := ForRole(items[1..], role);
      if role in items[0].roles then [items[0]] + rest else rest
  }

  /** An item is kept exactly when it is in the table and lists the role. */
  lemma {:induction false} ForRoleMembers(items: seq<MenuItem>, role: string)
    ensures forall item :: item in ForRole(items, role) <==> item in items && role in item.roles
  {
    if |items| > 0 {
      ForRoleMembers(items[1..], role);
      assert items == [items[0]] + items[1..];
    }
  }

  /** `filteredMenuItems`. */
  function FilteredMenuItems(user: Option<SessionUser>): (r: seq<MenuItem>)
    ensures forall item :: item in r <==> item in MenuItems && EffectiveRole(user) in item.roles
  {
    ForRoleMembers(MenuItems, EffectiveRole(user));
    ForRole(MenuItems, EffectiveRole(user))
  }

  // ---------------------------------------------------------------- properties

  /** The drawer keeps the table's order: it is a subsequence of the table. */
  lemma {:induction false} ForRoleIsSubsequence(items: seq<MenuItem>, role: string)
    ensures Sorting.IsSubsequence(ForRole(items, role), items)
  {
    if |items| > 0 {
      ForRoleIsSubsequence(items[1..], role);
      var r := ForRole(items, role);
      if role in items[0].roles {
        assert r[0] == items[0] && r[1..] == ForRole(items[1..], role);
      }
    }
  }

  /** A signed-out visitor sees the USER drawer. */
  lemma SignedOutSeesUserMenu(role: Option<string>)
    requires role.None? || role == Some("")
    ensures FilteredMenuItems(None) == FilteredMenuItems(Some(SessionUser(role)))
                                    == FilteredMenuItems(Some(SessionUser(Some("USER"))))
  {
  }

  /** Filtering a concatenation filters each part. */
  lemma {:induction false} ForRoleAppend(a: seq<MenuItem>, b: seq<MenuItem>, role: string)
    ensures ForRole(a + b, role) == ForRole(a, role) + ForRole(b, role)
  {
    if |a| == 0 {
      assert a + b == b;
    } else {
      assert (a + b)[1..] == a[1..] + b;
      ForRoleAppend(a[1..], b, role);
    }
  }

  /** Items that all list the role are all kept. */
  lemma {:induction false} ForRoleAll(items: seq<MenuItem>, role: string)
    requires forall i :: 0 <= i < |items| ==> role in items[i].roles
    ensures ForRole(items, role) == items
  {
    if |items| > 0 {
      ForRoleAll(items[1..], role);
      assert items == [items[0]] + items[1..];
    }
  }

  /** Items none of which lists the role are all dropped. */
  lemma {:induction false} ForRoleNone(items: seq<MenuItem>, role: string)
    requires forall i :: 0 <= i < |items| ==> role !in items[i].roles
    ensures ForRole(items, role) == []
  {
    if |items| > 0 {
      ForRoleNone(items[1..], role);
    }
  }

  /** A signed-in user with a non-empty role gets the table filtered by exactly that role. */
  lemma FilteredForRole(role: string)
    requires role != ""
    ensures FilteredMenuItems(Some(SessionUser(Some(role)))) == ForRole(MenuItems, role)
  {
  }

  /** USER sees every page except Counselor Chat. */
  lemma UserMenu()
    ensures FilteredMenuItems(Some(SessionUser(Some("USER"))))
            == [Dashboard, Wellness, MoodTracker, Exercises, Chat, Profile, Settings]
  {
    UserRows();
    FilteredForRole("USER");
  }

  /** The table filtered for USER. */
  lemma UserRows()
    ensures ForRole(MenuItems, "USER") == [Dashboard, Wellness, MoodTracker, Exercises, Chat, Profile, Settings]
  {
    var r := "USER";
    var front, back := [Dashboard, Wellness, MoodTracker, Exercises, Chat], [Profile, Settings];
    assert MenuItems == front + [CounselorChat] + back;
    assert ForRole(front, r) == front by {
      ForRoleAll(front, r);
    }
    ForRoleNone([CounselorChat], r);
    ForRoleAll(back, r);
    ForRoleAppend(front, [CounselorChat], r);
    ForRoleAppend(front + [CounselorChat], back, r);
  }

  /** COUNSELOR sees Dashboard, Counselor Chat, Profile and Settings. */
  lemma CounselorMenu()
    ensures FilteredMenuItems(Some(SessionUser(Some("COUNSELOR")))) == [Dashboard, CounselorChat, Profile, Settings]
  {
    CounselorRows();
    FilteredForRole("COUNSELOR");
  }

  /** The table filtered for COUNSELOR. */
  lemma CounselorRows()
    ensures ForRole(MenuItems, "COUNSELOR") == [Dashboard, CounselorChat, Profile, Settings]
  {
    var r := "COUNSELOR";
    var head, back := [Dashboard, Wellness, MoodTracker, Exercises, Chat], [CounselorChat, Profile, Settings];
    assert ForRole(MenuItems, r) == [Dashboard] + back by {
      assert MenuItems == head + back;
      CounselorSkipsUserPages();
      CounselorKeepsLastPages();
      ForRoleAppend(head, back, r);
    }
  }

  /** Of the first five pages, COUNSELOR sees only the Dashboard. */
  lemma CounselorSkipsUserPages()
    ensures ForRole([Dashboard, Wellness, MoodTracker, Exercises, Chat], "COUNSELOR") == [Dashboard]
  {
    var r := "COUNSELOR";
    var middle := [Wellness, MoodTracker, Exercises, Chat];
    assert [Dashboard, Wellness, MoodTracker, Exercises, Chat] == [Dashboard] + middle;
    assert ForRole([Dashboard], r) == [Dashboard] by {
      ForRoleAll([Dashboard], r);
    }
    assert ForRole(middle, r) == [] by {
      ForRoleNone(middle, r);
    }
    ForRoleAppend([Dashboard], middle, r);
  }

  /** COUNSELOR sees the last three pages. */
  lemma CounselorKeepsLastPages()
    ensures ForRole([CounselorChat, Profile, Settings], "COUNSELOR") == [CounselorChat, Profile, Settings]
  {
    ForRoleAll([CounselorChat, Profile, Settings], "COUNSELOR");
  }

  /** ADMIN sees the whole table. */
  lemma AdminMenu()
    ensures FilteredMenuItems(Some(SessionUser(Some("ADMIN")))) == MenuItems
  {
    ForRoleAll(MenuItems, "ADMIN");
    FilteredForRole("ADMIN");
  }

  /** Any other role sees an empty drawer. */
  lemma UnknownRoleMenu(role: string)
    requires role !in {"", "USER", "COUNSELOR", "ADMIN"}
    ensures FilteredMenuItems(Some(SessionUser(Some(role)))) == []
  {
    ForRoleNone(MenuItems, role);
    FilteredForRole(role);
  }
}

=== FILE: message_codec.dfy ===
/**
  The placeholder message "encryption" of the web client: a message is sent
  as the Base64 of its UTF-8 bytes, and a received text that is not such an
  encoding is shown as it arrived.
*/
module MessageCodec {
  import opened Wrappers
  import Utf8
  import Base64

  /** `encryptMessage`: the UTF-8 bytes of the text, Base64-encoded with padding. */
  function EncryptMessage(plain: string): (cipher: string)
    ensures |cipher| == 4 * ((|Utf8.Encode(plain)| + 2) / 3)
    ensures forall i :: 0 <= i < |cipher| ==> Base64.IsDigitChar(cipher[i]) || cipher[i] == '='
    ensures Base64.Decode(cipher) == Some(Utf8.Encode(plain))
  {
    Base64.DecodeEncode(Utf8.Encode(plain));
    Base64.EncodeLength(Utf8.Encode(plain));
    Base64.Encode(Utf8.Encode(plain))
  }

  /**
    `decryptMessage`: the text whose UTF-8 bytes the Base64 carries; when the
    input is not Base64, or its bytes are not well-formed UTF-8, the input
    itself.
  */
  function DecryptMessage(cipher: string): (plain: string)
    ensures Base64.Decode(cipher).None? ==> plain == cipher
    ensures Base64.Decode(cipher).Some? && Utf8.Decode(Base64.Decode(cipher).value).None? ==> plain == cipher
    ensures Base64.Decode(cipher).Some? && Utf8.Decode(Base64.Decode(cipher).value).Some? ==>
              Utf8.Encode(plain) == Base64.Decode(cipher).value
  {
    match Base64.Decode(cipher)
    case None => cipher
    case Some(bytes) =>
      match Utf8.Decode(bytes)
      case None => cipher
      case Some(text) =>
        Utf8.EncodeDecode(bytes);
        text
  }

  /** Every message the client sends decrypts back to itself. */
  lemma DecryptEncrypt(plain: string)
    ensures DecryptMessage(EncryptMessage(plain)) == plain
  {
    Utf8.DecodeEncode(plain);
  }

  /** A text with a character outside the Base64 alphabet (other than whitespace and '=') is shown unchanged. */
  lemma ForeignTextShownAsIs(cipher: string, i: int)
    requires 0 <= i < |cipher|
    requires !Base64.IsDigitChar(cipher[i]) && !Base64.IsAsciiWhitespace(cipher[i]) && cipher[i] != '='
    ensures DecryptMessage(cipher) == cipher
  {
    Base64.ForeignCharRejected(cipher, i);
  }
}

=== FILE: mood.dfy ===
/**
  The mood journal of the wellness platform: one entry per user per calendar
  day, analytics over a date window, and a trend classifier comparing the
  older half of a window with the newer half. Dates are day numbers and
  timestamps are integers; the collection is a sequence of documents.
*/
module Mood {
  import opened Wrappers
  import Sorting
  import opened Find

  datatype MoodEntry = MoodEntry(
    id: Option<string>,
    userId: string,
    date: int,
    moodScore: int,
    moodLabel: string,
    notes: string,
    journalEntry: string,
    activities: seq<string>,
    sleepHours: Option<int>,
    exerciseMinutes: Option<int>,
    createdAt: Option<int>,
    updatedAt: Option<int>)

  type Store = seq<MoodEntry>

  // ---------------------------------------------------------------- store invariants

  /** Every stored document has an id, and no two share one. */
  ghost predicate IdsDistinct(store: Store) {
    && (forall i :: 0 <= i < |store| ==> store[i].id.Some?)
    && (forall i, j :: 0 <= i < j < |store| ==> store[i].id != store[j].id)
  }

  /** At most one entry per user per day. */
  ghost predicate OnePerDay(store: Store) {
    forall i, j :: 0 <= i < j < |store| ==> !(store[i].userId == store[j].userId && store[i].date == store[j].date)
  }

  ghost predicate WellFormed(store: Store) {
    IdsDistinct(store) && OnePerDay(store)
  }

  ghost predicate IdUnused(store: Store, id: string) {
    forall i :: 0 <= i < |store| ==> store[i].id != Some(id)
  }

  // ---------------------------------------------------------------- createMoodEntry

  /**
    `save`: an entry whose id is already stored replaces that document; any
    other entry is inserted. An entry without an id is new: it gets `freshId`
    and its creation time.
  */
  function Save(store: Store, e: MoodEntry, freshId: string, now: int): (r: (MoodEntry, Store))
    ensures r.0.id.Some? && r.0 in r.1
    ensures e.id.Some? ==> r.0 == e
    ensures e.id.None? ==> r.0 == e.(id := Some(freshId), createdAt := Some(now))
    ensures FirstIndex(store, (x: MoodEntry) => x.id == e.id && e.id.Some?).Some? ==>
              r.1 == store[FirstIndex(store, (x: MoodEntry) => x.id == e.id && e.id.Some?).value := r.0]
    ensures FirstIndex(store, (x: MoodEntry) => x.id == e.id && e.id.Some?).None? ==> r.1 == store + [r.0]
  {
    match FirstIndex(store, (x: MoodEntry) => x.id == e.id && e.id.Some?)
    case Some(i) =>
      assert store[i := e][i] == e;
      (e, store[i := e])
    case None =>
      var saved := if e.id.Some? then e else e.(id := Some(freshId), createdAt := Some(now));
      (saved, store + [saved])
  }

  /** The fields a repeated entry for the same day overwrites. */
  function Overwrite(prior: MoodEntry, e: MoodEntry, now: int): MoodEntry {
    prior.(moodScore := e.moodScore, moodLabel := e.moodLabel, notes := e.notes,
         journalEntry := e.journalEntry, activities := e.activities,
         sleepHours := e.sleepHours, exerciseMinutes := e.exerciseMinutes,
         updatedAt := Some(now))
  }

  /** Whether `x` is the caller's entry for the day `date`. */
  function SameDay(userId: string, date: int): MoodEntry -> bool {
    (x: MoodEntry) => x.userId == userId && x.date == date
  }

  /**
    `createMoodEntry`: the entry is stamped with the caller's id. When the
    caller already has an entry for that day, that document takes the new
    values and keeps its id and creation time; otherwise the entry is saved.
  */
  function CreateMoodEntry(store: Store, userId: string, entry: MoodEntry, freshId: string, now: int)
    : (r: (MoodEntry, Store))
    ensures r.0.userId == userId && r.0.date == entry.date
    ensures r.0.moodScore == entry.moodScore && r.0.moodLabel == entry.moodLabel
    ensures r.0.notes == entry.notes && r.0.journalEntry == entry.journalEntry
    ensures r.0.activities == entry.activities
    ensures r.0.sleepHours == entry.sleepHours && r.0.exerciseMinutes == entry.exerciseMinutes
    ensures r.0.updatedAt == Some(now)
    ensures r.0 in r.1
    ensures WellFormed(store) && FirstIndex(store, SameDay(userId, entry.date)).Some? ==>
              var i := FirstIndex(store, SameDay(userId, entry.date)).value;
              && r.1 == store[i := r.0]
              && r.0.id == store[i].id && r.0.createdAt == store[i].createdAt
    ensures FirstIndex(store, SameDay(userId, entry.date)).None? && entry.id.None? ==>
              r.1 == store + [r.0] && r.0.id == Some(freshId) && r.0.createdAt == Some(now)
    ensures FirstIndex(store, SameDay(userId, entry.date)).None? && entry.id.Some? ==>
              && r.0 == entry.(userId := userId, updatedAt := Some(now))
              && (FirstIndex(store, HasId(entry.id.value)).Some? ==>
                    r.1 == store[FirstIndex(store, HasId(entry.id.value)).value := r.0])
              && (FirstIndex(store, HasId(entry.id.value)).None? ==> r.1 == store + [r.0])
  {
    var e := entry.(userId := userId, updatedAt := Some(now));
    match FirstIndex(store, SameDay(userId, e.date))
    case Some(i) =>
      var merged := Overwrite(store[i], e, now);
      var r := Save(store, merged, freshId, now);
      assert WellFormed(store) ==> r.1 == store[i := merged] by {
        if WellFormed(store) {
          var p := (x: MoodEntry) => x.id == merged.id && merged.id.Some?;
          assert p(store[i]);
          assert FirstIndex(store, p) == Some(i);
        }
      }
      r
    case None =>
      var p := (x: MoodEntry) => x.id == e.id && e.id.Some?;
      assert e.id.Some? ==> FirstIndex(store, p) == FirstIndex(store, HasId(e.id.value)) by {
        if e.id.Some? { SameFirstIndex(store, p, HasId(e.id.value)); }
      }
      Save(store, e, freshId, now)
  }

  /**
    Saving for a day the caller already has replaces that entry; saving for a
    new day adds one. Either way the store keeps at most one entry per user
    per day and distinct ids.
  */
  lemma CreateKeepsOnePerDay(store: Store, userId: string, entry: MoodEntry, freshId: string, now: int)
    requires WellFormed(store) && IdUnused(store, freshId)
    ensures var r := CreateMoodEntry(store, userId, entry, freshId, now);
            && WellFormed(r.1)
            && (FirstIndex(store, SameDay(userId, entry.date)).Some? ==> |r.1| == |store|)
            && (entry.id.None? && FirstIndex(store, SameDay(userId, entry.date)).None? ==> |r.1| == |store| + 1)
  {
    var r := CreateMoodEntry(store, userId, entry, freshId, now);
    var e := entry.(userId := userId, updatedAt := Some(now));
    match FirstIndex(store, SameDay(userId, entry.date))
    case Some(i) =>
      ReplaceKeepsWellFormed(store, i, r.0);
    case None =>
      var p := (x: MoodEntry) => x.id == e.id && e.id.Some?;
      assert r == Save(store, e, freshId, now);
      assert forall j :: 0 <= j < |store| ==> !(store[j].userId == userId && store[j].date == entry.date) by {
        forall j | 0 <= j < |store| ensures !(store[j].userId == userId && store[j].date == entry.date) {
          assert !SameDay(userId, entry.date)(store[j]);
        }
      }
      match FirstIndex(store, p)
      case Some(k) =>
        assert r.1 == store[k := r.0];
        forall i, j | 0 <= i < j < |r.1|
          ensures !(r.1[i].userId == r.1[j].userId && r.1[i].date == r.1[j].date)
          ensures r.1[i].id != r.1[j].id
        {
          if i != k && j != k {
            assert r.1[i] == store[i] && r.1[j] == store[j];
          }
        }
      case None =>
        assert r.1 == store + [r.0];
        assert forall j :: 0 <= j < |store| ==> store[j].id != r.0.id by {
          forall j | 0 <= j < |store| ensures store[j].id != r.0.id {
            if e.id.Some? { assert !p(store[j]); }
          }
        }
        forall i, j | 0 <= i < j < |r.1|
          ensures !(r.1[i].userId == r.1[j].userId && r.1[i].date == r.1[j].date)
          ensures r.1[i].id != r.1[j].id
        {
          if j < |store| {
            assert r.1[i] == store[i] && r.1[j] == store[j];
          } else {
            assert r.1[i] == store[i];
          }
        }
  }

  /**
    As written, a client-sent id on an entry for a new day is honoured by the
    upsert: posting another user's id replaces that user's document.
  */
  lemma CreateOverwritesForeignEntry()
    ensures var victim := MoodEntry(Some("x"), "v", 1, 2, "sad", "", "", [], None, None, Some(0), Some(0));
            var r := CreateMoodEntry([victim], "a", victim.(userId := "a", date := 2), "y", 5);
            && r.1 == [r.0] && r.0.userId == "a" && r.0.id == Some("x")
            && victim !in r.1
  {
    var victim := MoodEntry(Some("x"), "v", 1, 2, "sad", "", "", [], None, None, Some(0), Some(0));
    assert !SameDay("a", 2)(victim);
    assert FirstIndex([victim], SameDay("a", 2)).None?;
    assert HasId("x")(victim);
    assert FirstIndex([victim], HasId("x")) == Some(0);
  }

  /**
    `createMoodEntry` as evidently intended: the caller's own entry for the day
    is updated, and otherwise a new document is inserted under a fresh id, so
    no other user's entry is ever touched.
  */
  function CreateMoodEntryOwned(store: Store, userId: string, entry: MoodEntry, freshId: string, now: int)
    : (r: (MoodEntry, Store))
    ensures r.0.userId == userId && r.0.date == entry.date && r.0.moodScore == entry.moodScore
    ensures r.0 in r.1
    ensures FirstIndex(store, SameDay(userId, entry.date)).None? ==>
              r.1 == store + [r.0] && r.0.id == Some(freshId) && r.0.createdAt == Some(now)
    ensures WellFormed(store) ==>
              && |store| <= |r.1|
              && forall i :: 0 <= i < |store| && store[i].userId != userId ==> r.1[i] == store[i]
    ensures WellFormed(store) && IdUnused(store, freshId) ==> WellFormed(r.1)
  {
    var e := entry.(id := None);
    assert WellFormed(store) && IdUnused(store, freshId) ==>
             WellFormed(CreateMoodEntry(store, userId, e, freshId, now).1) by {
      if WellFormed(store) && IdUnused(store, freshId) {
        CreateKeepsOnePerDay(store, userId, e, freshId, now);
      }
    }
    CreateMoodEntry(store, userId, e, freshId, now)
  }

  /** Replacing an entry by one with the same id, user and day keeps the store well formed. */
  lemma ReplaceKeepsWellFormed(store: Store, i: nat, e: MoodEntry)
    requires WellFormed(store) && i < |store|
    requires e.id == store[i].id && e.userId == store[i].userId && e.date == store[i].date
    ensures WellFormed(store[i := e])
  {
    var s' := store[i := e];
    forall a, b | 0 <= a < b < |s'|
      ensures !(s'[a].userId == s'[b].userId && s'[a].date == s'[b].date)
      ensures s'[a].id != s'[b].id
    {
      assert store[a].id != store[b].id;
    }
  }

  // ---------------------------------------------------------------- deleteMoodEntry

  function HasId(id: string): MoodEntry -> bool {
    (x: MoodEntry) => x.id == Some(id)
  }

  /** The store without the documents carrying `id`. */
  function RemoveId(store: Store, id: string): (r: Store)
    ensures |r| <= |store|
    ensures forall i :: 0 <= i < |r| ==> r[i].id != Some(id)
  {
    if |store| == 0 then []
    else if store[0].id == Some(id) then RemoveId(store[1..], id)
    else [store[0]] + RemoveId(store[1..], id)
  }

  /** Exactly the documents without that id remain. */
  lemma {:induction false} RemoveIdMembers(store: Store, id: string)
    ensures forall x :: x in RemoveId(store, id) <==> x in store && x.id != Some(id)
  {
    if |store| > 0 {
      RemoveIdMembers(store[1..], id);
      assert store == [store[0]] + store[1..];
    }
  }

  /**
    `deleteMoodEntry`: an unknown id fails with "Mood entry not found", an
    entry of another user with "Unauthorized"; otherwise that entry is
    deleted.
  */
  function DeleteMoodEntry(store: Store, id: string, userId: string): (r: Result<Store>)
    ensures FirstIndex(store, HasId(id)).None? <==> r == Err("Mood entry not found")
    ensures r == Err("Unauthorized") <==>
              FirstIndex(store, HasId(id)).Some? && store[FirstIndex(store, HasId(id)).value].userId != userId
    ensures r.Ok? ==> r.value == RemoveId(store, id)
                      && store[FirstIndex(store, HasId(id)).value].userId == userId
  {
    match FirstIndex(store, HasId(id))
    case None => Err("Mood entry not found")
    case Some(i) =>
      if store[i].userId != userId then Err("Unauthorized")
      else Ok(RemoveId(store, id))
  }

  /** With distinct ids, a delete removes exactly the one entry and keeps the others in order. */
  lemma {:induction false} RemoveIdIsExact(store: Store, id: string, i: nat)
    requires IdsDistinct(store) && i < |store| && store[i].id == Some(id)
    ensures RemoveId(store, id) == store[..i] + store[i + 1..]
  {
    if i == 0 {
      RemoveHeadOnly(store, id);
      assert store[..0] + store[1..] == store[1..];
    } else {
      var rest := store[1..];
      assert store[0].id != store[i].id;
      assert RemoveId(store, id) == [store[0]] + RemoveId(rest, id);
      TailIdsDistinct(store);
      RemoveIdIsExact(rest, id, i - 1);
      assert store[..i] == [store[0]] + rest[..i - 1];
      assert store[i + 1..] == rest[i..];
    }
  }

  /** When only the head carries the id, removing it drops just the head. */
  lemma RemoveHeadOnly(store: Store, id: string)
    requires IdsDistinct(store) && |store| > 0 && store[0].id == Some(id)
    ensures RemoveId(store, id) == store[1..]
  {
    var rest := store[1..];
    forall j | 0 <= j < |rest| ensures rest[j].id != Some(id) {
      assert rest[j] == store[j + 1];
    }
    RemoveUnusedIsIdentity(rest, id);
  }

  lemma TailIdsDistinct(store: Store)
    requires IdsDistinct(store) && |store| > 0
    ensures IdsDistinct(store[1..])
  {
    var rest := store[1..];
    forall a, b | 0 <= a < b < |rest| ensures rest[a].id != rest[b].id {
      assert rest[a] == store[a + 1] && rest[b] == store[b + 1];
    }
  }

  lemma {:induction false} RemoveUnusedIsIdentity(store: Store, id: string)
    requires IdUnused(store, id)
    ensures RemoveId(store, id) == store
  {
    if |store| > 0 {
      assert IdUnused(store[1..], id) by {
        forall j | 0 <= j < |store[1..]| ensures store[1..][j].id != Some(id) {
          assert store[1..][j] == store[j + 1];
        }
      }
      RemoveUnusedIsIdentity(store[1..], id);
      assert store == [store[0]] + store[1..];
    }
  }

  /** Removing the entry at `i` keeps the store well formed. */
  lemma RemoveAtKeepsWellFormed(store: Store, i: nat)
    requires WellFormed(store) && i < |store|
    ensures WellFormed(store[..i] + store[i + 1..])
  {
    var s' := store[..i] + store[i + 1..];
    forall a, b | 0 <= a < b < |s'|
      ensures !(s'[a].userId == s'[b].userId && s'[a].date == s'[b].date)
      ensures s'[a].id != s'[b].id
    {
      var a0 := if a < i then a else a + 1;
      var b0 := if b < i then b else b + 1;
      assert s'[a] == store[a0] && s'[b] == store[b0];
    }
  }

  /** With distinct ids, removing the entry at `i` leaves no entry with its id. */
  lemma RemoveAtDropsId(store: Store, i: nat)
    requires IdsDistinct(store) && i < |store| && store[i].id.Some?
    ensures IdUnused(store[..i] + store[i + 1..], store[i].id.value)
  {
    var s' := store[..i] + store[i + 1..];
    forall j | 0 <= j < |s'| ensures s'[j].id != store[i].id {
      var j0 := if j < i then j else j + 1;
      assert s'[j] == store[j0];
    }
  }

  /** A successful delete shrinks the store by one and keeps it well formed. */
  lemma DeleteRemovesOne(store: Store, id: string, userId: string)
    requires WellFormed(store)
    ensures var r := DeleteMoodEntry(store, id, userId);
            r.Ok? ==> && |r.value| == |store| - 1
                      && IdUnused(r.value, id)
                      && WellFormed(r.value)
  {
    var r := DeleteMoodEntry(store, id, userId);
    if r.Ok? {
      var i := FirstIndex(store, HasId(id)).value;
      assert store[i].id == Some(id);
      RemoveIdIsExact(store, id, i);
      assert r.value == store[..i] + store[i + 1..];
      RemoveAtKeepsWellFormed(store, i);
      RemoveAtDropsId(store, i);
    }
  }

  // ---------------------------------------------------------------- analytics

  function DateOf(e: MoodEntry): int { e.date }
  function NewestFirst(e: MoodEntry): int { -e.date }

  /** The caller's entries strictly inside the window, in store order. */
  function InWindow(store: Store, userId: string, start: int, end: int): (r: seq<MoodEntry>)
    ensures forall x :: x in r <==> x in store && x.userId == userId && start < x.date < end
    ensures Sorting.IsSubsequence(r, store)
  {
    if |store| == 0 then []
    else
      var rest := InWindow(store[1..], userId, start, end);
      if store[0].userId == userId && start < store[0].date < end then [store[0]] + rest else rest
  }

  /**
    `findByUserIdAndDateBetweenOrderByDateDesc`: both bounds are excluded,
    and the newest entry comes first.
  */
  function EntriesBetween(store: Store, userId: string, start: int, end: int): (r: seq<MoodEntry>)
    ensures forall x :: x in r <==> x in store && x.userId == userId && start < x.date < end
    ensures forall i, j :: 0 <= i < j < |r| ==> r[i].date >= r[j].date
    ensures multiset(r) == multiset(InWindow(store, userId, start, end))
  {
    var sel := InWindow(store, userId, start, end);
    var r := Sorting.SortBy(sel, NewestFirst);
    assert forall x :: x in r <==> x in sel by {
      forall x ensures x in r <==> x in sel {
        assert x in r <==> x in multiset(r);
      }
    }
    r
  }

  function ScoreSum(es: seq<MoodEntry>): int {
    if |es| == 0 then 0 else es[0].moodScore + ScoreSum(es[1..])
  }

  /** The exact mean score; the two-decimal rounding of the response is not modelled. */
  function Average(es: seq<MoodEntry>): (avg: real)
    requires |es| > 0
    ensures avg * |es| as real == ScoreSum(es) as real
  {
    DivTimes(ScoreSum(es) as real, |es| as real);
    ScoreSum(es) as real / |es| as real
  }

  function Labels(es: seq<MoodEntry>): (r: seq<string>)
    ensures |r| == |es| && forall i :: 0 <= i < |es| ==> r[i] == es[i].moodLabel
  {
    seq(|es|, i requires 0 <= i < |es| => es[i].moodLabel)
  }

  /** The number of entries carrying `tag`, counted one by one. */
  function LabelCount(es: seq<MoodEntry>, tag: string): nat {
    if |es| == 0 then 0 else (if es[0].moodLabel == tag then 1 else 0) + LabelCount(es[1..], tag)
  }

  /** `groupingBy(moodLabel, counting())`: as a multiset, each label's multiplicity is its count. */
  function Distribution(es: seq<MoodEntry>): (d: multiset<string>)
    ensures |d| == |es|
    ensures forall tag :: d[tag] == LabelCount(es, tag)
  {
    var d := multiset(Labels(es));
    forall tag ensures d[tag] == LabelCount(es, tag) {
      DistributionCounts(es, tag);
    }
    d
  }

  lemma {:induction false} DistributionCounts(es: seq<MoodEntry>, tag: string)
    ensures multiset(Labels(es))[tag] == LabelCount(es, tag)
  {
    if |es| > 0 {
      DistributionCounts(es[1..], tag);
      assert Labels(es) == [es[0].moodLabel] + Labels(es[1..]);
    }
  }

  datatype Trend = Neutral | Improving | Declining | Stable

  function TrendText(t: Trend): string {
    match t
    case Neutral => "neutral"
    case Improving => "improving"
    case Declining => "declining"
    case Stable => "stable"
  }

  /** `b/nb > a/na + 1/2` and `b/nb < a/na - 1/2`, multiplied out by `2·na·nb`. */
  lemma ThresholdInIntegers(a: int, na: int, b: int, nb: int)
    requires na > 0 && nb > 0
    ensures (2 * b * na > 2 * a * nb + na * nb) <==> (b as real / nb as real > a as real / na as real + 0.5)
    ensures (2 * b * na < 2 * a * nb - na * nb) <==> (b as real / nb as real < a as real / na as real - 0.5)
  {
    var x := b as real / nb as real;
    var y := a as real / na as real;
    var k := 2.0 * (na as real) * (nb as real);
    DivTimes(b as real, nb as real);
    DivTimes(a as real, na as real);
    CastProduct(2 * b, na);
    CastProduct(2 * a, nb);
    CastProduct(na, nb);
    assert k * x == (2 * b * na) as real by {
      assert k * x == 2.0 * (na as real) * (x * nb as real);
    }
    assert k * y == (2 * a * nb) as real by {
      assert k * y == 2.0 * (nb as real) * (y * na as real);
    }
    assert k * 0.5 == (na * nb) as real;
    CompareScaled(x, y, k, 2 * b * na, 2 * a * nb, na * nb);
  }

  /** Multiplying both sides of a comparison by a positive `k` keeps it. */
  lemma CompareScaled(x: real, y: real, k: real, p: int, q: int, m: int)
    requires k > 0.0 && k * x == p as real && k * y == q as real && k * 0.5 == m as real
    ensures x > y + 0.5 <==> p > q + m
    ensures x < y - 0.5 <==> p < q - m
  {
    var below, above := x - y - 0.5, x - y + 0.5;
    Distribute(below, x, y, -0.5, k);
    Distribute(above, x, y, 0.5, k);
    assert below * k == (p - q - m) as real;
    assert above * k == (p - q + m) as real;
    SignOfProduct(below, k);
    SignOfProduct(above, k);
    IntRealSign(p - q - m);
    IntRealSign(p - q + m);
  }

  lemma Distribute(d: real, x: real, y: real, c: real, k: real)
    requires d == x - y + c
    ensures d * k == k * x - k * y + k * c
  {
  }

  lemma IntRealSign(n: int)
    ensures n > 0 <==> n as real > 0.0
    ensures n < 0 <==> n as real < 0.0
  {
  }

  lemma CastProduct(p: int, q: int)
    ensures (p * q) as real == (p as real) * (q as real)
  {
  }

  lemma DivTimes(a: real, n: real)
    requires n != 0.0
    ensures (a / n) * n == a
  {
  }

  /** Multiplying by a positive factor keeps the sign. */
  lemma SignOfProduct(d: real, k: real)
    requires k > 0.0
    ensures d > 0.0 <==> d * k > 0.0
    ensures d < 0.0 <==> d * k < 0.0
  {
  }

  /**
    `calculateTrend`: fewer than two entries are neutral. Otherwise the entries
    are ordered by date and split at half the count; the newer half's mean
    score is compared with the older half's with a margin of one half.
  */
  function CalculateTrend(es: seq<MoodEntry>): (t: Trend)
    ensures t == Neutral <==> |es| < 2
    ensures |es| >= 2 ==>
              var s := Sorting.SortBy(es, DateOf);
              var h := |s| / 2;
              && (t == Improving <==> Average(s[h..]) > Average(s[..h]) + 0.5)
              && (t == Declining <==> Average(s[h..]) < Average(s[..h]) - 0.5)
  {
    if |es| < 2 then Neutral
    else
      var s := Sorting.SortBy(es, DateOf);
      var h := |s| / 2;
      var a, na := ScoreSum(s[..h]), h;
      var b, nb := ScoreSum(s[h..]), |s| - h;
      ThresholdInIntegers(a, na, b, nb);
      if 2 * b * na > 2 * a * nb + na * nb then Improving
      else if 2 * b * na < 2 * a * nb - na * nb then Declining
      else Stable
  }

  /** The response of `getMoodAnalytics`; an empty window has no distribution. */
  datatype Analytics = Analytics(
    averageMood: real, totalEntries: nat, moodTrend: Trend,
    moodDistribution: Option<multiset<string>>, entries: seq<MoodEntry>)

  /** `getMoodAnalytics` over the `days` days before `today`. */
  function GetMoodAnalytics(store: Store, userId: string, days: int, today: int): (r: Analytics)
    ensures r.entries == EntriesBetween(store, userId, today - days, today)
    ensures r.entries == [] ==> r == Analytics(0.0, 0, Neutral, None, [])
    ensures r.entries != [] ==>
              && r.totalEntries == |r.entries|
              && r.averageMood == Average(r.entries)
              && r.moodTrend == CalculateTrend(r.entries)
              && r.moodDistribution.Some? && |r.moodDistribution.value| == r.totalEntries
              && (forall tag :: r.moodDistribution.value[tag] == LabelCount(r.entries, tag))
  {
    var es := EntriesBetween(store, userId, today - days, today);
    if es == [] then Analytics(0.0, 0, Neutral, None, [])
    else Analytics(Average(es), |es|, CalculateTrend(es), Some(Distribution(es)), es)
  }

  /** Every tag the window shows is counted at least once, and no absent tag is. */
  lemma {:induction false} LabelCountPositive(es: seq<MoodEntry>, tag: string)
    ensures LabelCount(es, tag) > 0 <==> exists i :: 0 <= i < |es| && es[i].moodLabel == tag
  {
    if |es| > 0 {
      LabelCountPositive(es[1..], tag);
      if es[0].moodLabel != tag && LabelCount(es, tag) > 0 {
        var i :| 0 <= i < |es[1..]| && es[1..][i].moodLabel == tag;
        assert es[i + 1].moodLabel == tag;
      }
      if LabelCount(es, tag) == 0 {
        forall i | 0 <= i < |es| ensures es[i].moodLabel != tag {
          if i > 0 { assert es[i] == es[1..][i - 1]; }
        }
      }
    }
  }
}

=== FILE: product_filter.dfy ===
/**
  The product filter demo: the filter predicate, the sort comparators, the star
  renderer, the active-filter tags, the filter reset and the id rule for added
  products. Prices are in cents, ratings in tenths of a star and dates as day
  numbers, so every comparison of the page's numbers stays exact.
*/
module ProductFilter {
  import opened Wrappers
  import opened Strings
  import opened Sorting

  datatype Product = Product(
    id: int,
    name: string,
    category: string,
    price: int,       // cents
    rating: nat,      // tenths of a star: 4.7 is 47
    description: string,
    image: string,
    dateAdded: int)   // day number of the `dateAdded` date

  /** The five drop-down / search settings; `search` is kept lower-cased. */
  datatype Filters = Filters(category: string, price: string, rating: string, sort: string, search: string)

  const AllValues: string := "all"

  /** The state the page starts in and returns to on "clear" and "reset". */
  function ClearAllFilters(): (f: Filters)
    ensures f.category == AllValues && f.price == AllValues && f.rating == AllValues
    ensures f.sort == "name" && f.search == ""
  {
    Filters(AllValues, AllValues, AllValues, "name", "")
  }

  /** The search box handler stores the typed text lower-cased. */
  function SetSearch(f: Filters, typed: string): (g: Filters)
    ensures g.search == Lower(typed)
    ensures g.(search := f.search) == f
  {
    f.(search := Lower(typed))
  }

  // ---------------------------------------------------------------- price

  /** Membership in a price bucket; an unrecognised bucket (including "all") excludes nothing. */
  predicate InPriceBucket(bucket: string, price: int) {
    if bucket == "0-50" then price <= 5000
    else if bucket == "50-100" then 5000 <= price <= 10000
    else if bucket == "100-500" then 10000 <= price <= 50000
    else if bucket == "500+" then price >= 50000
    else true
  }

  predicate IsKnownBucket(bucket: string) {
    bucket in {"0-50", "50-100", "100-500", "500+"}
  }

  /** The buckets are closed intervals, so the boundary prices 50, 100 and 500 dollars sit in two buckets each. */
  lemma PriceBucketsOverlapAtBoundaries()
    ensures InPriceBucket("0-50", 5000) && InPriceBucket("50-100", 5000)
    ensures InPriceBucket("50-100", 10000) && InPriceBucket("100-500", 10000)
    ensures InPriceBucket("100-500", 50000) && InPriceBucket("500+", 50000)
  {
  }

  /** Every price lies in at least one of the four buckets, and an unknown bucket lets every price through. */
  lemma PriceBucketsCover(price: int, bucket: string)
    ensures InPriceBucket("0-50", price) || InPriceBucket("50-100", price)
         || InPriceBucket("100-500", price) || InPriceBucket("500+", price)
    ensures !IsKnownBucket(bucket) ==> InPriceBucket(bucket, price)
  {
  }

  // ---------------------------------------------------------------- rating

  predicate IsDigit(c: char) { '0' <= c <= '9' }

  function DigitsValue(s: string): (n: nat)
    requires forall i :: 0 <= i < |s| ==> IsDigit(s[i])
  {
    if |s| == 0 then 0
    else
      assert IsDigit(s[|s| - 1]);
      10 * DigitsValue(s[..|s| - 1]) + (s[|s| - 1] as int - '0' as int)
  }

  predicate AllDigits(s: string) {
    forall i :: 0 <= i < |s| ==> IsDigit(s[i])
  }

  /**
    `parseFloat` of a rating option, in tenths: "4" is 40 and "4.5" is 45.
    Anything else is `None`, standing for NaN.
  */
  function ParseTenths(s: string): (r: Option<nat>)
    ensures r.Some? && AllDigits(s) && |s| > 0 ==> r.value == 10 * DigitsValue(s)
  {
    if |s| > 0 && AllDigits(s) then Some(10 * DigitsValue(s))
    else if |s| >= 3 && s[|s| - 2] == '.' && IsDigit(s[|s| - 1]) && AllDigits(s[..|s| - 2]) then
      Some(10 * DigitsValue(s[..|s| - 2]) + (s[|s| - 1] as int - '0' as int))
    else None
  }

  /** `product.rating < NaN` is false, so an unparseable threshold excludes nothing. */
  predicate MeetsRating(threshold: string, rating: nat) {
    threshold == AllValues ||
    match ParseTenths(threshold)
    case None => true
    case Some(min) => rating >= min
  }

  // ---------------------------------------------------------------- search

  /** The text the search term is looked up in. */
  function SearchableText(p: Product): string {
    Lower(p.name + " " + p.description + " " + p.category)
  }

  // ---------------------------------------------------------------- matchesFilters

  predicate MatchesFilters(p: Product, f: Filters) {
    && (f.category == AllValues || p.category == f.category)
    && (f.price == AllValues || InPriceBucket(f.price, p.price))
    && MeetsRating(f.rating, p.rating)
    && (f.search == "" || Contains(SearchableText(p), f.search))
  }

  /** The rating filter keeps exactly the products rated at least the threshold. */
  lemma RatingFilterExact(p: Product, f: Filters, min: nat)
    requires f.category == AllValues && f.price == AllValues && f.search == ""
    requires f.rating != AllValues && ParseTenths(f.rating) == Some(min)
    ensures MatchesFilters(p, f) <==> p.rating >= min
  {
  }

  /** Search keeps a product exactly when the lower-cased typed text occurs in its lower-cased searchable text. */
  lemma SearchFilterExact(p: Product, f: Filters, typed: string)
    requires f.category == AllValues && f.price == AllValues && f.rating == AllValues
    requires typed != []
    ensures MatchesFilters(p, SetSearch(f, typed)) <==> OccursIn(Lower(typed), SearchableText(p))
  {
  }

  /** The price filter keeps exactly the products in the chosen bucket. */
  lemma PriceFilterExact(p: Product, f: Filters)
    requires f.category == AllValues && f.rating == AllValues && f.search == ""
    ensures MatchesFilters(p, f) <==> InPriceBucket(f.price, p.price)
  {
  }

  // ---------------------------------------------------------------- filtering

  /** `products.filter(matchesFilters)`. */
  function FilterProducts(ps: seq<Product>, f: Filters): (r: seq<Product>)
    ensures |r| <= |ps|
    ensures forall i :: 0 <= i < |r| ==> MatchesFilters(r[i], f) && r[i] in ps
    ensures forall p :: p in ps && MatchesFilters(p, f) ==> p in r
  {
    if |ps| == 0 then []
    else
      var rest := FilterProducts(ps[1..], f);
      assert ps == [ps[0]] + ps[1..];
      if MatchesFilters(ps[0], f) then [ps[0]] + rest else rest
  }

  /** The filtered list is the order-preserving subsequence of the products that match. */
  lemma {:induction false} FilterIsSubsequence(ps: seq<Product>, f: Filters)
    ensures IsSubsequence(FilterProducts(ps, f), ps)
  {
    if |ps| > 0 {
      FilterIsSubsequence(ps[1..], f);
      var r := FilterProducts(ps, f);
      if MatchesFilters(ps[0], f) {
        assert r[0] == ps[0] && r[1..] == FilterProducts(ps[1..], f);
      }
    }
  }

  /** Each matching product occurs in the filtered list as often as in the input, and no other product occurs. */
  lemma {:induction false} FilterKeepsMultiplicity(ps: seq<Product>, f: Filters)
    ensures forall p :: multiset(FilterProducts(ps, f))[p] == if MatchesFilters(p, f) then multiset(ps)[p] else 0
  {
    if |ps| > 0 {
      FilterKeepsMultiplicity(ps[1..], f);
      assert ps == [ps[0]] + ps[1..];
    }
  }

  predicate IsDefaultFilter(f: Filters) {
    f.category == AllValues && f.price == AllValues && f.rating == AllValues && f.search == ""
  }

  /** With every filter at its default, every product matches and filtering returns the list unchanged. */
  lemma {:induction false} DefaultFiltersKeepAll(ps: seq<Product>, f: Filters)
    requires IsDefaultFilter(f)
    ensures FilterProducts(ps, f) == ps
  {
    if |ps| > 0 {
      DefaultFiltersKeepAll(ps[1..], f);
      assert ps == [ps[0]] + ps[1..];
    }
  }

  // ---------------------------------------------------------------- sorting

  /**
    The comparator of each sort option as an ascending integer key. The
    locale-aware name comparison is the parameter `nameRank`.
  */
  function SortKey(sort: string, nameRank: string -> int): Product -> int {
    if sort == "name" then (p: Product) => nameRank(p.name)
    else if sort == "price-low" then (p: Product) => p.price
    else if sort == "price-high" then (p: Product) => -p.price
    else if sort == "rating" then (p: Product) => -(p.rating as int)
    else if sort == "newest" then (p: Product) => -p.dateAdded
    else (p: Product) => 0
  }

  predicate IsKnownSort(sort: string) {
    sort in {"name", "price-low", "price-high", "rating", "newest"}
  }

  /** `sortProducts`: a stable sort with the comparator chosen by the sort option. */
  function SortProducts(ps: seq<Product>, sort: string, nameRank: string -> int): (r: seq<Product>)
    ensures multiset(r) == multiset(ps)
    ensures sort == "price-low" ==> forall i, j :: 0 <= i < j < |r| ==> r[i].price <= r[j].price
    ensures sort == "price-high" ==> forall i, j :: 0 <= i < j < |r| ==> r[i].price >= r[j].price
    ensures sort == "rating" ==> forall i, j :: 0 <= i < j < |r| ==> r[i].rating >= r[j].rating
    ensures sort == "newest" ==> forall i, j :: 0 <= i < j < |r| ==> r[i].dateAdded >= r[j].dateAdded
    ensures sort == "name" ==> forall i, j :: 0 <= i < j < |r| ==> nameRank(r[i].name) <= nameRank(r[j].name)
    ensures !IsKnownSort(sort) ==> r == ps
  {
    var key := SortKey(sort, nameRank);
    var r := SortBy(ps, key);
    assert SortedBy(r, key);
    assert !IsKnownSort(sort) ==> r == ps by {
      if !IsKnownSort(sort) {
        SortByConstantKey(ps, key);
      }
    }
    r
  }

  /**
    `applyFilters`: filter, then sort. The result is a permutation of the
    matching products, in the order of the selected sort.
  */
  function ApplyFilters(ps: seq<Product>, f: Filters, nameRank: string -> int): (r: seq<Product>)
    ensures multiset(r) == multiset(FilterProducts(ps, f))
    ensures SortedBy(r, SortKey(f.sort, nameRank))
    ensures forall i :: 0 <= i < |r| ==> MatchesFilters(r[i], f)
    ensures forall p :: p in ps && MatchesFilters(p, f) ==> p in r
  {
    var filtered := FilterProducts(ps, f);
    var r := SortProducts(filtered, f.sort, nameRank);
    assert forall i :: 0 <= i < |r| ==> r[i] in multiset(filtered);
    assert forall p :: p in filtered ==> p in multiset(r);
    r
  }

  /** With default filters and an unrecognised sort option, the page shows the products in their original order. */
  lemma DefaultViewIsIdentity(ps: seq<Product>, f: Filters, nameRank: string -> int)
    requires IsDefaultFilter(f) && !IsKnownSort(f.sort)
    ensures ApplyFilters(ps, f, nameRank) == ps
  {
    DefaultFiltersKeepAll(ps, f);
  }

  // ---------------------------------------------------------------- stars

  const FullStar: char := '★'   // black star
  const EmptyStar: char := '☆'  // white star, also used for the "half" star

  function Repeat(c: char, n: nat): (s: string)
    ensures |s| == n && forall i :: 0 <= i < n ==> s[i] == c
  {
    if n == 0 then [] else [c] + Repeat(c, n - 1)
  }

  /**
    `generateStars`: the glyph of each `<span class="star">`. The half star
    uses the empty-star glyph, so the row is the whole stars followed by empty
    ones; a rating above five gives more than five spans.
  */
  function GenerateStars(rating: nat): (r: string)
    ensures |r| == if rating / 10 + (if rating % 10 >= 5 then 1 else 0) >= 5
                   then rating / 10 + (if rating % 10 >= 5 then 1 else 0) else 5
    ensures forall i :: 0 <= i < |r| ==> (r[i] == FullStar <==> i < rating / 10)
    ensures forall i :: 0 <= i < |r| ==> r[i] in {FullStar, EmptyStar}
  {
    var full := rating / 10;
    var half := rating % 10 >= 5;
    var empty := 5 - full - (if half then 1 else 0);
    Repeat(FullStar, full) + (if half then [EmptyStar] else []) + Repeat(EmptyStar, if empty > 0 then empty else 0)
  }

  /** For ratings from 0 to 5 stars the row has exactly five glyphs, the first ⌊rating⌋ of them full. */
  lemma StarsForValidRating(rating: nat)
    requires rating <= 50
    ensures |GenerateStars(rating)| == 5
    ensures forall i :: 0 <= i < 5 ==> (GenerateStars(rating)[i] == FullStar <==> i < rating / 10)
  {
  }

  // ---------------------------------------------------------------- active filter tags

  datatype Tag = CategoryTag(value: string) | PriceTag(value: string) | RatingTag(value: string) | SearchTag(value: string)

  /** Position of each kind of tag in the row. */
  function Rank(t: Tag): nat {
    match t
    case CategoryTag(_) => 0
    case PriceTag(_) => 1
    case RatingTag(_) => 2
    case SearchTag(_) => 3
  }

  /** The text inside each `<span class="filter-tag">`. */
  function TagText(t: Tag): (r: string)
    ensures "Category: " <= r <==> t.CategoryTag?
    ensures "Price: " <= r <==> t.PriceTag?
    ensures "Rating: " <= r <==> t.RatingTag?
    ensures "Search: \"" <= r <==> t.SearchTag?
    ensures t.CategoryTag? ==> r[|"Category: "|..] == t.value
    ensures t.PriceTag? ==> r[|"Price: "|..] == t.value
    ensures t.RatingTag? ==> |r| == |"Rating: "| + |t.value| + |"+ stars"|
    ensures t.SearchTag? ==> |r| == |"Search: \""| + |t.value| + 1
    ensures t.RatingTag? ==> r[|"Rating: "|..|r| - |"+ stars"|] == t.value && "+ stars" <= r[|r| - |"+ stars"|..]
    ensures t.SearchTag? ==> r[|"Search: \""|..|r| - 1] == t.value && r[|r| - 1] == '"'
  {
    match t
    case CategoryTag(v) => var r := "Category: " + v; assert r[0] == 'C'; r
    case PriceTag(v) => var r := "Price: " + v; assert r[0] == 'P'; r
    case RatingTag(v) => var r := "Rating: " + v + "+ stars"; assert r[0] == 'R'; r
    case SearchTag(v) => var r := "Search: \"" + v + "\""; assert r[0] == 'S'; r
  }

  /** `updateActiveFilters`: one tag per non-default filter, in the order category, price, rating, search. */
  function ActiveFilterTags(f: Filters): (r: seq<Tag>)
    ensures forall i, j :: 0 <= i < j < |r| ==> Rank(r[i]) < Rank(r[j])
    ensures r == [] <==> IsDefaultFilter(f)
  {
    Optional(f.category != AllValues, CategoryTag(f.category))
    + Optional(f.price != AllValues, PriceTag(f.price))
    + Optional(f.rating != AllValues, RatingTag(f.rating))
    + Optional(f.search != "", SearchTag(f.search))
  }

  /** A filter has a tag exactly when it is not at its default, and no other tag appears. */
  lemma ActiveFilterTagsExact(f: Filters)
    ensures CategoryTag(f.category) in ActiveFilterTags(f) <==> f.category != AllValues
    ensures PriceTag(f.price) in ActiveFilterTags(f) <==> f.price != AllValues
    ensures RatingTag(f.rating) in ActiveFilterTags(f) <==> f.rating != AllValues
    ensures SearchTag(f.search) in ActiveFilterTags(f) <==> f.search != ""
    ensures forall t :: t in ActiveFilterTags(f) ==>
              t == CategoryTag(f.category) || t == PriceTag(f.price) || t == RatingTag(f.rating) || t == SearchTag(f.search)
  {
    var r := ActiveFilterTags(f);
    var a := Optional(f.category != AllValues, CategoryTag(f.category));
    var b := Optional(f.price != AllValues, PriceTag(f.price));
    var c := Optional(f.rating != AllValues, RatingTag(f.rating));
    var d := Optional(f.search != "", SearchTag(f.search));
    assert r == a + b + c + d;
    assert forall t :: t in r <==> t in a || t in b || t in c || t in d;
  }

  /** The one-element sequence holding `t` when `keep`, else the empty one. */
  function Optional(keep: bool, t: Tag): (r: seq<Tag>)
    ensures forall u :: u in r <==> keep && u == t
  {
    if keep then [t] else []
  }

  /** After "clear all filters" no tag is shown and every product is listed. */
  lemma ClearedStateShowsEverything(ps: seq<Product>)
    ensures ActiveFilterTags(ClearAllFilters()) == []
    ensures FilterProducts(ps, ClearAllFilters()) == ps
  {
    DefaultFiltersKeepAll(ps, ClearAllFilters());
  }

  // ---------------------------------------------------------------- addProduct

  /**
    `Math.max(...ids) + 1`. An empty list gives `-Infinity`, which is not an
    integer and is represented by `None`.
  */
  function NewProductId(ids: seq<int>): (r: Option<int>)
    ensures r.None? <==> |ids| == 0
    ensures r.Some? ==> forall i :: 0 <= i < |ids| ==> ids[i] < r.value
    ensures r.Some? ==> r.value - 1 in ids
  {
    if |ids| == 0 then None
    else
      var rest := NewProductId(ids[1..]);
      assert ids == [ids[0]] + ids[1..];
      if rest.None? || ids[0] + 1 > rest.value then Some(ids[0] + 1) else rest
  }

  function Ids(ps: seq<Product>): (ids: seq<int>)
    ensures |ids| == |ps| && forall i :: 0 <= i < |ps| ==> ids[i] == ps[i].id
  {
    seq(|ps|, i requires 0 <= i < |ps| => ps[i].id)
  }

  /** `ProductFilterUtils.addProduct` on a list: appends the new product with the next id. */
  function AddProduct(ps: seq<Product>, name: string, category: string, price: int, rating: nat,
                      description: string, image: string, today: int): (r: Option<seq<Product>>)
    ensures r.None? <==> |ps| == 0
    ensures r.Some? ==> |r.value| == |ps| + 1 && r.value[..|ps|] == ps
    ensures r.Some? ==> forall i :: 0 <= i < |ps| ==> ps[i].id < r.value[|ps|].id
    ensures r.Some? ==> exists i :: 0 <= i < |ps| && ps[i].id + 1 == r.value[|ps|].id
    ensures r.Some? ==> r.value[|ps|].(id := 0) == Product(0, name, category, price, rating, description, image, today)
  {
    match NewProductId(Ids(ps))
    case None => None
    case Some(id) => Some(ps + [Product(id, name, category, price, rating, description, image, today)])
  }
}

=== FILE: sorting.dfy ===
/**
  Stable sorting by an integer key. Both `Array.prototype.sort` (JavaScript)
  and `Stream.sorted` / `List.sort` (Java) are stable, so a comparator that
  returns zero keeps the original relative order.
*/
module Sorting {

  predicate SortedBy<T>(s: seq<T>, key: T -> int) {
    forall i, j :: 0 <= i < j < |s| ==> key(s[i]) <= key(s[j])
  }

  /** Putting an element no larger than the head in front of a sorted sequence keeps it sorted. */
  lemma SortedCons<T>(h: T, t: seq<T>, key: T -> int)
    requires SortedBy(t, key) && (|t| > 0 ==> key(h) <= key(t[0]))
    ensures SortedBy([h] + t, key)
  {
    var r := [h] + t;
    forall i, j | 0 <= i < j < |r|
      ensures key(r[i]) <= key(r[j])
    {
      assert r[j] == t[j - 1];
      if i > 0 {
        assert r[i] == t[i - 1];
      } else if j > 1 {
        assert key(t[0]) <= key(t[j - 1]);
      }
    }
  }

  /** Inserts `x` in front of every element whose key is not smaller than its own. */
  function Insert<T>(x: T, s: seq<T>, key: T -> int): (r: seq<T>)
    requires SortedBy(s, key)
    ensures SortedBy(r, key)
    ensures multiset(r) == multiset(s) + multiset{x}
    ensures |r| == |s| + 1
    ensures r[0] == x || (|s| > 0 && r[0] == s[0])
  {
    if |s| == 0 || key(x) <= key(s[0]) then
      SortedCons(x, s, key);
      [x] + s
    else
      assert s == [s[0]] + s[1..];
      var t := Insert(x, s[1..], key);
      assert |s| > 1 ==> key(s[0]) <= key(s[1]);
      SortedCons(s[0], t, key);
      [s[0]] + t
  }

  /** Insertion sort: the first element goes in front of the equal-keyed rest, which makes it stable. */
  function SortBy<T>(s: seq<T>, key: T -> int): (r: seq<T>)
    ensures SortedBy(r, key)
    ensures multiset(r) == multiset(s)
    ensures |r| == |s|
  {
    if |s| == 0 then []
    else
      assert s == [s[0]] + s[1..];
      Insert(s[0], SortBy(s[1..], key), key)
  }

  /** `r` is obtained from `s` by deleting elements, keeping the order of the rest. */
  ghost predicate IsSubsequence<T>(r: seq<T>, s: seq<T>)
    decreases |s|
  {
    |r| == 0 || (|s| > 0 && ((r[0] == s[0] && IsSubsequence(r[1..], s[1..])) || IsSubsequence(r, s[1..])))
  }

  /** When every key is the same (a comparator that always answers 0), sorting changes nothing. */
  lemma {:induction false} SortByConstantKey<T>(s: seq<T>, key: T -> int)
    requires forall i, j :: 0 <= i < |s| && 0 <= j < |s| ==> key(s[i]) == key(s[j])
    ensures SortBy(s, key) == s
  {
    if |s| > 0 {
      SortByConstantKey(s[1..], key);
      assert s == [s[0]] + s[1..];
    }
  }
}

=== FILE: strings.dfy ===
/**
  Text helpers with the exact semantics of the Java and JavaScript library calls
  the services rely on: `String.trim`, ASCII lower-casing, substring search and
  `String.split` on a one-character delimiter.
*/
module Strings {

  /** `String.trim` in Java strips every character whose code is at most U+0020. */
  predicate IsTrimmed(c: char) {
    c <= ' '
  }

  function TrimStart(s: string): (r: string)
    ensures |r| <= |s| && r == s[|s| - |r|..]
    ensures forall i :: 0 <= i < |s| - |r| ==> IsTrimmed(s[i])
    ensures r != [] ==> !IsTrimmed(r[0])
  {
    if |s| > 0 && IsTrimmed(s[0]) then TrimStart(s[1..]) else s
  }

  function TrimEnd(s: string): (r: string)
    ensures |r| <= |s| && r == s[..|r|]
    ensures forall i :: |r| <= i < |s| ==> IsTrimmed(s[i])
    ensures r != [] ==> !IsTrimmed(r[|r| - 1])
  {
    if |s| > 0 && IsTrimmed(s[|s| - 1]) then TrimEnd(s[..|s| - 1]) else s
  }

  /** Java's `String.trim()`. */
  function Trim(s: string): (r: string)
    ensures exists k :: 0 <= k <= |s| && r <= s[k..] && IsStrippedAround(s, k, |r|)
    ensures r != [] ==> !IsTrimmed(r[0]) && !IsTrimmed(r[|r| - 1])
  {
    var t := TrimStart(s);
    var r := TrimEnd(t);
    var k := |s| - |t|;
    assert t == s[k..];
    assert r <= s[k..];
    assert IsStrippedAround(s, k, |r|);
    assert 0 <= k <= |s| && r <= s[k..] && IsStrippedAround(s, k, |r|);
    assert r != [] ==> r[0] == t[0];
    r
  }

  /** Everything of `s` outside the window `[k, k + n)` is trimmable. */
  ghost predicate IsStrippedAround(s: string, k: nat, n: nat) {
    && k + n <= |s|
    && (forall i :: 0 <= i < k ==> IsTrimmed(s[i]))
    && (forall i :: k + n <= i < |s| ==> IsTrimmed(s[i]))
  }

  /** Case mapping of one character; only the ASCII letters are mapped. */
  function LowerChar(c: char): char {
    if 'A' <= c <= 'Z' then (c as int + 32) as char else c
  }

  predicate IsUpperAscii(c: char) {
    'A' <= c <= 'Z'
  }

  /** `toLowerCase()` restricted to ASCII letters. */
  function Lower(s: string): (r: string)
    ensures |r| == |s|
    ensures forall i :: 0 <= i < |s| ==> r[i] == LowerChar(s[i])
  {
    seq(|s|, i requires 0 <= i < |s| => LowerChar(s[i]))
  }

  /** Lower-casing twice is lower-casing once. */
  lemma LowerIdempotent(s: string)
    ensures Lower(Lower(s)) == Lower(s)
  {
    var l := Lower(s);
    forall i | 0 <= i < |s|
      ensures Lower(l)[i] == l[i]
    {
      assert l[i] == LowerChar(s[i]);
    }
  }

  lemma LowerHasNoUpper(s: string)
    ensures forall i :: 0 <= i < |s| ==> !IsUpperAscii(Lower(s)[i])
  {
  }

  /** The specification of substring search: `pat` occurs in `text` at some offset. */
  ghost predicate OccursIn(pat: string, text: string) {
    exists k :: 0 <= k <= |text| && pat <= text[k..]
  }

  /** `text.includes(pat)` / `text.contains(pat)`. */
  function Contains(text: string, pat: string): (r: bool)
    ensures r <==> OccursIn(pat, text)
    decreases |text|
  {
    if pat <= text then
      assert text[0..] == text;
      true
    else if |text| == 0 then
      false
    else
      var r := Contains(text[1..], pat);
      assert forall k :: 1 <= k <= |text| ==> text[k..] == text[1..][k - 1..];
      r
  }

  /** Position of the first occurrence of `c` in `s`. */
  function IndexOf(s: string, c: char): (i: nat)
    requires c in s
    ensures i < |s| && s[i] == c && c !in s[..i]
  {
    if s[0] == c then 0 else 1 + IndexOf(s[1..], c)
  }

  /** The first position holding `c` is the one `IndexOf` finds. */
  lemma {:induction false} IndexOfIsFirst(s: string, c: char, n: nat)
    requires n < |s| && s[n] == c && c !in s[..n]
    ensures IndexOf(s, c) == n
  {
    if n > 0 {
      assert s[0] == s[..n][0];
      assert s[1..][..n - 1] == s[..n][1..];
      IndexOfIsFirst(s[1..], c, n - 1);
    }
  }

  /** Inverse of splitting: the fields glued back together with the delimiter. */
  function Join(parts: seq<string>, d: char): string
    requires |parts| >= 1
  {
    if |parts| == 1 then parts[0] else parts[0] + [d] + Join(parts[1..], d)
  }

  /** Every field between two consecutive delimiters, empty fields included. */
  function SplitAll(s: string, d: char): (r: seq<string>)
    ensures |r| >= 1
    ensures forall i :: 0 <= i < |r| ==> d !in r[i]
    ensures Join(r, d) == s
    ensures d in s ==> r[0] == s[..IndexOf(s, d)]
    decreases |s|
  {
    if d !in s then [s]
    else
      var i := IndexOf(s, d);
      var rest := SplitAll(s[i + 1..], d);
      assert s == s[..i] + [d] + s[i + 1..];
      [s[..i]] + rest
  }

  /** Splitting undoes joining delimiter-free fields. */
  lemma {:induction false} SplitJoin(parts: seq<string>, d: char)
    requires |parts| >= 1
    requires forall i :: 0 <= i < |parts| ==> d !in parts[i]
    ensures SplitAll(Join(parts, d), d) == parts
  {
    if |parts| > 1 {
      var s := Join(parts, d);
      SplitJoin(parts[1..], d);
      assert s == parts[0] + [d] + Join(parts[1..], d);
      assert d in s by { assert s[|parts[0]|] == d; }
      var n := |parts[0]|;
      assert s[..n] == parts[0];
      IndexOfIsFirst(s, d, n);
      var i := IndexOf(s, d);
      assert s[..i] == parts[0];
      assert s[i + 1..] == Join(parts[1..], d);
    }
  }

  /** Joined fields that are all empty leave nothing but delimiters. */
  lemma {:induction false} JoinOfEmptyFields(parts: seq<string>, d: char)
    requires |parts| >= 1
    requires forall i :: 0 <= i < |parts| ==> parts[i] == ""
    ensures forall c :: c in Join(parts, d) ==> c == d
  {
    if |parts| > 1 {
      JoinOfEmptyFields(parts[1..], d);
    }
  }

  /** Every character of every field is a character of the joined string. */
  lemma {:induction false} JoinKeepsFieldChars(parts: seq<string>, d: char, i: nat, c: char)
    requires |parts| >= 1 && i < |parts| && c in parts[i]
    ensures c in Join(parts, d)
  {
    if |parts| > 1 && i > 0 {
      JoinKeepsFieldChars(parts[1..], d, i - 1, c);
    }
  }

  /** Removes trailing empty strings, as `String.split` does with limit zero. */
  function DropTrailingEmpty(r: seq<string>): (t: seq<string>)
    ensures t <= r
    ensures forall i :: |t| <= i < |r| ==> r[i] == ""
    ensures t != [] ==> t[|t| - 1] != ""
  {
    if |r| == 0 || r[|r| - 1] != "" then r else DropTrailingEmpty(r[..|r| - 1])
  }

  /**
    Java's `s.split(String.valueOf(d))` for a delimiter that is not a regular
    expression metacharacter: a string without the delimiter gives itself, any
    other string gives its fields without the trailing empty ones.
  */
  function JavaSplit(s: string, d: char): (r: seq<string>)
    ensures r <= SplitAll(s, d)
    ensures forall i :: |r| <= i < |SplitAll(s, d)| ==> SplitAll(s, d)[i] == ""
    ensures d !in s ==> r == [s]
    ensures d in s && r != [] ==> r[|r| - 1] != ""
  {
    if d !in s then [s] else DropTrailingEmpty(SplitAll(s, d))
  }

  /** Splitting `a + [d] + b` with delimiter-free, non-empty `b` gives exactly the two parts. */
  lemma JavaSplitPair(a: string, b: string, d: char)
    requires d !in a && d !in b && b != ""
    ensures JavaSplit(a + [d] + b, d) == [a, b]
  {
    SplitJoin([a, b], d);
    assert Join([a, b], d) == a + [d] + Join([b], d);
    assert (a + [d] + b)[|a|] == d;
  }
}

=== FILE: utf8.dfy ===
/**
  UTF-8 as `encodeURIComponent` produces it and `decodeURIComponent` accepts
  it: each Unicode scalar value becomes one to four bytes, and decoding
  accepts only the well-formed sequences (no overlong forms, no surrogates,
  nothing above U+10FFFF).
*/
module Utf8 {
  import opened Wrappers

  type byte = b: int | 0 <= b < 256

  predicate IsScalar(cp: int) {
    0 <= cp < 0xD800 || 0xE000 <= cp < 0x11_0000
  }

  predicate IsCont(b: byte) {
    0x80 <= b < 0xC0
  }

  /** The number of bytes UTF-8 spends on a scalar value. */
  function Width(cp: int): nat {
    if cp < 0x80 then 1 else if cp < 0x800 then 2 else if cp < 0x1_0000 then 3 else 4
  }

  /** The UTF-8 bytes of one character. */
  function EncodeChar(c: char): (r: seq<byte>)
    ensures |r| == Width(c as int)
    ensures |r| == 1 ==> r[0] < 0x80
    ensures |r| > 1 ==> forall i :: 1 <= i < |r| ==> IsCont(r[i])
    ensures |r| == 2 ==> 0xC2 <= r[0] <= 0xDF
    ensures |r| == 3 ==> 0xE0 <= r[0] <= 0xEF
    ensures |r| == 4 ==> 0xF0 <= r[0] <= 0xF4
  {
    var cp := c as int;
    if cp < 0x80 then [cp]
    else if cp < 0x800 then [0xC0 + cp / 64, 0x80 + cp % 64]
    else if cp < 0x1_0000 then [0xE0 + cp / 4096, 0x80 + (cp / 64) % 64, 0x80 + cp % 64]
    else [0xF0 + cp / 262144, 0x80 + (cp / 4096) % 64, 0x80 + (cp / 64) % 64, 0x80 + cp % 64]
  }

  /** The UTF-8 bytes of a string. */
  function Encode(s: string): (r: seq<byte>)
    ensures |r| >= |s|
    ensures |s| > 0 ==> r == EncodeChar(s[0]) + Encode(s[1..])
  {
    if |s| == 0 then [] else EncodeChar(s[0]) + Encode(s[1..])
  }

  function Between(b: byte, lo: int, hi: int): bool {
    lo <= b <= hi
  }

  /** A two-byte form: lead C2..DF and one continuation byte. */
  function DecodeTwo(bs: seq<byte>): (r: Option<(char, nat)>)
    requires |bs| > 0 && 0xC2 <= bs[0] <= 0xDF
    ensures r.Some? ==> r.value.1 == 2 <= |bs|
  {
    if |bs| >= 2 && IsCont(bs[1]) then
      var cp := (bs[0] as int - 0xC0) * 64 + (bs[1] as int - 0x80);
      Some((cp as char, 2))
    else None
  }

  /** A three-byte form: after E0 the second byte is A0..BF (no overlong form), after ED it is 80..9F (no surrogate). */
  function DecodeThree(bs: seq<byte>): (r: Option<(char, nat)>)
    requires |bs| > 0 && 0xE0 <= bs[0] <= 0xEF
    ensures r.Some? ==> r.value.1 == 3 <= |bs|
  {
    var b0 := bs[0];
    var lo := if b0 == 0xE0 then 0xA0 else 0x80;
    var hi := if b0 == 0xED then 0x9F else 0xBF;
    if |bs| >= 3 && Between(bs[1], lo, hi) && IsCont(bs[2]) then
      var cp := (b0 as int - 0xE0) * 4096 + (bs[1] as int - 0x80) * 64 + (bs[2] as int - 0x80);
      assert cp < 0xD800 || 0xE000 <= cp < 0x1_0000;
      Some((cp as char, 3))
    else None
  }

  /** A four-byte form: after F0 the second byte is 90..BF (no overlong form), after F4 it is 80..8F (nothing above U+10FFFF). */
  function DecodeFour(bs: seq<byte>): (r: Option<(char, nat)>)
    requires |bs| > 0 && 0xF0 <= bs[0] <= 0xF4
    ensures r.Some? ==> r.value.1 == 4 <= |bs|
  {
    var b0 := bs[0];
    var lo := if b0 == 0xF0 then 0x90 else 0x80;
    var hi := if b0 == 0xF4 then 0x8F else 0xBF;
    if |bs| >= 4 && Between(bs[1], lo, hi) && IsCont(bs[2]) && IsCont(bs[3]) then
      var cp := (b0 as int - 0xF0) * 262144 + (bs[1] as int - 0x80) * 4096 + (bs[2] as int - 0x80) * 64 + (bs[3] as int - 0x80);
      assert 0x1_0000 <= cp < 0x11_0000;
      Some((cp as char, 4))
    else None
  }

  /**
    The scalar value at the front of `bs` and the number of bytes it takes,
    or nothing when the front is not a well-formed UTF-8 sequence (a stray
    continuation byte, C0, C1 and F5..FF never start one).
  */
  function DecodeFirst(bs: seq<byte>): (r: Option<(char, nat)>)
    ensures r.Some? ==> 1 <= r.value.1 <= |bs| && r.value.1 <= 4
  {
    if |bs| == 0 then None
    else if bs[0] < 0x80 then Some((bs[0] as char, 1))
    else if 0xC2 <= bs[0] <= 0xDF then DecodeTwo(bs)
    else if 0xE0 <= bs[0] <= 0xEF then DecodeThree(bs)
    else if 0xF0 <= bs[0] <= 0xF4 then DecodeFour(bs)
    else None
  }

  /** Strict decoding: the whole input must be a sequence of well-formed characters. */
  function Decode(bs: seq<byte>): (r: Option<string>)
    decreases |bs|
  {
    if |bs| == 0 then Some([])
    else
      match DecodeFirst(bs)
      case None => None
      case Some((c, k)) =>
        match Decode(bs[k..])
        case None => None
        case Some(rest) => Some([c] + rest)
  }

  // ---------------------------------------------------------------- round trips

  // Base-64 digit arithmetic behind the multi-byte forms, kept apart from the sequence reasoning.

  lemma Digits2(cp: int)
    requires 0 <= cp < 0x800
    ensures (cp / 64) * 64 + cp % 64 == cp && 0 <= cp / 64 < 32
  {
  }

  lemma Undigits2(a: int, b: int)
    requires 0 <= a < 32 && 0 <= b < 64
    ensures (a * 64 + b) / 64 == a && (a * 64 + b) % 64 == b
  {
  }

  lemma Digits3(cp: int)
    requires 0 <= cp < 0x1_0000
    ensures (cp / 4096) * 4096 + ((cp / 64) % 64) * 64 + cp % 64 == cp
    ensures 0 <= cp / 4096 < 16
    ensures cp >= 0x800 && cp / 4096 == 0 ==> (cp / 64) % 64 >= 0x20
    ensures cp < 0xD800 && cp / 4096 == 0xD ==> (cp / 64) % 64 < 0x20
  {
    var q1, q2 := cp / 64, cp / 4096;
    DivDiv(cp);
    assert cp == q1 * 64 + cp % 64;
    assert q1 == q2 * 64 + q1 % 64;
  }

  lemma Undigits3(a: int, b: int, c: int)
    requires 0 <= a < 16 && 0 <= b < 64 && 0 <= c < 64
    ensures var cp := a * 4096 + b * 64 + c;
            cp / 4096 == a && (cp / 64) % 64 == b && cp % 64 == c
  {
    var cp := a * 4096 + b * 64 + c;
    var y := a * 64 + b;
    assert cp == y * 64 + c;
    Step64(y, c);
    Step64(a, b);
    DivDiv(cp);
  }

  lemma Digits4(cp: int)
    requires 0 <= cp < 0x100_0000
    ensures (cp / 262144) * 262144 + ((cp / 4096) % 64) * 4096 + ((cp / 64) % 64) * 64 + cp % 64 == cp
    ensures 0 <= cp / 262144 < 64
    ensures cp < 0x20_0000 ==> cp / 262144 < 8
    ensures cp >= 0x1_0000 && cp / 262144 == 0 ==> (cp / 4096) % 64 >= 0x10
    ensures cp < 0x11_0000 && cp / 262144 == 4 ==> (cp / 4096) % 64 < 0x10
  {
    var q1, q2, q3 := cp / 64, cp / 4096, cp / 262144;
    DivDiv(cp);
    DivDiv(cp / 64);
    assert q3 == q2 / 64;
    assert cp == q1 * 64 + cp % 64;
    assert q1 == q2 * 64 + q1 % 64;
    assert q2 == q3 * 64 + q2 % 64;
  }

  lemma Undigits4(a: int, b: int, c: int, d: int)
    requires 0 <= a < 64 && 0 <= b < 64 && 0 <= c < 64 && 0 <= d < 64
    ensures var cp := a * 262144 + b * 4096 + c * 64 + d;
            cp / 262144 == a && (cp / 4096) % 64 == b && (cp / 64) % 64 == c && cp % 64 == d
  {
    var cp := a * 262144 + b * 4096 + c * 64 + d;
    var y := a * 64 + b;
    var x := y * 64 + c;
    assert cp == x * 64 + d;
    Step64(x, d);
    Step64(y, c);
    Step64(a, b);
    DivDiv(cp);
    DivDiv(cp / 64);
  }

  lemma Step64(x: int, d: int)
    requires 0 <= d < 64
    ensures (x * 64 + d) / 64 == x && (x * 64 + d) % 64 == d
  {
  }

  /** Dividing by 64 twice divides by 4096. */
  lemma DivDiv(n: int)
    requires n >= 0
    ensures n / 4096 == (n / 64) / 64
  {
  }

  /** Decoding the bytes of a character gives back that character and consumes exactly its bytes. */
  lemma DecodeFirstOfEncodeChar(c: char, rest: seq<byte>)
    ensures DecodeFirst(EncodeChar(c) + rest) == Some((c, |EncodeChar(c)|))
  {
    var cp := c as int;
    var bs := EncodeChar(c) + rest;
    if cp < 0x80 {
    } else if cp < 0x800 {
      Digits2(cp);
      assert bs[0] == 0xC0 + cp / 64 && bs[1] == 0x80 + cp % 64;
    } else if cp < 0x1_0000 {
      Digits3(cp);
      assert bs[0] == 0xE0 + cp / 4096 && bs[1] == 0x80 + (cp / 64) % 64 && bs[2] == 0x80 + cp % 64;
    } else {
      Digits4(cp);
      assert bs[0] == 0xF0 + cp / 262144 && bs[1] == 0x80 + (cp / 4096) % 64;
      assert bs[2] == 0x80 + (cp / 64) % 64 && bs[3] == 0x80 + cp % 64;
    }
  }

  /** Every string survives a UTF-8 round trip. */
  lemma {:induction false} DecodeEncode(s: string)
    ensures Decode(Encode(s)) == Some(s)
  {
    if |s| > 0 {
      var e := EncodeChar(s[0]);
      DecodeFirstOfEncodeChar(s[0], Encode(s[1..]));
      assert (e + Encode(s[1..]))[|e|..] == Encode(s[1..]);
      DecodeEncode(s[1..]);
      assert [s[0]] + s[1..] == s;
    }
  }

  lemma Exact2(b0: byte, b1: byte)
    requires 0xC2 <= b0 <= 0xDF && IsCont(b1)
    ensures var cp := (b0 as int - 0xC0) * 64 + (b1 as int - 0x80);
            IsScalar(cp) && EncodeChar(cp as char) == [b0, b1]
  {
    Undigits2(b0 - 0xC0, b1 - 0x80);
  }

  lemma Exact3(b0: byte, b1: byte, b2: byte)
    requires 0xE0 <= b0 <= 0xEF && IsCont(b1) && IsCont(b2)
    requires b0 == 0xE0 ==> b1 >= 0xA0
    requires b0 == 0xED ==> b1 <= 0x9F
    ensures var cp := (b0 as int - 0xE0) * 4096 + (b1 as int - 0x80) * 64 + (b2 as int - 0x80);
            IsScalar(cp) && EncodeChar(cp as char) == [b0, b1, b2]
  {
    Undigits3(b0 - 0xE0, b1 - 0x80, b2 - 0x80);
  }

  lemma Exact4(b0: byte, b1: byte, b2: byte, b3: byte)
    requires 0xF0 <= b0 <= 0xF4 && IsCont(b1) && IsCont(b2) && IsCont(b3)
    requires b0 == 0xF0 ==> b1 >= 0x90
    requires b0 == 0xF4 ==> b1 <= 0x8F
    ensures var cp := (b0 as int - 0xF0) * 262144 + (b1 as int - 0x80) * 4096 + (b2 as int - 0x80) * 64 + (b3 as int - 0x80);
            IsScalar(cp) && EncodeChar(cp as char) == [b0, b1, b2, b3]
  {
    Undigits4(b0 - 0xF0, b1 - 0x80, b2 - 0x80, b3 - 0x80);
  }

  /** What `DecodeFirst` accepts is exactly the encoding of the character it yields. */
  lemma DecodeFirstIsExact(bs: seq<byte>)
    requires DecodeFirst(bs).Some?
    ensures bs[..DecodeFirst(bs).value.1] == EncodeChar(DecodeFirst(bs).value.0)
  {
    var k := DecodeFirst(bs).value.1;
    if k == 2 {
      Exact2(bs[0], bs[1]);
      assert bs[..2] == [bs[0], bs[1]];
    } else if k == 3 {
      Exact3(bs[0], bs[1], bs[2]);
      assert bs[..3] == [bs[0], bs[1], bs[2]];
    } else if k == 4 {
      Exact4(bs[0], bs[1], bs[2], bs[3]);
      assert bs[..4] == [bs[0], bs[1], bs[2], bs[3]];
    }
  }

  /** A successful decode is the first character followed by the decode of the rest. */
  lemma DecodeCons(bs: seq<byte>)
    requires |bs| > 0 && Decode(bs).Some?
    ensures DecodeFirst(bs).Some?
    ensures var (c, k) := DecodeFirst(bs).value;
            Decode(bs[k..]).Some? && Decode(bs).value == [c] + Decode(bs[k..]).value
  {
  }

  /** Whatever decodes is the encoding of what it decodes to: there is exactly one way to write each string. */
  lemma {:induction false} EncodeDecode(bs: seq<byte>)
    requires Decode(bs).Some?
    ensures Encode(Decode(bs).value) == bs
    decreases |bs|
  {
    if |bs| > 0 {
      DecodeCons(bs);
      var k := DecodeFirst(bs).value.1;
      EncodeDecode(bs[k..]);
      EncodeDecodeStep(bs);
    }
  }

  /** One step of `EncodeDecode`: if the rest re-encodes to itself, so does the whole. */
  lemma EncodeDecodeStep(bs: seq<byte>)
    requires |bs| > 0 && Decode(bs).Some?
    requires DecodeFirst(bs).Some? && Decode(bs[DecodeFirst(bs).value.1..]).Some?
    requires Encode(Decode(bs[DecodeFirst(bs).value.1..]).value) == bs[DecodeFirst(bs).value.1..]
    ensures Encode(Decode(bs).value) == bs
  {
    DecodeCons(bs);
    var (c, k) := DecodeFirst(bs).value;
    var t := Decode(bs[k..]).value;
    assert EncodeChar(c) == bs[..k] by {
      DecodeFirstIsExact(bs);
    }
    EncodeCons(c, t);
    assert bs == bs[..k] + bs[k..];
  }

  lemma EncodeCons(c: char, t: string)
    ensures Encode([c] + t) == EncodeChar(c) + Encode(t)
  {
    assert ([c] + t)[1..] == t;
  }

  /** A lone continuation byte is not UTF-8. */
  lemma StrayContinuationRejected()
    ensures Decode([0x80]).None?
  {
  }

  /** The overlong two-byte form of '/' is rejected. */
  lemma OverlongRejected()
    ensures Decode([0xC0, 0xAF]).None?
  {
  }
}

=== FILE: wrappers.dfy ===
/** Failure-compatible wrappers shared by every module of the model. */
module Wrappers {

  /** Java's `Optional` and nullable references, and JavaScript's `null`. */
  datatype Option<+T> = None | Some(value: T) {
    predicate IsFailure() { None? }

    function PropagateFailure<U>(): Option<U>
      requires None?
    {
      None
    }

    function Extract(): T
      requires Some?
    {
      value
    }

    function GetOr(default: T): T {
      match this
      case Some(v) => v
      case None => default
    }
  }

  /** A service call that either returns a value or throws an exception carrying `error`. */
  datatype Result<+T> = Ok(value: T) | Err(error: string) {
    predicate IsFailure() { Err? }

    function PropagateFailure<U>(): Result<U>
      requires Err?
    {
      Err(error)
    }

    function Extract(): T
      requires Ok?
    {
      value
    }
  }
}
